=== FILE: README.md ===
# CodeScribe interaction pipeline and blog rules, in Dafny

This project models the core of CodeScribe, a blogging platform, and proves properties of the model. The core has two parts: the interaction-counting pipeline, and the small rule sets around it.

The pipeline is built from four pieces:

- **API service.** It validates requests and drives the blog lifecycle (draft → pending → published/rejected). Every like, unlike, view and comment is written as an event into a transactional outbox.
- **Outbox relay.** It claims up to 100 pending outbox records, oldest first, and settles each one as PROCESSED or FAILED.
- **Worker.** It folds interaction events into per-blog buckets, with last-write-wins between LIKE and UNLIKE. At flush time it turns each bucket into one counter increment on the blog document, plus trending-score increments.
- **Trending service.** It keeps one sorted set per window (`trending:24h`, `trending:7d`) and reads the top `limit` ids.

The rule sets around the pipeline are:

- the zod DTO bounds;
- the repository's query, sort and pagination construction;
- the tag-normalising middleware;
- RBAC;
- the error-to-response classification;
- the idempotency-key response cache;
- the profile-update whitelist;
- the pure text helpers of the web editor and of the post card.

Modelling choices:

- **Stateful objects are classes.** This covers the batch processor with its buffer, the trending service's sorted sets, the outbox collection, the blog service's collections, the user collection, the idempotency cache and the request body rewritten by `transformTags`. Their methods are proved against specification functions.
- **Pure logic is functions and lemmas.**
- **External stores become maps and sequences.** MongoDB, Redis and Kafka become `map`s and `seq`s held in class fields.
- **Outcomes the code cannot control become oracles.** These are a failing write, a failed publish, a thrown transaction step, a failing cache read, and the consumer's `isRunning()`/`isStale()` stop point. Each is an explicit parameter, so every branch of the code is covered.
- **Clock values are integer parameters.**

Module map:

| module | models |
|---|---|
| `BatchBuffer`, `BatchRun`, `InteractionBatch` | the worker's buffer, flush and batch loop |
| `Trending` | the trending service |
| `OutboxModel`, `Outbox` | the outbox schema and the relay |
| `Constants`, `Events` | shared constants and the event payload |
| `Blogs` | the blog service |
| `BlogRepository`, `BlogDto`, `AuthDto` | search construction and validators |
| `TransformTags`, `Rbac`, `ErrorMiddleware`, `Idempotency` | the middlewares |
| `Users` | the user service |
| `MarkdownEditor`, `PostCard` | the web helpers |
| `Text`, `Wrappers`, `ApiErrors` | shared helpers: JavaScript `split`/`join`/`trim`/`slice`/`indexOf` semantics, `Option`/`Result`, and HTTP errors |

## Model

| member | source | states |
|---|---|---|
| BatchBuffer.Record | blog-server/packages/worker/src/processors/InteractionBatchProcessor.ts:53-65 | LIKE puts the user in `likes` and takes them out of `unlikes`; UNLIKE does the reverse. VIEW adds exactly one view, and COMMENT changes neither set. Every other user's membership is unchanged, and disjoint sets stay disjoint. |
| BatchBuffer.Added | blog-server/packages/worker/src/processors/InteractionBatchProcessor.ts:46-66 | `addToBuffer`: the event's blog gets a bucket, created empty on first use. Only that bucket changes, and disjointness of every bucket is preserved. |
| BatchBuffer.AddedAllDisjoint | blog-server/packages/worker/src/processors/InteractionBatchProcessor.ts:54-61 | After any sequence of events, `likes` and `unlikes` are disjoint in every bucket. |
| BatchBuffer.AddedAllKeys | blog-server/packages/worker/src/processors/InteractionBatchProcessor.ts:48-50 | A bucket exists for exactly the blogs that received an event of any type, including COMMENT. |
| BatchBuffer.LastWriteWins | blog-server/packages/worker/src/processors/InteractionBatchProcessor.ts:54-61 | For one (blog, user), the user ends in the set named by their last LIKE/UNLIKE. Without such an event their membership is as before. |
| BatchBuffer.ViewsCounted | blog-server/packages/worker/src/processors/InteractionBatchProcessor.ts:62-64 | A bucket's `views` rises by exactly the number of VIEW events for that blog. |
| BatchBuffer.LikeThenUnlikeNetsMinusOne | blog-server/packages/worker/src/processors/InteractionBatchProcessor.ts:54-61 | A LIKE followed by an UNLIKE leaves the user only in `unlikes`, so `netLikes` is −1. |
| BatchBuffer.RepeatedLikesCountOnce | blog-server/packages/worker/src/processors/InteractionBatchProcessor.ts:54-57 | Two LIKEs by one user leave `likes == {user}`, so `netLikes` is 1. |
| BatchBuffer.CountersAfter | blog-server/packages/worker/src/processors/InteractionBatchProcessor.ts:82 | The `$inc` writes never create or delete a blog document. |
| BatchBuffer.FlushState | blog-server/packages/worker/src/processors/InteractionBatchProcessor.ts:72-92 | `flush` returns normally only with the buffer cleared. When it throws, the buffer is kept whole. It never touches the resolved offsets or the set of blog documents. |
| BatchBuffer.FlushEmptyIsNoOp | blog-server/packages/worker/src/processors/InteractionBatchProcessor.ts:73 | A flush of an empty buffer changes nothing and succeeds. |
| BatchBuffer.FlushIncrementsCountersOnce | blog-server/packages/worker/src/processors/InteractionBatchProcessor.ts:78-83 | A buffered blog whose counter write lands gets `likeCount += likes.size − unlikes.size` and `viewCount += views`, exactly once. Every other blog is unchanged. |
| BatchBuffer.FlushScores | blog-server/packages/worker/src/processors/InteractionBatchProcessor.ts:86-87 | In each window a blog's score rises by 2·netLikes only when netLikes > 0 and that write lands, and by `views` only when views > 0 and that write lands. Members that were not buffered keep their score. |
| BatchBuffer.FlushKeepsScoresNonNegative | blog-server/packages/worker/src/processors/InteractionBatchProcessor.ts:86-87 | Flushing never makes a trending score negative. |
| BatchRun.Step | blog-server/packages/worker/src/processors/InteractionBatchProcessor.ts:26-39 | A malformed message changes nothing. Without a flush, a parsed message is buffered and its offset resolved. At most the message's own offset is resolved. |
| BatchRun.ShouldFlush | blog-server/packages/worker/src/processors/InteractionBatchProcessor.ts:68-70 | The threshold is inclusive: a batch of exactly `batchSize` messages flushes per message, a smaller one never does. |
| BatchRun.Run | blog-server/packages/worker/src/processors/InteractionBatchProcessor.ts:23-40 | The loop over the first `n` messages only appends to the resolved offsets, at most one per message, and keeps the set of blogs. |
| BatchRun.Batch | blog-server/packages/worker/src/processors/InteractionBatchProcessor.ts:20-44 | After the loop and the final flush, a successful flush leaves the buffer empty. The resolved offsets only grow, by at most one per message, and the set of blogs is kept. |
| BatchRun.ResolvesOnlyParsed | blog-server/packages/worker/src/processors/InteractionBatchProcessor.ts:26-39 | The loop only appends to the resolved offsets, and only offsets of parsed messages. |
| BatchRun.MalformedNeverResolved | blog-server/packages/worker/src/processors/InteractionBatchProcessor.ts:26-39 | The offset of a message that fails to parse is never resolved. |
| BatchRun.SmallBatchResolvesEveryParsed | blog-server/packages/worker/src/processors/InteractionBatchProcessor.ts:23-35 | When the batch is below `batchSize`: every parsed message is resolved, in order, and no counter, score or TTL changes before the final flush. |
| BatchRun.LargeBatchFlushesEachMessage | blog-server/packages/worker/src/processors/InteractionBatchProcessor.ts:30-32 | When the batch reaches `batchSize` and flushes succeed: the buffer is empty after every message, and every parsed message is resolved. |
| BatchRun.FailedFlushLeavesOffsetUnresolved | blog-server/packages/worker/src/processors/InteractionBatchProcessor.ts:30-37 | A flush that throws leaves the message's offset unresolved and its event still buffered. |
| BatchRun.RunIgnoresLaterMessages | blog-server/packages/worker/src/processors/InteractionBatchProcessor.ts:24 | Messages after the stop point (`!isRunning() \|\| isStale()`) have no effect. |
| BatchRun.RunKeepsDisjoint | blog-server/packages/worker/src/processors/InteractionBatchProcessor.ts:23-40 | The loop keeps every bucket's `likes` and `unlikes` disjoint. |
| BatchRun.RunKeepsScoresNonNegative | blog-server/packages/worker/src/processors/InteractionBatchProcessor.ts:23-40 | The loop never makes a trending score negative. |
| BatchRun.ExampleLoop | blog-server/packages/worker/src/processors/InteractionBatchProcessor.ts:23-40 | Worked loop example: two likes, a malformed message and a view leave one bucket and resolve offsets 10, 11 and 13. |
| BatchRun.WorkedExample | blog-server/packages/worker/src/processors/InteractionBatchProcessor.ts:20-44 | The same batch with its final flush: likeCount +2, viewCount +1, score 5 in both windows, TTLs reset, buffer empty. |
| InteractionBatch.InteractionBatchProcessor.constructor | blog-server/packages/worker/src/processors/InteractionBatchProcessor.ts:12-18 | The processor starts with an empty buffer and the given batch size and trending service. |
| InteractionBatch.InteractionBatchProcessor.AddToBuffer | blog-server/packages/worker/src/processors/InteractionBatchProcessor.ts:46-66 | The buffer field becomes `Added(old buffer, event)`. Counters and resolved offsets are untouched. |
| InteractionBatch.InteractionBatchProcessor.ShouldFlush | blog-server/packages/worker/src/processors/InteractionBatchProcessor.ts:68-70 | True exactly when the pulled batch's length is at least `batchSize`. |
| InteractionBatch.InteractionBatchProcessor.Flush | blog-server/packages/worker/src/processors/InteractionBatchProcessor.ts:72-92 | The loop over buffer entries reaches exactly the state `FlushState` describes: counters, both windows' sets, TTLs, and the buffer cleared only on full success. |
| InteractionBatch.InteractionBatchProcessor.FlushBlog | blog-server/packages/worker/src/processors/InteractionBatchProcessor.ts:78-88 | One loop iteration applies one blog's writes: its `$inc` on the counters, its like and view score increments when positive, and their TTL refreshes. Writes named as failing are skipped. It reports whether all of that blog's writes landed. |
| InteractionBatch.InteractionBatchProcessor.HandleMessage | blog-server/packages/worker/src/processors/InteractionBatchProcessor.ts:26-38 | One pass of the message loop reaches the state `Step` gives: buffer, flush when the batch is large, resolve unless the flush threw. |
| InteractionBatch.InteractionBatchProcessor.ProcessBatch | blog-server/packages/worker/src/processors/InteractionBatchProcessor.ts:20-44 | The message loop, followed by the final flush, reaches the state the `Batch` specification gives. |
| BatchBuffer.CountersStep | blog-server/packages/worker/src/processors/InteractionBatchProcessor.ts:78-83 | One more blog's `$inc` takes the counters after the earlier blogs to the counters after this one, so the loop's order does not matter. |
| BatchBuffer.SetsStep | blog-server/packages/worker/src/processors/InteractionBatchProcessor.ts:78-88 | One more blog's score increments, likes then views, take the sorted sets after the earlier blogs to the sets after this one. |
| BatchBuffer.TtlStep | blog-server/packages/worker/src/processors/InteractionBatchProcessor.ts:85-87 | The TTL refreshes of one more blog take the TTLs after the earlier blogs to the TTLs after this one. |
| Trending.IncrBy | blog-server/packages/worker/src/services/trending.service.ts:24 | ZINCRBY adds `d` to the member's score (from 0 when absent) and leaves every other member alone. |
| Trending.WeightsPositive | blog-server/packages/worker/src/services/trending.service.ts:5-9 | INTERACTION_SCORES (`Weight`: like 2, view 1, comment 5): every weight is at least 1, so an interaction never lowers a score. |
| Trending.WindowKeys | blog-server/packages/worker/src/services/trending.service.ts:22-23 | The windows give exactly two distinct keys, `trending:24h` and `trending:7d`. |
| Trending.CeilSeconds | blog-server/packages/worker/src/services/trending.service.ts:27 | `Math.ceil(ms / 1000)`: the least whole number of seconds covering `ms`. |
| Trending.WindowTtls | blog-server/packages/worker/src/services/trending.service.ts:27 | The TTLs set are 86400 s for 24h and 604800 s for 7d. |
| Trending.Bumped | blog-server/packages/worker/src/services/trending.service.ts:22-28 | Every window key receives the same increment for the blog. Every other key is unchanged. |
| Trending.BumpedByLoop | blog-server/packages/worker/src/services/trending.service.ts:22-28 | The loop over `TRENDING_WINDOWS` computes `Bumped`. |
| Trending.TtlsByLoop | blog-server/packages/worker/src/services/trending.service.ts:22-28 | The loop's `expire` calls leave the TTL map updated with both window TTLs. |
| Trending.IncrByTwice | blog-server/packages/worker/src/services/trending.service.ts:24 | Two ZINCRBYs of one member add up. |
| Trending.BumpedTwice | blog-server/packages/worker/src/services/trending.service.ts:16-28 | Two increments of one blog equal one increment by the sum. |
| Trending.BumpedNeverDecreases | blog-server/packages/worker/src/services/trending.service.ts:16-24 | A non-negative increment never lowers any score in any set. |
| Trending.BumpedKeepsNonNegative | blog-server/packages/worker/src/services/trending.service.ts:16-24 | Non-negative increments keep every score non-negative. |
| Trending.Ranked | blog-server/packages/worker/src/services/trending.service.ts:35 | The reverse range order lists each member of the set once, with non-increasing scores. |
| Trending.RangeRev | blog-server/packages/worker/src/services/trending.service.ts:35 | ZRANGE REV 0..limit−1 as written. For limit ≥ 1 it gives the top min(limit, size) members. For limit ≤ 0 the stop index counts from the end, giving size+limit members. |
| Trending.ZeroLimitReturnsWholeSet | blog-server/packages/worker/src/services/trending.service.ts:35 | As written, `limit = 0` returns the whole set. |
| Trending.ZeroLimitExample | blog-server/packages/worker/src/services/trending.service.ts:35 | As written, `limit = 0` on {b1:3} returns ["b1"]. |
| Trending.TopN | blog-server/packages/worker/src/services/trending.service.ts:35-36 | At most `limit` distinct members, in non-increasing score order. When fewer than all are returned, no omitted member outscores the last returned one. |
| Trending.TrendingService.constructor | blog-server/packages/worker/src/services/trending.service.ts:14 | The service starts over the given sorted sets and TTLs. |
| Trending.TrendingService.IncrementScore | blog-server/packages/worker/src/services/trending.service.ts:16-31 | Every window's set gets `weight × amount` added for the blog, with weights like 2, view 1 and comment 5 and amount defaulting to 1. Both TTLs are reset. |
| Trending.TrendingService.GetTrending | blog-server/packages/worker/src/services/trending.service.ts:33-37 | The top `limit` ids of the window: exactly min(limit, size) distinct members of its set when `limit ≥ 0`, none when it is negative, in non-increasing score order. No omitted member outscores the last one returned. |
| OutboxModel.ParseOutboxStatus | blog-server/packages/api/src/models/outbox.model.ts:18 | A stored status is exactly one of PENDING, PROCESSED or FAILED. |
| OutboxModel.OutboxStatusRoundTrip | blog-server/packages/api/src/models/outbox.model.ts:8 | Each status's name reads back as that status. |
| OutboxModel.NewRecord | blog-server/packages/api/src/models/outbox.model.ts:15-21 | A record saves only with a topic and a key. It carries the given topic, key and payload, and starts PENDING with 0 retries, `createdAt = now` and no `processedAt`. |
| OutboxModel.Purge | blog-server/packages/api/src/models/outbox.model.ts:20 | The TTL index drops exactly the records at least 30 days old, whatever their status. |
| OutboxModel.Expired | blog-server/packages/api/src/models/outbox.model.ts:20 | A record has expired iff 2,592,000,000 ms (30 days) have passed since its creation; never before it was created. |
| OutboxModel.PendingIndices | blog-server/packages/api/src/services/outbox.service.ts:28 | The `status: 'PENDING'` filter selects exactly the pending records, each once. |
| OutboxModel.SortByAge | blog-server/packages/api/src/services/outbox.service.ts:28 | The sort by `createdAt` is a reordering of the selected records. |
| OutboxModel.SortByAgeSorted | blog-server/packages/api/src/services/outbox.service.ts:28 | The sorted selection is in ascending `createdAt` order and stays duplicate-free. |
| OutboxModel.Claim | blog-server/packages/api/src/services/outbox.service.ts:28 | The relay claims at most 100 distinct pending records, oldest first. It claims every pending record when fewer than 100 are claimed. Otherwise no unclaimed pending record is older than the last claimed one. |
| OutboxModel.NoPendingNoClaim | blog-server/packages/api/src/services/outbox.service.ts:28-33 | With no pending record the claim is empty. |
| Outbox.Settle | blog-server/packages/api/src/services/outbox.service.ts:37-47 | A published record becomes PROCESSED with `processedAt = now`. A failed one becomes FAILED with `retries + 1`. Topic, key, payload and `createdAt` are kept. |
| Outbox.Relayed | blog-server/packages/api/src/services/outbox.service.ts:35-49 | The relay loop never adds or removes records. |
| Outbox.RelaySettlesEach | blog-server/packages/api/src/services/outbox.service.ts:35-49 | Each claimed record is settled by its own publish outcome, so one failure does not stop later records. Unclaimed records are unchanged. |
| Outbox.RelayLeavesOthers | blog-server/packages/api/src/services/outbox.service.ts:35-49 | A record outside the claimed batch is never written by the relay. |
| Outbox.RelaySettlesClaimed | blog-server/packages/api/src/services/outbox.service.ts:37-47 | The `j`-th claimed record ends up settled by the `j`-th publish outcome, whatever happened to the others. |
| Outbox.RelayedNotReclaimed | blog-server/packages/api/src/services/outbox.service.ts:28-49 | After a relay run, no record it settled is claimed again. |
| Outbox.RelayWithoutPendingIsNoOp | blog-server/packages/api/src/services/outbox.service.ts:30-33 | With no pending record the relay changes nothing and sends nothing. |
| Outbox.RelayTouchesOnlyStatus | blog-server/packages/api/src/services/outbox.service.ts:37-47 | The relay never changes a record's topic, key, payload or `createdAt`. |
| Outbox.OutboxService.constructor | blog-server/packages/api/src/services/outbox.service.ts:17 | The outbox starts empty. |
| Outbox.OutboxService.CreateEvent | blog-server/packages/api/src/services/outbox.service.ts:18-21 | Exactly one new PENDING record with the given topic, key and payload is appended, and earlier records are unchanged. A missing topic or key fails validation and saves nothing. |
| Outbox.OutboxService.ProcessOutboxMessages | blog-server/packages/api/src/services/outbox.service.ts:25-50 | The records become the claimed batch settled in claim order. Kafka receives exactly the successful sends. |
| Outbox.OutboxService.PublishClaimed | blog-server/packages/api/src/services/outbox.service.ts:35-49 | The `for` loop over the claimed records settles each in turn and logs each successful send. |
| Constants.ParseStatus | blog-server/packages/shared/src/constants/index.ts:7-12 | A blog status is exactly one of draft, pending, published or rejected. |
| Constants.StatusNameRoundTrip | blog-server/packages/shared/src/constants/index.ts:7-12 | Each status's name reads back as that status. |
| Constants.InteractionTopicsDistinct | blog-server/packages/shared/src/constants/index.ts:14-19 | The interactions topic differs from its DLQ topic, which extends it. |
| Constants.ParseInteraction | blog-server/packages/shared/src/constants/index.ts:21-26 | An interaction type is exactly one of LIKE, UNLIKE, VIEW or COMMENT. |
| Constants.TrendingWindowLengths | blog-server/packages/shared/src/constants/index.ts:28-31 | 24h is 86 400 000 ms and 7d is 604 800 000 ms, seven times the 24h value. |
| Blogs.Saved | blog-server/packages/api/src/services/blog.service.ts:74-75 | A lifecycle call saves only the one blog, and only on success. An error leaves the store unchanged. |
| Blogs.Submit | blog-server/packages/api/src/services/blog.service.ts:63-77 | The checks run in order: NOT_FOUND, then FORBIDDEN for a non-author, then BAD_REQUEST unless the blog is a draft. It succeeds iff the author submits a draft, and then only the status changes, to pending. |
| Blogs.SameId | blog-server/packages/api/src/services/blog.service.ts:67 | Identical ids always compare equal. Equal ids have equal values. By reference, two instances of one value compare unequal (also lines 91 and 125). |
| Blogs.Update | blog-server/packages/api/src/services/blog.service.ts:82-115 | The checks run in order: NOT_FOUND, then FORBIDDEN, then BAD_REQUEST unless the blog is a draft or pending. Present fields overwrite, with the title and each tag trimmed as the blog schema's `trim` setters do (blog.model.ts:21, :30), and non-empty content is sanitised. A title or content left empty fails the schema's `required` check at save and answers 500. The status and counters are kept. |
| Blogs.TrimEach | blog-server/packages/api/src/models/blog.model.ts:30 | Every tag is trimmed, and the list keeps its length and order. |
| Blogs.BlankTitleFailsSave | blog-server/packages/api/src/models/blog.model.ts:21 | A white-space-only title is empty once trimmed, so the save throws and the update answers 500. |
| Blogs.Approve | blog-server/packages/api/src/services/blog.service.ts:281-292 | Only a pending blog is approved: it becomes published with `publishedAt = now`. Otherwise NOT_FOUND or BAD_REQUEST. |
| Blogs.Reject | blog-server/packages/api/src/services/blog.service.ts:297-308 | Only a pending blog is rejected: it becomes rejected and stores the reason. Otherwise NOT_FOUND or BAD_REQUEST. |
| Blogs.LifecycleMovesAlongTransitions | blog-server/packages/api/src/services/blog.service.ts:63-308 | A successful submit, update, approve or reject moves the status only along draft→pending→published/rejected, or leaves it. |
| Blogs.PublishedAndRejectedAreFinal | blog-server/packages/api/src/services/blog.service.ts:63-308 | On a published or rejected blog, submit, update, approve and reject all fail. |
| Blogs.AuthorDraftReachesPublished | blog-server/packages/api/src/services/blog.service.ts:63-292 | When ids compare by value, an author's draft can be submitted and then approved to published. |
| Blogs.AuthorLockedOutAsWritten | blog-server/packages/api/src/services/blog.service.ts:67 | With the `!==` reference comparison, the author holding a distinct ObjectId instance is refused FORBIDDEN. Compared by value, they succeed. |
| Blogs.ReadBlog | blog-server/packages/api/src/services/blog.service.ts:121-130 | The result is NOT_FOUND, then FORBIDDEN unless the blog is published or the caller is its author or an admin. Otherwise it is the stored blog. |
| Blogs.MayView | blog-server/packages/api/src/services/blog.service.ts:125-129 | A published blog is public. An anonymous reader sees exactly the published blogs. An admin sees every blog. Any other caller sees an unpublished blog iff they are its author. |
| Blogs.ViewRecord | blog-server/packages/api/src/services/blog.service.ts:138-142 | The VIEW event keyed by the blog id, carrying a user id iff there is a caller. For a non-empty id it is the record the outbox saves. |
| Blogs.VisibilityByRole | blog-server/packages/api/src/services/blog.service.ts:125-130 | An anonymous caller sees exactly the published blogs, and an admin sees every blog. |
| Blogs.AuthorCannotReadDraftAsWritten | blog-server/packages/api/src/services/blog.service.ts:125 | With the `===` reference comparison, an author cannot read their own draft. Compared by value, they can. |
| Blogs.ViewerId | blog-server/packages/api/src/services/blog.service.ts:137 | The VIEW event carries a user id exactly when a user is signed in. |
| Blogs.VoteKey | blog-server/packages/api/src/services/blog.service.ts:222 | The `userId:blogId` key is non-empty, with the length of the two parts plus the colon. |
| Blogs.VoteRecord | blog-server/packages/api/src/services/blog.service.ts:220-224 | The LIKE or UNLIKE event by that user on that blog, under the vote key. It is always the record the outbox saves (also lines 234-238). |
| Blogs.VoteKeyNamesPair | blog-server/packages/api/src/services/blog.service.ts:222 | Two vote keys are equal iff they name the same (user, blog) pair, for user ids without ':'. |
| Blogs.CommentOutcome | blog-server/packages/api/src/services/blog.service.ts:244-274 | NOT_FOUND unless the blog is published. It succeeds iff no step of the transaction throws and the content is not empty once trimmed (the comment schema's `trim` and `required`, comment.model.ts:12). It then returns the new comment, with the trimmed content, on that blog by that author. |
| Blogs.BlankCommentFailsSave | blog-server/packages/api/src/models/comment.model.ts:12 | A white-space-only comment is empty once trimmed, so `Comment` fails `required` and the transaction answers 500. |
| Blogs.CommentRecord | blog-server/packages/api/src/services/blog.service.ts:257-263 | The COMMENT event by the comment's author on its blog, keyed by the comment id. For a non-empty id it is the record the outbox saves. |
| Blogs.PublishedIds | blog-server/packages/api/src/services/blog.service.ts:197 | The kept ids are exactly the trending ids that have a published blog. |
| Blogs.PublishedIdsAppend | blog-server/packages/api/src/services/blog.service.ts:209-210 | The filter distributes over concatenation, so the Redis order is preserved. |
| Blogs.JoinPublished | blog-server/packages/api/src/services/blog.service.ts:197-210 | The i-th result is the published blog of the i-th kept id. Every result is published. |
| Blogs.AllPublishedKeepsRanking | blog-server/packages/api/src/services/blog.service.ts:209-210 | When every trending id has a published blog, the join returns them all in ranking order. |
| Blogs.TrendingBlogs | blog-server/packages/api/src/services/blog.service.ts:187-211 | Any window but 24h/7d gives BAD_REQUEST. Otherwise the result is the published blogs among the window's top `limit` ids (TopN), kept in ranking order: at most `limit` blogs, all published. |
| Blogs.TrendingBlogsFollowRanking | blog-server/packages/api/src/services/blog.service.ts:194-210 | When every top id has a published blog, the answer is exactly those blogs, highest score first, min(limit, size) of them. |
| Blogs.SearchPublished | blog-server/packages/api/src/services/blog.service.ts:150-181 | The public search is the repository's search with its status forced to published, so it returns published blogs only. |
| Blogs.BlogService.constructor | blog-server/packages/api/src/services/blog.service.ts:23-27 | The service starts over the given blogs and outbox, with no comments. |
| Blogs.BlogService.SubmitBlog | blog-server/packages/api/src/services/blog.service.ts:63-77 | It answers `Submit` and stores the result only on success. Comments are untouched. |
| Blogs.BlogService.UpdateBlog | blog-server/packages/api/src/services/blog.service.ts:82-115 | It answers `Update`, trimming and checking the saved document, and stores the result only on success. |
| Blogs.BlogService.ApproveBlog | blog-server/packages/api/src/services/blog.service.ts:281-292 | It answers `Approve` and stores the result only on success. |
| Blogs.BlogService.RejectBlog | blog-server/packages/api/src/services/blog.service.ts:297-308 | It answers `Reject` and stores the result only on success. |
| Blogs.BlogService.GetBlogById | blog-server/packages/api/src/services/blog.service.ts:121-145 | It answers `ReadBlog`. On success, exactly one VIEW record keyed by the blog id is appended. On a refusal nothing is queued, and an empty key, which fails the outbox's validation, gives 500. |
| Blogs.BlogService.LikeBlog | blog-server/packages/api/src/services/blog.service.ts:216-225 | It succeeds iff the blog is published. It then appends exactly one LIKE record keyed `userId:blogId`; otherwise it answers NOT_FOUND with no record. |
| Blogs.BlogService.UnlikeBlog | blog-server/packages/api/src/services/blog.service.ts:230-239 | It succeeds iff the blog is published. It then appends exactly one UNLIKE record keyed `userId:blogId`; otherwise it answers NOT_FOUND with no record. |
| Blogs.BlogService.QueueVote | blog-server/packages/api/src/services/blog.service.ts:217-224 | The shared body of like and unlike: a published check, then one vote record. |
| Blogs.BlogService.AddComment | blog-server/packages/api/src/services/blog.service.ts:244-274 | All or nothing. On success there is one new comment, `commentCount` rises by exactly 1, and one COMMENT record keyed by the comment id is added. On any error, comments, blogs and outbox are as before. |
| Blogs.BlogService.Rollback | blog-server/packages/api/src/services/blog.service.ts:268-270 | `abortTransaction` restores the snapshot taken at `startTransaction`. |
| BlogRepository.StatusFilter | blog-server/packages/api/src/repositories/blog.repository.ts:16 | The query status is the given one, or published when none is given. |
| BlogRepository.ParseSort | blog-server/packages/api/src/repositories/blog.repository.ts:29-35 | With no sort string the order is `publishedAt` −1. Otherwise the direction is ±1 and the field is the part before the first ':'. |
| BlogRepository.ParseSortRoundTrip | blog-server/packages/api/src/repositories/blog.repository.ts:29-35 | `field:desc` sorts the field −1, and `field:asc` sorts it +1. |
| BlogRepository.TotalPages | blog-server/packages/api/src/repositories/blog.repository.ts:49 | `Math.ceil(total / limit)`: the least page count covering `total`. |
| BlogRepository.Search | blog-server/packages/api/src/repositories/blog.repository.ts:15-41 | The query carries the defaulted status. A text search appears iff `q` is non-empty and then holds `q`. An author filter appears iff `author` is non-empty and then holds it. A tags filter appears iff `tags` is non-empty; its pieces hold no comma and join back to the tags string, so they are the comma split. The sort is ParseSort of `sort`. It uses `skip = (page−1)·limit` and the given limit. |
| BlogRepository.SearchMeta | blog-server/packages/api/src/repositories/blog.repository.ts:43-50 | The meta echoes `page`, `limit` and `total`, with `totalPages = ceil(total/limit)`. |
| BlogRepository.LastPageHoldsTheLastResult | blog-server/packages/api/src/repositories/blog.repository.ts:37-49 | The last page's skip lies below `total`, and that page reaches it. |
| BlogDto.LengthIssues | blog-server/packages/shared/src/dtos/blog.dto.ts:8-9 | A length check reports nothing iff the length is in bounds, and every issue names its field. |
| BlogDto.ValidateCreateBlog | blog-server/packages/shared/src/dtos/blog.dto.ts:7-11 | Valid iff the title length is in [5,200] and the content length is ≥ 50. Tags are optional. |
| BlogDto.ValidateUpdateBlog | blog-server/packages/shared/src/dtos/blog.dto.ts:24 | Every field is optional; a present field must meet the create bounds. |
| BlogDto.CoerceInt | blog-server/packages/shared/src/dtos/blog.dto.ts:44-45 | An absent number takes its default. A whole number is accepted iff it is in range. A non-number is rejected with one issue. A fraction is rejected with the integer issue first, followed by the minimum and maximum issues it also breaks, since these checks do not stop the ones after them. |
| BlogDto.BoundIssues | blog-server/packages/shared/src/dtos/blog.dto.ts:44-45 | The minimum issue appears iff the number is below the minimum. The maximum issue appears iff it is above a given maximum. |
| BlogDto.FractionalPageIssues | blog-server/packages/shared/src/dtos/blog.dto.ts:44-45 | `page=0.5` reports the integer and the minimum issues. `limit=100.5` reports the integer and the maximum issues. |
| BlogDto.ParseSearch | blog-server/packages/shared/src/dtos/blog.dto.ts:38-46 | Accepted iff `page` is absent or a whole number ≥ 1, `limit` is absent or a whole number in [1,100], and a given status names one of the four statuses. An accepted page and limit are the numbers given, or 1 and 10 when absent. Other fields pass through. |
| BlogDto.ValidateComment | blog-server/packages/shared/src/dtos/blog.dto.ts:68-70 | Valid iff the comment length is in [1,1000]. |
| BlogDto.ValidateReject | blog-server/packages/shared/src/dtos/blog.dto.ts:80-82 | Valid iff the reason length is in [10,500]. |
| AuthDto.EmailIssues | blog-server/packages/shared/src/dtos/auth.dto.ts:6 | An email field passes iff the email predicate holds. |
| AuthDto.ValidateRegister | blog-server/packages/shared/src/dtos/auth.dto.ts:4-8 | Valid iff the name length is in [3,50], the email is valid and the password length is ≥ 8. |
| AuthDto.ValidateLogin | blog-server/packages/shared/src/dtos/auth.dto.ts:19-22 | Valid iff the email is valid; any password string is accepted. |
| AuthDto.ValidateForgotPassword | blog-server/packages/shared/src/dtos/auth.dto.ts:32-34 | Valid iff the email is valid. |
| AuthDto.ValidateResetPassword | blog-server/packages/shared/src/dtos/auth.dto.ts:43-45 | Valid iff the password length is ≥ 8. |
| TransformTags.TrimmedNonEmpty | blog-server/packages/api/src/middlewares/transform.middleware.ts:20-21 | Trimming and dropping empties never yields more tags than there were pieces. |
| TransformTags.TrimmedNonEmptyClean | blog-server/packages/api/src/middlewares/transform.middleware.ts:20-21 | No resulting tag is empty or has white space at either end. |
| TransformTags.NormalizeTags | blog-server/packages/api/src/middlewares/transform.middleware.ts:18-21 | Every tag is clean and contains no comma. |
| TransformTags.TrimmedNonEmptyKeepsClean | blog-server/packages/api/src/middlewares/transform.middleware.ts:20-21 | Clean pieces pass through unchanged and in order. |
| TransformTags.NormalizeJoinedTags | blog-server/packages/api/src/middlewares/transform.middleware.ts:18-21 | Clean comma-free tags joined with ',' come back as the same list, the empty list included. The result is the trimmed pieces in their original order. |
| TransformTags.TrimmedNonEmptyAppend | blog-server/packages/api/src/middlewares/transform.middleware.ts:19-21 | Trim-and-filter distributes over concatenation, so input order is kept. |
| TransformTags.TagsRequest.constructor | blog-server/packages/api/src/middlewares/transform.middleware.ts:4 | A request body, before the middleware has run. |
| TransformTags.TagsRequest.TransformTags | blog-server/packages/api/src/middlewares/transform.middleware.ts:4-26 | A string `tags` becomes the normalised list, and an array or a missing field is untouched. `next()` is called exactly once. |
| MarkdownEditor.ReplaceRange | web/components/markdown-editor.tsx:41-43 | `prev[..s] + r + prev[e..]`, so the length is \|prev\| − (e−s) + \|r\|. |
| MarkdownEditor.ReplaceRangeUndo | web/components/markdown-editor.tsx:41-43 | Replacing the inserted text with the old selection restores the content. |
| MarkdownEditor.ApplyWrap | web/components/markdown-editor.tsx:45-58 | The selection becomes prefix + inner + suffix. The suffix defaults to the prefix, and an empty selection uses "text". |
| MarkdownEditor.UnwrapRestores | web/components/markdown-editor.tsx:50-54 | The wrapped text sits at the selection start, and replacing it by the selection restores the content. |
| MarkdownEditor.UrlOrDefault | web/components/markdown-editor.tsx:92 | The URL is the answer when it is non-empty, otherwise "https://". It is never empty. |
| MarkdownEditor.InsertLink | web/components/markdown-editor.tsx:87-95 | The selection becomes `[sel](url)`, with "link text" for an empty selection. |
| MarkdownEditor.InsertImage | web/components/markdown-editor.tsx:97-105 | The selection becomes `![alt](url)`, with "alt text" for an empty selection. |
| MarkdownEditor.ToggleLines | web/components/markdown-editor.tsx:76-79 | When every line has the prefix, one copy is removed from each line. Otherwise the prefix is added to every line. |
| MarkdownEditor.ToggleTwice | web/components/markdown-editor.tsx:77-79 | Toggling twice restores the lines, unless the first toggle left every line still prefixed. |
| MarkdownEditor.BlockAsWritten | web/components/markdown-editor.tsx:69-73 | The line block as the code computes it, starting at or before the selection. Whenever the selection holds a '\n', the block ends at the selection's last '\n', before the selection's end, so the selected text after that '\n' lies outside it. |
| MarkdownEditor.LastSelectedEnd | web/components/markdown-editor.tsx:70-73 | Where the last selected line's selected part ends: the selection's end, or one before it when the selection ends just after a '\n'. |
| MarkdownEditor.BlockOfSelection | web/components/markdown-editor.tsx:69-73 | The intended block: whole lines covering the selection up to its last selected line. `lineStart` is 0 or just after a '\n', and `lineEnd` is the end or a '\n', with no '\n' between the selection and either bound. A selection that ends just after a '\n' stops at that '\n', as the code does. |
| MarkdownEditor.ToggleBlock | web/components/markdown-editor.tsx:75-80 | The text before and after the block is kept; the block's lines are toggled and rejoined. |
| MarkdownEditor.LastSelectedLineMissedAsWritten | web/components/markdown-editor.tsx:70-73 | As written, "a\nb" fully selected with "- " gives "- a\nb": the second line is not prefixed. |
| MarkdownEditor.ToggleLinePrefixAsWritten | web/components/markdown-editor.tsx:60-85 | As written: the result is the text before the code's block, the block's lines toggled, and the text after the block, exactly. |
| MarkdownEditor.SelectedLinesAllToggled | web/components/markdown-editor.tsx:60-85 | With the block ending at the first newline after the selection, the same input gives "- a\n- b". |
| MarkdownEditor.SelectionEndingAtNewline | web/components/markdown-editor.tsx:60-85 | Selecting "a\n" in "a\nb" prefixes only "a", both as written and in the corrected toggle. |
| MarkdownEditor.Clamp | web/components/markdown-editor.tsx:64-67 | The selection is clamped into the content as `slice` does, and kept as is when already valid. |
| MarkdownEditor.ToggleLinePrefix | web/components/markdown-editor.tsx:60-85 | The result is the text before `lineStart`, the toggled lines of the selection's whole-line block, and the text after `lineEnd`, exactly. |
| MarkdownEditor.ToggleLinePrefixLines | web/components/markdown-editor.tsx:75-80 | Between the two kept parts stand the block's toggled lines and nothing else: the result's length is the two kept parts plus the toggled lines. |
| MarkdownEditor.CleanTag | web/components/markdown-editor.tsx:109 | Trimming and dropping one leading '#' never lengthens a tag. |
| MarkdownEditor.AddTag | web/components/markdown-editor.tsx:107-116 | An empty or already present cleaned tag is ignored; otherwise it is appended. The list stays free of empties and duplicates. |
| MarkdownEditor.RemoveTag | web/components/markdown-editor.tsx:118-123 | Every entry equal to `t` is removed, and all others are kept. |
| MarkdownEditor.RemoveTagKeepsListOk | web/components/markdown-editor.tsx:120 | Removing keeps the list free of empties and duplicates. |
| MarkdownEditor.RemoveAbsentTag | web/components/markdown-editor.tsx:120 | Removing an absent tag changes nothing. |
| MarkdownEditor.AddThenRemove | web/components/markdown-editor.tsx:107-123 | Adding a new tag and then removing it restores the list. |
| MarkdownEditor.RemoveAppend | web/components/markdown-editor.tsx:120 | The filter distributes over concatenation, so order is kept. |
| PostCard.StripTags | web/components/post-card.tsx:8 | No `<…>` run with something inside is left. Only input characters remain, and a leading non-'<' character is kept. That the text outside tags is kept is stated by PostCard.StripTagsKeepsText. |
| PostCard.StripTagsKeepsText | web/components/post-card.tsx:8 | Text in front of the first '<' is kept, a tag `<t>` is removed whole, and stripping carries on after it: the text outside tags survives. |
| PostCard.CollapseKeepsNonSpaces | web/components/post-card.tsx:9 | Collapsing white space keeps every other character, in order. |
| PostCard.TrimKeepsNonSpaces | web/components/post-card.tsx:10 | Trimming removes white space only. |
| PostCard.CleanTextKeepsWordsAroundTag | web/components/post-card.tsx:7-10 | The words on both sides of a tag are all in the cleaned text, in order. |
| PostCard.StripTagsKeepsPlainText | web/components/post-card.tsx:8 | Text without '<' is unchanged. |
| PostCard.CollapseSpaces | web/components/post-card.tsx:9 | No two white-space characters are adjacent, and each remaining one is a ' '. It is empty iff the input is. That every other character survives in order is stated by PostCard.CollapseKeepsNonSpaces. |
| PostCard.CleanText | web/components/post-card.tsx:7-10 | Before truncation the text has no adjacent white space and no white space at either end. Its non-space characters are those left by the tag removal, in order; for input without '<' they are the input's own. |
| PostCard.TrimKeepsShape | web/components/post-card.tsx:9-10 | Trimming keeps a collapsed text collapsed. |
| PostCard.StripHtml | web/components/post-card.tsx:6-12 | A text longer than `max` (default 220) becomes its first `max` characters plus "..."; otherwise it is unchanged. The length is ≤ max+3. |
| PostCard.StripHtmlExample | web/components/post-card.tsx:8 | "<b>x</b>" becomes "x". |
| Users.Whitelisted | blog-server/packages/api/src/services/user.service.ts:16-24 | Exactly the allowed fields with a truthy value are copied. |
| Users.OnlyNameChanges | blog-server/packages/api/src/services/user.service.ts:17-24 | Only `name` can be set, and only when supplied non-empty. |
| Users.UserService.constructor | blog-server/packages/api/src/services/user.service.ts:6 | The service starts over the given users. |
| Users.UserService.GetUserById | blog-server/packages/api/src/services/user.service.ts:7-13 | It returns the stored user, or NOT_FOUND. |
| Users.UserService.CollectUpdates | blog-server/packages/api/src/services/user.service.ts:20-24 | The loop over the allowed fields computes the whitelist. |
| Users.UserService.UpdateUser | blog-server/packages/api/src/services/user.service.ts:15-35 | With nothing to set: BAD_REQUEST, checked first and with no write. With a missing user: NOT_FOUND and no write. Otherwise exactly the whitelisted fields are `$set`. |
| Rbac.HasRequiredRole | blog-server/packages/api/src/middlewares/rbac.middleware.ts:14 | True iff some required role is among the user's roles. |
| Rbac.Authorize | blog-server/packages/api/src/middlewares/rbac.middleware.ts:7-22 | No user gives 401. Otherwise access is granted iff some required role is held, and a refusal is 403. |
| Rbac.RoleDecisions | blog-server/packages/api/src/middlewares/rbac.middleware.ts:13-18 | An empty required list always denies, and an admin route admits exactly admins. |
| Rbac.MoreRolesAdmitMore | blog-server/packages/api/src/middlewares/rbac.middleware.ts:14 | Adding required roles never turns an admitted user away. |
| ErrorMiddleware.FieldErrors | blog-server/packages/api/src/middlewares/error.middleware.ts:20 | There is one entry per issue, with its path joined by '.' and its message. |
| ErrorMiddleware.Respond | blog-server/packages/api/src/middlewares/error.middleware.ts:9-51 | An ApiError keeps its status and message. A ZodError gives 400 "Validation failed". A duplicate key gives 409 naming the field. Anything else gives 500. `success` is false, `errors` appears only for ZodError, and `stack` only in development. |
| ErrorMiddleware.IsDuplicateKey | blog-server/packages/api/src/middlewares/error.middleware.ts:21 | Only an error that is neither an ApiError nor a ZodError, with code 11000, is a duplicate key. |
| ErrorMiddleware.DuplicateMessage | blog-server/packages/api/src/middlewares/error.middleware.ts:23-24 | The first `keyPattern` field, or "undefined", can be read back from between the fixed prefix and suffix of the message. |
| ErrorMiddleware.StatusClasses | blog-server/packages/api/src/middlewares/error.middleware.ts:10-25 | Errors that are not ApiErrors map only to 400, 409 or 500. There is no stack outside development. |
| ErrorMiddleware.IssuePathsReadBack | blog-server/packages/api/src/middlewares/error.middleware.ts:20 | A joined issue path splits back into its segments. |
| ErrorMiddleware.DuplicateEmailMessage | blog-server/packages/api/src/middlewares/error.middleware.ts:21-24 | A duplicate email gives "Duplicate field error: The email is already taken." |
| Idempotency.CacheKey | blog-server/packages/api/src/middlewares/idempotency.middleware.ts:21 | The key is `idempotency:` followed by the header value. |
| Idempotency.Guarded | blog-server/packages/api/src/middlewares/idempotency.middleware.ts:11-13 | POST, PATCH and PUT are guarded; GET, HEAD, DELETE and OPTIONS are not. |
| Idempotency.HasKey | blog-server/packages/api/src/middlewares/idempotency.middleware.ts:15-19 | A missing header and an empty one both count as no key. |
| Idempotency.CacheKeyInjective | blog-server/packages/api/src/middlewares/idempotency.middleware.ts:21 | Distinct header values never share a cache entry. |
| Idempotency.IdempotencyCache.Handle | blog-server/packages/api/src/middlewares/idempotency.middleware.ts:10-47 | Methods other than POST/PATCH/PUT, and requests without a key, pass through untouched. A failing read gives 500 "Idempotency check failed". A cached key replays without changing the cache. An uncached key stores the first answer with a TTL of 86400 s. |
| Idempotency.Decide | blog-server/packages/api/src/middlewares/idempotency.middleware.ts:10-29 | A replay happens only for a guarded, keyed request found in the cache. A failure happens exactly when the read throws. |
| Idempotency.EntriesAfter | blog-server/packages/api/src/middlewares/idempotency.middleware.ts:31-41 | The cache only grows, and a stored answer is not overwritten by a later request. |
| Idempotency.SecondRequestReplaysFirst | blog-server/packages/api/src/middlewares/idempotency.middleware.ts:21-41 | A second guarded request with the same key gets the first request's answer, whatever its own handler would say. |
| Idempotency.UnguardedPassThrough | blog-server/packages/api/src/middlewares/idempotency.middleware.ts:11-13 | Requests that are not guarded neither read nor change the cache. |

## Left out

- **Kafka, Redis and MongoDB clients and connections.** Sends become a log of `Sent` values. `zIncrBy`/`expire`/`zRange` act on a map of sorted sets and a TTL map. `updateOne` acts on a map of counters, and the outbox and blog collections are sequences and maps.
- **Heartbeats, the dead-letter queue, a retry cutoff, and `flushIntervalMs`/`flushTimeout`.** The code only mentions a dead-letter queue and a retry cutoff in comments, and it never uses the flush interval.
- **The `Promise.all` fan-out in `flush`.** Writes are applied one at a time. Each write that does not fail lands, and the buffer is cleared only when none failed.
- **The order of a flush's entries.** The flush loop picks any entry, so nothing proved depends on Map insertion order.
- **The relay's own `msg.save()` failing.** Only publish failures are modelled.
- **Tie order among records with equal `createdAt`.** The claim orders by `createdAt` only; it does not fix how ties are broken.
- **One `now` per call.** `Date.now()`/`new Date()` is an integer parameter, and one value serves a whole call.
- **marked/DOMPurify.** They become a `sanitize` function parameter. S3 uploads and presigned cover-image URLs are not part of this model.
- **Query execution.** `search` is modelled as the query it builds: Mongo text-search semantics and the executed `find`/`countDocuments` are not modelled. Whether a route runs the search validator is not part of this model.
- **createBlog, deleteBlog and searchAllBlogsAsAdmin.** These blog-service members are outside the modelled core.
- Blogs.CommentOutcome: reports every error thrown inside the transaction, other than the published check, as 500 "An unexpected error occurred". The original error kind is not modelled.
- Trending.TrendingService.GetTrending: uses the corrected `TopN` for `limit ≤ 0` instead of the as-written `RangeRev` (see Findings).
- Blogs.TrendingBlogs: uses the corrected `TopN` for `limit ≤ 0` (see Findings).
- Blogs.SameId: an ObjectId is a hex string plus an instance number. The service methods compare by value; the reference comparison is kept only to state the finding.
- MarkdownEditor.ToggleLines: removes the first `|prefix|` characters where the code removes a `^prefix` regex match. The two agree for the editor's own prefixes ("# ", "## ", "> ", "- ", "1. "), not for prefixes with other regex metacharacters.
- Idempotency.IdempotencyCache.Handle: the cache write is not awaited in the code. The model stores it at once and does not model concurrent requests with the same key. Handlers that answer without `res.json` are not modelled.
- **The zod email check.** It is an abstract predicate `isEmail`.
- **The user model's own validators.** Trim and required are not modelled for users. The blog and comment schemas' `trim` and `required` are modelled; their other options (enum, defaults, indexes) are not.
- **The error middleware's logger.** It is not modelled. An error whose `keyPattern` object is missing altogether is not modelled either; an empty one gives the field "undefined".
- **Key expiry.** No clock runs in the model, so no key expires. The TTLs are recorded: `EX: TTL_SECONDS` on the idempotency keys (idempotency.middleware.ts:38) and `expire` on the trending windows. A trending window therefore never starts again from empty.
- Idempotency.EntriesAfter: "never overwritten" holds only while the stored answer is younger than its 86 400-second TTL. After the key expires, a request with the same key runs its handler again and stores a new answer.
- Idempotency.SecondRequestReplaysFirst: holds only for a second request within 86 400 seconds of the first.
- **Order of equal trending scores.** Redis lists members with equal scores in lexicographic order, reversed under `REV`. Trending.Ranked and Trending.TopN leave the order among equal scores open, so the model does not say which of two equally scored blogs comes first.
- **String encoding.** A Dafny `char` is one Unicode character, while JavaScript strings are UTF-16 code units. For text outside the Basic Multilingual Plane, zod's `min`/`max` lengths, `slice` positions and `stripHtml`'s `max` count two units per character where the model counts one. Unpaired surrogates cannot be represented.
- **LIKE followed by UNLIKE.** One might expect this pair to net 0 for the user. The code moves the user into `unlikes`, which nets −1, and the model follows the code (BatchBuffer.LikeThenUnlikeNetsMinusOne).

## Findings

| source | as written | input that shows it | evidently intended | confidence | as-written member | corrected member |
|---|---|---|---|---|---|---|
| blog-server/packages/api/src/services/blog.service.ts:194 | `zRange(redisKey, 0, limit - 1, { REV: true })`: a stop index of −1 means "to the end" in Redis. The worker's `getTrending` (blog-server/packages/worker/src/services/trending.service.ts:35) has the same read but no caller. | `GET /trending?limit=0` (the controller passes `Number(req.query.limit)`) on {b1:3} reads ["b1"]; in general a limit ≤ 0 reads size+limit members. | At most `limit` ids, none when `limit ≤ 0`. | not executed | Trending.ZeroLimitExample | Trending.TopN |
| blog-server/packages/api/src/services/blog.service.ts:67 | `blog.author !== authorId` compares two ObjectId objects by reference (also at lines 91 and 125). | The author's own request, with the loaded `author` and the request's id as distinct instances of the same hex id, gets FORBIDDEN. | Compare ids by value. | not executed | Blogs.AuthorLockedOutAsWritten | Blogs.AuthorDraftReachesPublished |
| web/components/markdown-editor.tsx:70-73 | When the selection contains '\n', `lineEnd` is the selection's last '\n', so the last selected line is left out. | "a\nb", selection 0..3, prefix "- " gives "- a\nb". | Every selected line is toggled: "- a\n- b". A selection that ends just after a '\n' still stops at that line, as the code does. | not executed | MarkdownEditor.LastSelectedLineMissedAsWritten | MarkdownEditor.ToggleLinePrefix |

=== FILE: api_errors.dfy ===
/**
 * HTTP status codes and the `ApiError` the services throw
 * (`new ApiError(StatusCodes.X, message)`).
 */
module ApiErrors {

  const OK: int := 200
  const BAD_REQUEST: int := 400
  const UNAUTHORIZED: int := 401
  const FORBIDDEN: int := 403
  const NOT_FOUND: int := 404
  const CONFLICT: int := 409
  const INTERNAL_SERVER_ERROR: int := 500

  /** An error carrying its own HTTP status and message. */
  datatype ApiError = ApiError(statusCode: int, message: string)
}

=== FILE: auth_dto.dfy ===
/**
 * The authentication request schemas. The email format check is the
 * validator library's; it is a parameter here.
 */
module AuthDto {
  import opened Wrappers
  import opened BlogDto

  function EmailIssues(email: string, isEmail: string -> bool): (r: seq<Issue>)
    ensures r == [] <==> isEmail(email)
  {
    if isEmail(email) then [] else [Issue(["email"], InvalidEmail)]
  }

  /** `RegisterUserSchema`: a name of 3 to 50 characters, a valid email, a password of at least 8 characters. */
  function ValidateRegister(name: string, email: string, password: string, isEmail: string -> bool): (r: seq<Issue>)
    ensures r == [] <==> 3 <= |name| <= 50 && isEmail(email) && |password| >= 8
  {
    LengthIssues("name", name, 3, Some(50)) + EmailIssues(email, isEmail) + LengthIssues("password", password, 8, None)
  }

  /** `LoginUserSchema`: a valid email; any password string, even an empty one. */
  function ValidateLogin(email: string, password: string, isEmail: string -> bool): (r: seq<Issue>)
    ensures r == [] <==> isEmail(email)
  {
    EmailIssues(email, isEmail)
  }

  /** `ForgotPasswordSchema`: only a valid email. */
  function ValidateForgotPassword(email: string, isEmail: string -> bool): (r: seq<Issue>)
    ensures r == [] <==> isEmail(email)
  {
    EmailIssues(email, isEmail)
  }

  /** `ResetPasswordSchema`: a password of at least 8 characters. */
  function ValidateResetPassword(password: string): (r: seq<Issue>)
    ensures r == [] <==> |password| >= 8
  {
    LengthIssues("password", password, 8, None)
  }
}

=== FILE: batch_buffer.dfy ===
/**
 * The worker's aggregation buffer and what a flush writes, as values: the
 * specification the `InteractionBatchProcessor` class is proved against.
 */
module BatchBuffer {
  import opened Wrappers
  import opened Constants
  import opened Events
  import opened Trending

  /** A user as the like sets hold it: an event without a user id contributes its absent id. */
  type UserKey = Option<string>

  /** One blog's interactions since the last flush. */
  datatype Bucket = Bucket(likes: set<UserKey>, unlikes: set<UserKey>, views: nat)

  const EMPTY_BUCKET: Bucket := Bucket({}, {}, 0)

  /** `BatchBuffer`: blog id to bucket. */
  type Buffer = map<string, Bucket>

  /** `likes.size - unlikes.size` */
  function NetLikes(b: Bucket): int {
    |b.likes| - |b.unlikes|
  }

  /** The bucket of a blog, created empty on first use. */
  function BucketOf(buf: Buffer, blogId: string): Bucket {
    if blogId in buf then buf[blogId] else EMPTY_BUCKET
  }

  /** The `switch` of `addToBuffer` applied to one blog's bucket. */
  function Record(b: Bucket, e: InteractionEvent): (r: Bucket)
    ensures b.likes !! b.unlikes ==> r.likes !! r.unlikes
    ensures e.kind == Like ==> e.userId in r.likes && e.userId !in r.unlikes
    ensures e.kind == Unlike ==> e.userId in r.unlikes && e.userId !in r.likes
    ensures forall u :: u != e.userId ==> (u in r.likes <==> u in b.likes) && (u in r.unlikes <==> u in b.unlikes)
    ensures e.kind == View || e.kind == Comment ==> r.likes == b.likes && r.unlikes == b.unlikes
    ensures r.views == b.views + if e.kind == View then 1 else 0
  {
    match e.kind
    case Like => b.(likes := b.likes + {e.userId}, unlikes := b.unlikes - {e.userId})
    case Unlike => b.(unlikes := b.unlikes + {e.userId}, likes := b.likes - {e.userId})
    case View => b.(views := b.views + 1)
    case Comment => b
  }

  /** Every bucket's like and unlike sets are disjoint. */
  ghost predicate Disjoint(buf: Buffer) {
    forall id :: id in buf ==> buf[id].likes !! buf[id].unlikes
  }

  /** `addToBuffer(event)`: the event's blog gets a bucket, and only that bucket changes. */
  function Added(buf: Buffer, e: InteractionEvent): (r: Buffer)
    ensures r.Keys == buf.Keys + {e.blogId}
    ensures r[e.blogId] == Record(BucketOf(buf, e.blogId), e)
    ensures forall id :: id in buf && id != e.blogId ==> r[id] == buf[id]
    ensures Disjoint(buf) ==> Disjoint(r)
  {
    buf[e.blogId := Record(BucketOf(buf, e.blogId), e)]
  }

  /** The buffer after adding `evs` in order. */
  function AddedAll(buf: Buffer, evs: seq<InteractionEvent>): Buffer
    decreases |evs|
  {
    if evs == [] then buf
    else Added(AddedAll(buf, evs[..|evs| - 1]), evs[|evs| - 1])
  }

  /** However many events are added, no user is in both sets of a bucket. */
  lemma {:induction false} AddedAllDisjoint(buf: Buffer, evs: seq<InteractionEvent>)
    requires Disjoint(buf)
    ensures Disjoint(AddedAll(buf, evs))
    decreases |evs|
  {
    if evs != [] {
      AddedAllDisjoint(buf, evs[..|evs| - 1]);
    }
  }

  /** The blogs with a bucket: those buffered before and those the events name. */
  lemma {:induction false} AddedAllKeys(buf: Buffer, evs: seq<InteractionEvent>)
    ensures AddedAll(buf, evs).Keys == buf.Keys + set e | e in evs :: e.blogId
    decreases |evs|
  {
    if evs != [] {
      var init, last := evs[..|evs| - 1], evs[|evs| - 1];
      AddedAllKeys(buf, init);
      assert evs == init + [last];
    }
  }

  /** The last LIKE or UNLIKE by `user` on `blogId` among `evs`, if any. */
  function LastVote(evs: seq<InteractionEvent>, blogId: string, user: UserKey): Option<InteractionType>
    decreases |evs|
  {
    if evs == [] then None
    else
      var e := evs[|evs| - 1];
      if e.blogId == blogId && e.userId == user && (e.kind == Like || e.kind == Unlike) then Some(e.kind)
      else LastVote(evs[..|evs| - 1], blogId, user)
  }

  /**
   * Last write wins: a user ends up in the set named by their last LIKE or
   * UNLIKE of the blog, and a user without one keeps their earlier place.
   */
  lemma {:induction false} LastWriteWins(buf: Buffer, evs: seq<InteractionEvent>, blogId: string, user: UserKey)
    ensures var b, b0 := BucketOf(AddedAll(buf, evs), blogId), BucketOf(buf, blogId);
      match LastVote(evs, blogId, user)
      case Some(k) =>
        (k == Like ==> user in b.likes && user !in b.unlikes)
        && (k == Unlike ==> user in b.unlikes && user !in b.likes)
      case None => (user in b.likes <==> user in b0.likes) && (user in b.unlikes <==> user in b0.unlikes)
    decreases |evs|
  {
    if evs != [] {
      LastWriteWins(buf, evs[..|evs| - 1], blogId, user);
    }
  }

  /** Number of VIEW events for `blogId` among `evs`. */
  function ViewCount(evs: seq<InteractionEvent>, blogId: string): nat
    decreases |evs|
  {
    if evs == [] then 0
    else
      var e := evs[|evs| - 1];
      ViewCount(evs[..|evs| - 1], blogId) + if e.blogId == blogId && e.kind == View then 1 else 0
  }

  /** A bucket's view counter grows by exactly the number of VIEW events for its blog. */
  lemma {:induction false} ViewsCounted(buf: Buffer, evs: seq<InteractionEvent>, blogId: string)
    ensures BucketOf(AddedAll(buf, evs), blogId).views == BucketOf(buf, blogId).views + ViewCount(evs, blogId)
    decreases |evs|
  {
    if evs != [] {
      ViewsCounted(buf, evs[..|evs| - 1], blogId);
    }
  }

  /** A LIKE then an UNLIKE by one user leaves them in `unlikes`: the blog's net likes are -1, not 0. */
  lemma LikeThenUnlikeNetsMinusOne(blogId: string, user: UserKey, t1: int, t2: int)
    ensures var b := BucketOf(AddedAll(map[], [InteractionEvent(Like, user, blogId, t1), InteractionEvent(Unlike, user, blogId, t2)]), blogId);
      b.likes == {} && b.unlikes == {user} && NetLikes(b) == -1
  {
    var e1, e2 := InteractionEvent(Like, user, blogId, t1), InteractionEvent(Unlike, user, blogId, t2);
    assert [e1, e2][..1] == [e1];
    assert [e1][..0] == [];
    assert AddedAll(map[], [e1]) == Added(AddedAll(map[], []), e1) == Added(map[], e1);
    assert Record(EMPTY_BUCKET, e1) == Bucket({user}, {}, 0);
    assert AddedAll(map[], [e1, e2])[blogId] == Bucket({user} - {user}, {user}, 0);
  }

  /** Repeated LIKEs by one user count once. */
  lemma RepeatedLikesCountOnce(blogId: string, user: UserKey, t1: int, t2: int)
    ensures var b := BucketOf(AddedAll(map[], [InteractionEvent(Like, user, blogId, t1), InteractionEvent(Like, user, blogId, t2)]), blogId);
      b.likes == {user} && b.unlikes == {} && NetLikes(b) == 1
  {
    var e1, e2 := InteractionEvent(Like, user, blogId, t1), InteractionEvent(Like, user, blogId, t2);
    assert [e1, e2][..1] == [e1];
    assert [e1][..0] == [];
    assert AddedAll(map[], [e1]) == Added(AddedAll(map[], []), e1) == Added(map[], e1);
    assert Record(EMPTY_BUCKET, e1) == Bucket({user}, {}, 0);
    assert AddedAll(map[], [e1, e2])[blogId] == Bucket({user}, {}, 0);
  }

  // ---------------------------------------------------------------- what a flush writes

  /** The three writes a flush may issue for one blog. */
  datatype Target = CounterWrite | LikeTrendWrite | ViewTrendWrite

  /** A write, named by its blog and target; a flush's failing writes are given as a set of these. */
  datatype WriteId = WriteId(blogId: string, target: Target)

  /** The like-score increment is issued only for a positive net like count. */
  predicate LikeTrendIssued(b: Bucket) {
    NetLikes(b) > 0
  }

  /** The view-score increment is issued only for a positive view count. */
  predicate ViewTrendIssued(b: Bucket) {
    b.views > 0
  }

  /** Some write issued for the blog failed. */
  predicate BlogWriteFails(id: string, b: Bucket, failed: set<WriteId>) {
    || WriteId(id, CounterWrite) in failed
    || (LikeTrendIssued(b) && WriteId(id, LikeTrendWrite) in failed)
    || (ViewTrendIssued(b) && WriteId(id, ViewTrendWrite) in failed)
  }

  /** Every write issued for the buffer succeeded (`Promise.all` resolves). */
  predicate FlushOk(buf: Buffer, failed: set<WriteId>) {
    forall id :: id in buf ==> !BlogWriteFails(id, buf[id], failed)
  }

  /** A blog document's counters. */
  datatype Counters = Counters(likeCount: int, viewCount: int)

  /** `$inc: { likeCount: netLikes, viewCount: netViews }` */
  function Inc(c: Counters, b: Bucket): Counters {
    Counters(c.likeCount + NetLikes(b), c.viewCount + b.views)
  }

  /** The counters once every successful counter write of the flush landed; a missing blog matches no document. */
  function CountersAfter(blogs: map<string, Counters>, buf: Buffer, failed: set<WriteId>): (r: map<string, Counters>)
    ensures r.Keys == blogs.Keys
  {
    map id | id in blogs :: if id in buf && WriteId(id, CounterWrite) !in failed then Inc(blogs[id], buf[id]) else blogs[id]
  }

  /** The like score the flush adds for a blog (weight 2 per net like). */
  function LikeCredit(id: string, b: Bucket, failed: set<WriteId>): int {
    if LikeTrendIssued(b) && WriteId(id, LikeTrendWrite) !in failed then Weight(LikeScore) * NetLikes(b) else 0
  }

  /** The view score the flush adds for a blog (weight 1 per view). */
  function ViewCredit(id: string, b: Bucket, failed: set<WriteId>): int {
    if ViewTrendIssued(b) && WriteId(id, ViewTrendWrite) !in failed then Weight(ViewScore) * b.views else 0
  }

  /** Some score increment for the blog was issued and succeeded. */
  predicate Credited(id: string, b: Bucket, failed: set<WriteId>) {
    (LikeTrendIssued(b) && WriteId(id, LikeTrendWrite) !in failed)
    || (ViewTrendIssued(b) && WriteId(id, ViewTrendWrite) !in failed)
  }

  function CreditedIds(buf: Buffer, failed: set<WriteId>): set<string> {
    set id | id in buf && Credited(id, buf[id], failed)
  }

  /** One window's sorted set once the flush's successful score increments landed. */
  function WindowAfter(z: SortedSet, buf: Buffer, failed: set<WriteId>): SortedSet {
    map m | m in z.Keys + CreditedIds(buf, failed) ::
      ScoreOf(z, m) + if m in buf then LikeCredit(m, buf[m], failed) + ViewCredit(m, buf[m], failed) else 0
  }

  /** All sorted sets once the flush's successful score increments landed. */
  function SetsAfter(sets: map<string, SortedSet>, buf: Buffer, failed: set<WriteId>): map<string, SortedSet> {
    if CreditedIds(buf, failed) == {} then sets
    else
      var k24, k7 := RedisKey("24h"), RedisKey("7d");
      sets[k24 := WindowAfter(SetAt(sets, k24), buf, failed)][k7 := WindowAfter(SetAt(sets, k7), buf, failed)]
  }

  /** The key TTLs: refreshed when at least one score increment landed. */
  function TtlAfter(ttl: map<string, int>, buf: Buffer, failed: set<WriteId>): map<string, int> {
    if CreditedIds(buf, failed) == {} then ttl else ttl + WindowTtls()
  }

  /** The part of the worker's world a batch touches. */
  datatype WorkerState = WorkerState(
    buffer: Buffer,
    blogs: map<string, Counters>,
    sets: map<string, SortedSet>,
    ttl: map<string, int>,
    resolved: seq<int>)

  /** `flush()`: the new state, and whether it returned rather than threw. */
  function FlushState(st: WorkerState, failed: set<WriteId>): (r: (WorkerState, bool))
    ensures r.0.blogs.Keys == st.blogs.Keys
    ensures r.1 ==> r.0.buffer == map[]
    ensures !r.1 ==> r.0.buffer == st.buffer
    ensures r.0.resolved == st.resolved
  {
    var ok := FlushOk(st.buffer, failed);
    (WorkerState(
      if ok then map[] else st.buffer,
      CountersAfter(st.blogs, st.buffer, failed),
      SetsAfter(st.sets, st.buffer, failed),
      TtlAfter(st.ttl, st.buffer, failed),
      st.resolved), ok)
  }

  /** An empty buffer: `flush` returns at once and nothing changes. */
  lemma FlushEmptyIsNoOp(st: WorkerState, failed: set<WriteId>)
    requires st.buffer == map[]
    ensures FlushState(st, failed) == (st, true)
  {
    assert CreditedIds(st.buffer, failed) == {};
    assert CountersAfter(st.blogs, st.buffer, failed) == st.blogs;
  }

  /**
   * One `$inc` per buffered blog: a blog's counters move by exactly its net
   * likes and views when its counter write succeeds, and not at all otherwise.
   */
  lemma FlushIncrementsCountersOnce(st: WorkerState, failed: set<WriteId>, id: string)
    requires id in st.blogs
    ensures var c := FlushState(st, failed).0.blogs[id];
      if id in st.buffer && WriteId(id, CounterWrite) !in failed then
        c.likeCount == st.blogs[id].likeCount + |st.buffer[id].likes| - |st.buffer[id].unlikes|
        && c.viewCount == st.blogs[id].viewCount + st.buffer[id].views
      else c == st.blogs[id]
  {
  }

  /** Adding nothing to a sorted set: when no increment lands, every window is as before. */
  lemma WindowAfterNoCredit(z: SortedSet, buf: Buffer, failed: set<WriteId>)
    requires CreditedIds(buf, failed) == {}
    ensures WindowAfter(z, buf, failed) == z
  {
    var r := WindowAfter(z, buf, failed);
    forall m | m in z ensures r[m] == z[m] {
      if m in buf {
        assert m !in CreditedIds(buf, failed);
      }
    }
  }

  /**
   * A blog's score in each window rises by exactly the weighted net likes
   * (only when positive) plus the views (only when positive), for each
   * increment that succeeded; members not buffered keep their score.
   */
  lemma FlushScores(st: WorkerState, failed: set<WriteId>, w: string, m: string)
    requires w in WindowKeys()
    ensures var after := ScoreOf(SetAt(FlushState(st, failed).0.sets, w), m);
      var before := ScoreOf(SetAt(st.sets, w), m);
      if m in st.buffer then
        var b := st.buffer[m];
        after == before
          + (if NetLikes(b) > 0 && WriteId(m, LikeTrendWrite) !in failed then 2 * NetLikes(b) else 0)
          + (if b.views > 0 && WriteId(m, ViewTrendWrite) !in failed then b.views else 0)
      else after == before
  {
    SetsAfterWindow(st.sets, st.buffer, failed, w);
    WindowAfterScore(SetAt(st.sets, w), st.buffer, failed, m);
  }

  /** A member's score after the flush: its score before plus what its successful increments add. */
  lemma WindowAfterScore(z: SortedSet, buf: Buffer, failed: set<WriteId>, m: string)
    ensures ScoreOf(WindowAfter(z, buf, failed), m)
      == ScoreOf(z, m) + if m in buf then LikeCredit(m, buf[m], failed) + ViewCredit(m, buf[m], failed) else 0
  {
    if m in buf && !Credited(m, buf[m], failed) {
      assert LikeCredit(m, buf[m], failed) == 0 && ViewCredit(m, buf[m], failed) == 0;
    }
  }

  /** The flush only ever adds positive amounts, so no score becomes negative. */
  lemma FlushKeepsScoresNonNegative(st: WorkerState, failed: set<WriteId>)
    requires NonNegative(st.sets)
    ensures NonNegative(FlushState(st, failed).0.sets)
  {
    var r := FlushState(st, failed).0.sets;
    forall w, m | w in r && m in r[w] ensures r[w][m] >= 0 {
      if w in WindowKeys() && CreditedIds(st.buffer, failed) != {} {
        FlushScores(st, failed, w, m);
      }
    }
  }

  // ------------------------------------------------------------- one flush step

  /** One blog's `$inc` on the counters: applied when it succeeds and the blog exists. */
  function CounterWrites(c: map<string, Counters>, id: string, b: Bucket, failed: set<WriteId>): map<string, Counters> {
    if WriteId(id, CounterWrite) !in failed && id in c then c[id := Inc(c[id], b)] else c
  }

  /** One blog's score increments on the sorted sets, issued in turn: likes, then views. */
  function ScoreWrites(s: map<string, SortedSet>, id: string, b: Bucket, failed: set<WriteId>): map<string, SortedSet> {
    var s1 := if LikeTrendIssued(b) && WriteId(id, LikeTrendWrite) !in failed then Bumped(s, id, Weight(LikeScore) * NetLikes(b)) else s;
    if ViewTrendIssued(b) && WriteId(id, ViewTrendWrite) !in failed then Bumped(s1, id, Weight(ViewScore) * b.views) else s1
  }

  /** The TTL refreshes those score increments make. */
  function TtlWrites(t: map<string, int>, id: string, b: Bucket, failed: set<WriteId>): map<string, int> {
    var t1 := if LikeTrendIssued(b) && WriteId(id, LikeTrendWrite) !in failed then t + WindowTtls() else t;
    if ViewTrendIssued(b) && WriteId(id, ViewTrendWrite) !in failed then t1 + WindowTtls() else t1
  }

  lemma CreditedIdsStep(done: Buffer, id: string, b: Bucket, failed: set<WriteId>)
    requires id !in done
    ensures CreditedIds(done[id := b], failed)
      == CreditedIds(done, failed) + if Credited(id, b, failed) then {id} else {}
  {
  }

  lemma WindowAfterStepCredited(z: SortedSet, done: Buffer, id: string, b: Bucket, failed: set<WriteId>)
    requires id !in done && Credited(id, b, failed)
    ensures WindowAfter(z, done[id := b], failed)
      == IncrBy(WindowAfter(z, done, failed), id, LikeCredit(id, b, failed) + ViewCredit(id, b, failed))
  {
    CreditedIdsStep(done, id, b, failed);
    var r := WindowAfter(z, done[id := b], failed);
    var q := WindowAfter(z, done, failed);
    var t := IncrBy(q, id, LikeCredit(id, b, failed) + ViewCredit(id, b, failed));
    assert r.Keys == t.Keys;
    forall m | m in r ensures r[m] == t[m] {
      if m != id {
        assert m in q;
      }
    }
  }

  lemma WindowAfterStepUncredited(z: SortedSet, done: Buffer, id: string, b: Bucket, failed: set<WriteId>)
    requires id !in done && !Credited(id, b, failed)
    ensures WindowAfter(z, done[id := b], failed) == WindowAfter(z, done, failed)
  {
    CreditedIdsStep(done, id, b, failed);
    var r := WindowAfter(z, done[id := b], failed);
    var q := WindowAfter(z, done, failed);
    assert r.Keys == q.Keys;
    forall m | m in r ensures r[m] == q[m] {
    }
  }

  lemma SetsStepUncredited(sets: map<string, SortedSet>, done: Buffer, id: string, b: Bucket, failed: set<WriteId>)
    requires id !in done && !Credited(id, b, failed)
    ensures SetsAfter(sets, done[id := b], failed) == SetsAfter(sets, done, failed)
  {
    CreditedIdsStep(done, id, b, failed);
    assert CreditedIds(done[id := b], failed) == CreditedIds(done, failed);
    if CreditedIds(done, failed) != {} {
      var k24, k7 := RedisKey("24h"), RedisKey("7d");
      WindowAfterStepUncredited(SetAt(sets, k24), done, id, b, failed);
      WindowAfterStepUncredited(SetAt(sets, k7), done, id, b, failed);
    }
  }

  /** Each window's sorted set after the flush, whether or not any increment landed. */
  lemma SetsAfterWindow(sets: map<string, SortedSet>, buf: Buffer, failed: set<WriteId>, w: string)
    requires w in WindowKeys()
    ensures SetAt(SetsAfter(sets, buf, failed), w) == WindowAfter(SetAt(sets, w), buf, failed)
  {
    if CreditedIds(buf, failed) == {} {
      WindowAfterNoCredit(SetAt(sets, w), buf, failed);
    }
  }

  /** The flush adds the window keys when some increment landed, and no other key. */
  lemma SetsAfterKeys(sets: map<string, SortedSet>, buf: Buffer, failed: set<WriteId>)
    ensures CreditedIds(buf, failed) == {} ==> SetsAfter(sets, buf, failed).Keys == sets.Keys
    ensures CreditedIds(buf, failed) != {} ==> SetsAfter(sets, buf, failed).Keys == sets.Keys + WindowKeys()
  {
    if CreditedIds(buf, failed) != {} {
      var k24, k7 := RedisKey("24h"), RedisKey("7d");
      var r := SetsAfter(sets, buf, failed);
      assert r == sets[k24 := WindowAfter(SetAt(sets, k24), buf, failed)][k7 := WindowAfter(SetAt(sets, k7), buf, failed)];
      assert r.Keys == sets.Keys + {k24} + {k7};
    }
  }

  lemma SetsStepCreditedAt(sets: map<string, SortedSet>, done: Buffer, id: string, b: Bucket, failed: set<WriteId>, w: string)
    requires id !in done && Credited(id, b, failed) && w in WindowKeys()
    ensures SetAt(SetsAfter(sets, done[id := b], failed), w)
      == IncrBy(SetAt(SetsAfter(sets, done, failed), w), id, LikeCredit(id, b, failed) + ViewCredit(id, b, failed))
  {
    SetsAfterWindow(sets, done, failed, w);
    SetsAfterWindow(sets, done[id := b], failed, w);
    WindowAfterStepCredited(SetAt(sets, w), done, id, b, failed);
  }

  lemma SetsStepCredited(sets: map<string, SortedSet>, done: Buffer, id: string, b: Bucket, failed: set<WriteId>)
    requires id !in done && Credited(id, b, failed)
    ensures SetsAfter(sets, done[id := b], failed)
      == Bumped(SetsAfter(sets, done, failed), id, LikeCredit(id, b, failed) + ViewCredit(id, b, failed))
  {
    var u := Bumped(SetsAfter(sets, done, failed), id, LikeCredit(id, b, failed) + ViewCredit(id, b, failed));
    var t := SetsAfter(sets, done[id := b], failed);
    SetsStepCreditedKeys(sets, done, id, b, failed);
    SetsStepCreditedValues(sets, done, id, b, failed);
    SameSets(u, t);
  }

  /** Two maps of sorted sets with the same keys and the same set under each key are equal. */
  lemma SameSets(u: map<string, SortedSet>, t: map<string, SortedSet>)
    requires u.Keys == t.Keys
    requires forall w :: w in u && w in t ==> u[w] == t[w]
    ensures u == t
  {
  }

  lemma SetsStepCreditedKeys(sets: map<string, SortedSet>, done: Buffer, id: string, b: Bucket, failed: set<WriteId>)
    requires id !in done && Credited(id, b, failed)
    ensures SetsAfter(sets, done[id := b], failed).Keys
      == Bumped(SetsAfter(sets, done, failed), id, LikeCredit(id, b, failed) + ViewCredit(id, b, failed)).Keys
  {
    CreditedIdsStep(done, id, b, failed);
    assert id in CreditedIds(done[id := b], failed);
    SetsAfterKeys(sets, done, failed);
    SetsAfterKeys(sets, done[id := b], failed);
  }

  lemma SetsStepCreditedValues(sets: map<string, SortedSet>, done: Buffer, id: string, b: Bucket, failed: set<WriteId>)
    requires id !in done && Credited(id, b, failed)
    ensures var u := Bumped(SetsAfter(sets, done, failed), id, LikeCredit(id, b, failed) + ViewCredit(id, b, failed));
      var t := SetsAfter(sets, done[id := b], failed);
      forall w :: w in u && w in t ==> u[w] == t[w]
  {
    var s := SetsAfter(sets, done, failed);
    var u := Bumped(s, id, LikeCredit(id, b, failed) + ViewCredit(id, b, failed));
    var t := SetsAfter(sets, done[id := b], failed);
    forall w | w in u && w in t ensures u[w] == t[w] {
      if w in WindowKeys() {
        SetsStepCreditedAt(sets, done, id, b, failed, w);
      } else {
        SetsAfterKeys(sets, done, failed);
        assert w in s && s[w] == sets[w];
      }
    }
  }

  /**
   * The score increments a flush issues for one more blog, in the order the
   * loop issues them (likes, then views), take the sets from the state after
   * the earlier blogs to the state after this one as well.
   */
  lemma SetsStep(sets: map<string, SortedSet>, done: Buffer, id: string, b: Bucket, failed: set<WriteId>)
    requires id !in done
    ensures ScoreWrites(SetsAfter(sets, done, failed), id, b, failed) == SetsAfter(sets, done[id := b], failed)
  {
    var lc, vc := LikeCredit(id, b, failed), ViewCredit(id, b, failed);
    if Credited(id, b, failed) {
      SetsStepCredited(sets, done, id, b, failed);
    } else {
      SetsStepUncredited(sets, done, id, b, failed);
    }
    BumpInTurn(SetsAfter(sets, done, failed), SetsAfter(sets, done[id := b], failed), id,
      LikeTrendIssued(b) && WriteId(id, LikeTrendWrite) !in failed, Weight(LikeScore) * NetLikes(b),
      ViewTrendIssued(b) && WriteId(id, ViewTrendWrite) !in failed, Weight(ViewScore) * b.views, lc + vc);
  }

  /** Two increments issued in turn, each only when switched on, add up to one increment by their sum. */
  lemma BumpInTurn(s: map<string, SortedSet>, t: map<string, SortedSet>, id: string, likeOn: bool, lc: int, viewOn: bool, vc: int, d: int)
    requires d == (if likeOn then lc else 0) + (if viewOn then vc else 0)
    requires likeOn || viewOn ==> t == Bumped(s, id, d)
    requires !likeOn && !viewOn ==> t == s
    ensures likeOn && viewOn ==> Bumped(Bumped(s, id, lc), id, vc) == t
    ensures likeOn && !viewOn ==> Bumped(s, id, lc) == t
    ensures !likeOn && viewOn ==> Bumped(s, id, vc) == t
  {
    if likeOn && viewOn {
      assert d == lc + vc;
      BumpedTwice(s, id, lc, vc);
    } else if likeOn {
      assert d == lc;
    } else if viewOn {
      assert d == vc;
    }
  }

  lemma TtlStep(ttl: map<string, int>, done: Buffer, id: string, b: Bucket, failed: set<WriteId>)
    requires id !in done
    ensures TtlWrites(TtlAfter(ttl, done, failed), id, b, failed) == TtlAfter(ttl, done[id := b], failed)
  {
    CreditedIdsStep(done, id, b, failed);
    var w := WindowTtls();
    assert ttl + w + w == ttl + w;
  }

  lemma FlushOkStep(done: Buffer, id: string, b: Bucket, failed: set<WriteId>)
    requires id !in done
    ensures FlushOk(done[id := b], failed) == (FlushOk(done, failed) && !BlogWriteFails(id, b, failed))
  {
    var d := done[id := b];
    if FlushOk(d, failed) {
      assert id in d && d[id] == b;
      forall k | k in done ensures !BlogWriteFails(k, done[k], failed) {
        assert k in d && d[k] == done[k];
      }
    }
  }

  lemma CountersStep(blogs: map<string, Counters>, done: Buffer, id: string, b: Bucket, failed: set<WriteId>)
    requires id !in done
    ensures CounterWrites(CountersAfter(blogs, done, failed), id, b, failed) == CountersAfter(blogs, done[id := b], failed)
  {
  }
}

=== FILE: batch_processor.dfy ===
/**
 * The worker's `InteractionBatchProcessor`: an aggregation buffer held in a
 * field and mutated in place, flushed to the blog counters and the trending
 * service.
 */
module InteractionBatch {
  import opened Wrappers
  import opened Constants
  import opened Events
  import opened Trending
  import opened BatchBuffer
  import opened BatchRun

  /** The flush loop has handled the blogs of `buf` outside `todo`, and recorded exactly those in `done`. */
  ghost predicate Visited(buf: Buffer, todo: set<string>, done: Buffer) {
    && todo <= buf.Keys && todo !! done.Keys && done.Keys <= buf.Keys
    && forall id :: id in buf ==> id in todo || (id in done && done[id] == buf[id])
  }

  lemma VisitStep(buf: Buffer, todo: set<string>, done: Buffer, id: string)
    requires Visited(buf, todo, done) && id in todo
    ensures id !in done && Visited(buf, todo - {id}, done[id := buf[id]])
  {
  }

  lemma VisitedAll(buf: Buffer, done: Buffer)
    requires Visited(buf, {}, done)
    ensures done == buf
  {
  }

  class InteractionBatchProcessor {
    /** The per-blog buckets since the last successful flush. */
    var buffer: Buffer
    const batchSize: int
    const trending: TrendingService
    /** The blog documents' counters (the `Blog` collection's `likeCount`/`viewCount`). */
    var blogs: map<string, Counters>
    /** The offsets passed to `resolveOffset`, in order. */
    var resolved: seq<int>

    constructor (batchSize: int, trending: TrendingService, blogs: map<string, Counters>)
      ensures buffer == map[] && this.batchSize == batchSize && this.trending == trending
      ensures this.blogs == blogs && resolved == []
    {
      buffer := map[];
      this.batchSize := batchSize;
      this.trending := trending;
      this.blogs := blogs;
      resolved := [];
    }

    /** The state a batch reads and writes. */
    ghost function State(): WorkerState
      reads this, trending
    {
      WorkerState(buffer, blogs, trending.sets, trending.ttl, resolved)
    }

    /** `addToBuffer(event)`: only the event's bucket changes. */
    method AddToBuffer(event: InteractionEvent)
      modifies this
      ensures buffer == Added(old(buffer), event)
      ensures blogs == old(blogs) && resolved == old(resolved)
    {
      var bucket := if event.blogId in buffer then buffer[event.blogId] else EMPTY_BUCKET;
      match event.kind {
        case Like =>
          bucket := bucket.(likes := bucket.likes + {event.userId});
          bucket := bucket.(unlikes := bucket.unlikes - {event.userId});
        case Unlike =>
          bucket := bucket.(unlikes := bucket.unlikes + {event.userId});
          bucket := bucket.(likes := bucket.likes - {event.userId});
        case View =>
          bucket := bucket.(views := bucket.views + 1);
        case Comment =>
      }
      buffer := buffer[event.blogId := bucket];
    }

    /** `shouldFlush(currentBatchSize)`: the pulled batch is at least `batchSize` long. */
    method ShouldFlush(currentBatchSize: int) returns (flush: bool)
      ensures flush <==> currentBatchSize >= batchSize
    {
      flush := currentBatchSize >= batchSize;
    }

    /**
     * `flush()`: for each buffered blog, one counter increment and the
     * trending increments for positive net likes and views; the writes named
     * in `failed` fail, the rest land. The buffer is cleared only when none
     * failed (`ok`); otherwise the call throws and the buffer is kept.
     */
    method Flush(failed: set<WriteId>) returns (ok: bool)
      modifies this, trending
      ensures (State(), ok) == FlushState(old(State()), failed)
    {
      if |buffer| == 0 {
        FlushEmptyIsNoOp(State(), failed);
        return true;
      }
      ghost var blogs0, sets0, ttl0 := blogs, trending.sets, trending.ttl;
      ghost var done: Buffer := map[];
      var buf := buffer;
      var todo := buf.Keys;
      ok := true;
      while todo != {}
        invariant Visited(buf, todo, done)
        invariant buffer == buf && resolved == old(resolved)
        invariant blogs == CountersAfter(blogs0, done, failed)
        invariant trending.sets == SetsAfter(sets0, done, failed)
        invariant trending.ttl == TtlAfter(ttl0, done, failed)
        invariant ok == FlushOk(done, failed)
        decreases |todo|
      {
        var blogId :| blogId in todo;
        var bucket := buf[blogId];
        CountersStep(blogs0, done, blogId, bucket, failed);
        SetsStep(sets0, done, blogId, bucket, failed);
        TtlStep(ttl0, done, blogId, bucket, failed);
        var blogOk := FlushBlog(blogId, bucket, failed);
        FlushOkStep(done, blogId, bucket, failed);
        VisitStep(buf, todo, done, blogId);
        ok := ok && blogOk;
        done := done[blogId := bucket];
        todo := todo - {blogId};
      }
      VisitedAll(buf, done);
      if ok {
        buffer := map[];
      }
    }

    /**
     * The body of the flush loop for one buffered blog: the counter
     * increment, then the like and view score increments when positive;
     * `blogOk` says none of its writes failed.
     */
    method FlushBlog(blogId: string, interactions: Bucket, failed: set<WriteId>) returns (blogOk: bool)
      modifies this, trending
      ensures blogs == CounterWrites(old(blogs), blogId, interactions, failed)
      ensures trending.sets == ScoreWrites(old(trending.sets), blogId, interactions, failed)
      ensures trending.ttl == TtlWrites(old(trending.ttl), blogId, interactions, failed)
      ensures blogOk == !BlogWriteFails(blogId, interactions, failed)
      ensures buffer == old(buffer) && resolved == old(resolved)
    {
      var netLikes := NetLikes(interactions);
      var netViews := interactions.views;
      blogOk := true;
      if WriteId(blogId, CounterWrite) in failed {
        blogOk := false;
      } else if blogId in blogs {
        blogs := blogs[blogId := Counters(blogs[blogId].likeCount + netLikes, blogs[blogId].viewCount + netViews)];
      }
      if netLikes > 0 {
        if WriteId(blogId, LikeTrendWrite) in failed {
          blogOk := false;
        } else {
          trending.IncrementScore(blogId, LikeScore, netLikes);
        }
      }
      if netViews > 0 {
        if WriteId(blogId, ViewTrendWrite) in failed {
          blogOk := false;
        } else {
          trending.IncrementScore(blogId, ViewScore, netViews);
        }
      }
    }

    /**
     * The body of the message loop: a malformed message is skipped; a
     * parsed one is buffered, the buffer is flushed when the batch is
     * large, and the offset is resolved unless that flush threw.
     */
    method HandleMessage(message: BatchMessage, flushNow: bool, failed: set<WriteId>)
      modifies this, trending
      ensures State() == Step(old(State()), message, flushNow, failed)
    {
      match message.body {
        case Malformed =>
        case Parsed(event) =>
          AddToBuffer(event);
          var handled := true;
          if flushNow {
            handled := Flush(failed);
          }
          if handled {
            resolved := resolved + [message.offset];
          }
      }
    }

    /**
     * `processBatch`: walks the pulled messages until `stopAt` (the first
     * point where the consumer is no longer running or the batch is stale),
     * then always flushes. `flushFailures[i]` and `finalFailed` say which
     * writes of the flush for message `i` and of the final flush fail; `ok`
     * is false when the final flush throws.
     */
    method ProcessBatch(messages: seq<BatchMessage>, stopAt: nat, flushFailures: seq<set<WriteId>>, finalFailed: set<WriteId>)
      returns (ok: bool)
      modifies this, trending
      ensures (State(), ok) == Batch(old(State()), messages, stopAt, batchSize, flushFailures, finalFailed)
    {
      ghost var st0 := State();
      var n := if stopAt < |messages| then stopAt else |messages|;
      var flushNow := ShouldFlush(|messages|);
      var i := 0;
      while i < n
        invariant 0 <= i <= n
        invariant State() == Run(st0, messages, i, flushNow, flushFailures)
      {
        HandleMessage(messages[i], flushNow, FailuresAt(flushFailures, i));
        i := i + 1;
      }
      assert flushNow == BatchRun.ShouldFlush(|messages|, batchSize);
      ghost var pre := State();
      ok := Flush(finalFailed);
      assert (State(), ok) == FlushState(pre, finalFailed);
    }
  }
}

=== FILE: batch_run.dfy ===
/**
 * `processBatch` as a fold over the pulled messages: the specification the
 * processor's message loop is proved against, and what it promises.
 */
module BatchRun {
  import opened Collections
  import opened Wrappers
  import opened Constants
  import opened Events
  import opened Trending
  import opened BatchBuffer

  /** A pulled message's value: a parsed interaction event, or one that fails to parse. */
  datatype Body = Parsed(event: InteractionEvent) | Malformed

  datatype BatchMessage = BatchMessage(offset: int, body: Body)

  /** `shouldFlush(currentBatchSize)` */
  predicate ShouldFlush(currentBatchSize: int, batchSize: int)
    ensures currentBatchSize == batchSize ==> ShouldFlush(currentBatchSize, batchSize)
    ensures currentBatchSize < batchSize ==> !ShouldFlush(currentBatchSize, batchSize)
  {
    currentBatchSize >= batchSize
  }

  /** The failing writes of the flush made while handling message `i`; none when the oracle is silent. */
  function FailuresAt(fs: seq<set<WriteId>>, i: nat): set<WriteId> {
    if i < |fs| then fs[i] else {}
  }

  /**
   * The body of the message loop for one message: parse, buffer, flush when
   * the batch is large, then resolve the offset. A parse error or a failed
   * flush skips the rest of the body, so the offset stays unresolved.
   */
  function Step(st: WorkerState, m: BatchMessage, flushNow: bool, failed: set<WriteId>): (r: WorkerState)
    ensures m.body.Malformed? ==> r == st
    ensures m.body.Parsed? && !flushNow ==>
      r == st.(buffer := Added(st.buffer, m.body.event), resolved := st.resolved + [m.offset])
    ensures r.resolved == st.resolved || r.resolved == st.resolved + [m.offset]
  {
    match m.body
    case Malformed => st
    case Parsed(e) =>
      var st1 := st.(buffer := Added(st.buffer, e));
      if !flushNow then st1.(resolved := st1.resolved + [m.offset])
      else
        var (st2, ok) := FlushState(st1, failed);
        if ok then st2.(resolved := st2.resolved + [m.offset]) else st2
  }

  /** The state after the loop body ran for the first `n` messages. */
  function Run(st: WorkerState, msgs: seq<BatchMessage>, n: nat, flushNow: bool, fs: seq<set<WriteId>>): (r: WorkerState)
    requires n <= |msgs|
    ensures |st.resolved| <= |r.resolved| <= |st.resolved| + n
    ensures r.resolved[..|st.resolved|] == st.resolved
    ensures r.blogs.Keys == st.blogs.Keys
  {
    if n == 0 then st
    else Step(Run(st, msgs, n - 1, flushNow, fs), msgs[n - 1], flushNow, FailuresAt(fs, n - 1))
  }

  /**
   * `processBatch`: the loop stops before message `stopAt` (where
   * `!isRunning() || isStale()` first holds), and the final flush always runs.
   */
  function Batch(st: WorkerState, msgs: seq<BatchMessage>, stopAt: nat, batchSize: int,
                 fs: seq<set<WriteId>>, finalFailed: set<WriteId>): (r: (WorkerState, bool))
    ensures r.1 ==> r.0.buffer == map[]
    ensures r.0.blogs.Keys == st.blogs.Keys
    ensures |st.resolved| <= |r.0.resolved| <= |st.resolved| + |msgs|
    ensures r.0.resolved[..|st.resolved|] == st.resolved
  {
    var n := if stopAt < |msgs| then stopAt else |msgs|;
    FlushState(Run(st, msgs, n, ShouldFlush(|msgs|, batchSize), fs), finalFailed)
  }

  /** Offsets of the parsed messages among the first `n`, in order. */
  function ParsedOffsets(msgs: seq<BatchMessage>, n: nat): seq<int>
    requires n <= |msgs|
  {
    if n == 0 then []
    else ParsedOffsets(msgs, n - 1) + if msgs[n - 1].body.Parsed? then [msgs[n - 1].offset] else []
  }

  /**
   * Only handled messages are resolved: the run appends to the resolved
   * offsets, in order, and every offset it appends is a parsed message's.
   */
  lemma {:induction false} ResolvesOnlyParsed(st: WorkerState, msgs: seq<BatchMessage>, n: nat, flushNow: bool, fs: seq<set<WriteId>>)
    requires n <= |msgs|
    ensures var r := Run(st, msgs, n, flushNow, fs).resolved;
      st.resolved <= r && |r| <= |st.resolved| + |ParsedOffsets(msgs, n)|
      && forall k :: |st.resolved| <= k < |r| ==> r[k] in ParsedOffsets(msgs, n)
  {
    if n > 0 {
      ResolvesOnlyParsed(st, msgs, n - 1, flushNow, fs);
      var m := msgs[n - 1];
      ResolvedStep(st.resolved, Run(st, msgs, n - 1, flushNow, fs).resolved, Run(st, msgs, n, flushNow, fs).resolved,
        ParsedOffsets(msgs, n - 1), m.offset, m.body.Parsed?);
    }
  }

  /** One message keeps the resolved offsets a prefix-extension by parsed offsets only. */
  lemma ResolvedStep(base: seq<int>, r0: seq<int>, r: seq<int>, p0: seq<int>, o: int, parsed: bool)
    requires base <= r0 && |r0| <= |base| + |p0|
    requires forall k :: |base| <= k < |r0| ==> r0[k] in p0
    requires r == r0 || (parsed && r == r0 + [o])
    ensures var p := p0 + if parsed then [o] else [];
      base <= r && |r| <= |base| + |p| && forall k :: |base| <= k < |r| ==> r[k] in p
  {
  }

  /** A malformed message (with an offset no parsed message shares) is never resolved. */
  lemma MalformedNeverResolved(st: WorkerState, msgs: seq<BatchMessage>, n: nat, flushNow: bool, fs: seq<set<WriteId>>, i: nat)
    requires n <= |msgs| && i < n && msgs[i].body.Malformed?
    requires forall j :: 0 <= j < |msgs| && j != i ==> msgs[j].offset != msgs[i].offset
    requires msgs[i].offset !in st.resolved
    ensures msgs[i].offset !in Run(st, msgs, n, flushNow, fs).resolved
  {
    ResolvesOnlyParsed(st, msgs, n, flushNow, fs);
    ParsedOffsetsFrom(msgs, n, msgs[i].offset);
  }

  lemma {:induction false} ParsedOffsetsFrom(msgs: seq<BatchMessage>, n: nat, o: int)
    requires n <= |msgs|
    ensures o in ParsedOffsets(msgs, n) ==> exists j :: 0 <= j < n && msgs[j].body.Parsed? && msgs[j].offset == o
  {
    if n > 0 {
      ParsedOffsetsFrom(msgs, n - 1, o);
    }
  }

  /** A small batch never flushes inside the loop: every parsed message is buffered and resolved, in order. */
  lemma {:induction false} SmallBatchResolvesEveryParsed(st: WorkerState, msgs: seq<BatchMessage>, n: nat, fs: seq<set<WriteId>>)
    requires n <= |msgs|
    ensures var r := Run(st, msgs, n, false, fs);
      r.resolved == st.resolved + ParsedOffsets(msgs, n)
      && r.blogs == st.blogs && r.sets == st.sets && r.ttl == st.ttl
  {
    if n > 0 {
      SmallBatchResolvesEveryParsed(st, msgs, n - 1, fs);
    }
  }

  /**
   * A large batch flushes after every parsed message: while those flushes
   * succeed, the buffer is empty after each message and every parsed
   * message is resolved.
   */
  lemma {:induction false} LargeBatchFlushesEachMessage(st: WorkerState, msgs: seq<BatchMessage>, n: nat, fs: seq<set<WriteId>>)
    requires n <= |msgs| && st.buffer == map[]
    requires forall i :: 0 <= i < n ==> FailuresAt(fs, i) == {}
    ensures var r := Run(st, msgs, n, true, fs);
      r.buffer == map[] && r.resolved == st.resolved + ParsedOffsets(msgs, n)
  {
    if n > 0 {
      LargeBatchFlushesEachMessage(st, msgs, n - 1, fs);
      var r0 := Run(st, msgs, n - 1, true, fs);
      assert FailuresAt(fs, n - 1) == {};
      match msgs[n - 1].body
      case Malformed =>
      case Parsed(e) =>
        var st1 := r0.(buffer := Added(r0.buffer, e));
        assert FlushOk(st1.buffer, {});
        var st2 := FlushState(st1, {}).0;
        assert st2.buffer == map[] && st2.resolved == r0.resolved;
        assert Run(st, msgs, n, true, fs) == st2.(resolved := st2.resolved + [msgs[n - 1].offset]);
        AppendAssoc(st.resolved, ParsedOffsets(msgs, n - 1), [msgs[n - 1].offset]);
    }
  }

  /**
   * A flush that throws while handling a message keeps the message's event in
   * the buffer and leaves its offset unresolved, so the broker delivers it
   * again: the writes that did land for it are applied twice (at-least-once).
   */
  lemma FailedFlushLeavesOffsetUnresolved(st: WorkerState, e: InteractionEvent, offset: int, failed: set<WriteId>)
    requires !FlushOk(Added(st.buffer, e), failed)
    ensures var r := Step(st, BatchMessage(offset, Parsed(e)), true, failed);
      r.resolved == st.resolved && r.buffer == Added(st.buffer, e)
  {
  }

  /** The messages at and after `stopAt` have no effect on the batch. */
  lemma {:induction false} RunIgnoresLaterMessages(st: WorkerState, msgs: seq<BatchMessage>, more: seq<BatchMessage>, n: nat, flushNow: bool, fs: seq<set<WriteId>>)
    requires n <= |msgs|
    ensures Run(st, msgs + more, n, flushNow, fs) == Run(st, msgs, n, flushNow, fs)
  {
    if n > 0 {
      RunIgnoresLaterMessages(st, msgs, more, n - 1, flushNow, fs);
      assert (msgs + more)[n - 1] == msgs[n - 1];
    }
  }

  /** No user is ever in both sets of a bucket across a batch. */
  lemma {:induction false} RunKeepsDisjoint(st: WorkerState, msgs: seq<BatchMessage>, n: nat, flushNow: bool, fs: seq<set<WriteId>>)
    requires n <= |msgs| && Disjoint(st.buffer)
    ensures Disjoint(Run(st, msgs, n, flushNow, fs).buffer)
  {
    if n > 0 {
      RunKeepsDisjoint(st, msgs, n - 1, flushNow, fs);
    }
  }

  /** Scores never become negative across a batch. */
  lemma {:induction false} RunKeepsScoresNonNegative(st: WorkerState, msgs: seq<BatchMessage>, n: nat, flushNow: bool, fs: seq<set<WriteId>>)
    requires n <= |msgs| && NonNegative(st.sets)
    ensures NonNegative(Run(st, msgs, n, flushNow, fs).sets)
  {
    if n > 0 {
      RunKeepsScoresNonNegative(st, msgs, n - 1, flushNow, fs);
      var r0 := Run(st, msgs, n - 1, flushNow, fs);
      if msgs[n - 1].body.Parsed? && flushNow {
        FlushKeepsScoresNonNegative(r0.(buffer := Added(r0.buffer, msgs[n - 1].body.event)), FailuresAt(fs, n - 1));
      }
    }
  }

  /** The worked example's messages: two likes of b1, a malformed message, a view of b1. */
  function ExampleMessages(): seq<BatchMessage> {
    [ BatchMessage(10, Parsed(InteractionEvent(Like, Some("u1"), "b1", 1))),
      BatchMessage(11, Parsed(InteractionEvent(Like, Some("u2"), "b1", 2))),
      BatchMessage(12, Malformed),
      BatchMessage(13, Parsed(InteractionEvent(View, Some("u1"), "b1", 3))) ]
  }

  /** Without a flush inside the loop, the example leaves one bucket for b1 and three resolved offsets. */
  lemma ExampleLoop(blogs: map<string, Counters>)
    ensures Run(WorkerState(map[], blogs, map[], map[], []), ExampleMessages(), 4, false, [])
      == WorkerState(map["b1" := Bucket({Some("u1"), Some("u2")}, {}, 1)], blogs, map[], map[], [10, 11, 13])
  {
    var st := WorkerState(map[], blogs, map[], map[], []);
    ExampleBuffer4(st);
    ExampleParsed();
    SmallBatchResolvesEveryParsed(st, ExampleMessages(), 4, []);
  }

  /** The first like opens b1's bucket. */
  lemma ExampleBuffer1(st: WorkerState)
    requires st.buffer == map[]
    ensures Run(st, ExampleMessages(), 1, false, []).buffer == map["b1" := Bucket({Some("u1")}, {}, 0)]
  {
    var msgs := ExampleMessages();
    assert Record(EMPTY_BUCKET, msgs[0].body.event) == Bucket({Some("u1")}, {}, 0);
    assert Run(st, msgs, 1, false, []) == Step(st, msgs[0], false, {});
  }

  /** The second like joins it. */
  lemma ExampleBuffer2(st: WorkerState)
    requires st.buffer == map[]
    ensures Run(st, ExampleMessages(), 2, false, []).buffer == map["b1" := Bucket({Some("u1"), Some("u2")}, {}, 0)]
  {
    ExampleBuffer1(st);
    var msgs := ExampleMessages();
    var b1, b2 := Bucket({Some("u1")}, {}, 0), Bucket({Some("u1"), Some("u2")}, {}, 0);
    assert Record(b1, msgs[1].body.event) == b2;
    UpdateTwice("b1", b1, b2);
  }

  /** The malformed message leaves the buffer alone. */
  lemma ExampleBuffer3(st: WorkerState)
    requires st.buffer == map[]
    ensures Run(st, ExampleMessages(), 3, false, []).buffer == map["b1" := Bucket({Some("u1"), Some("u2")}, {}, 0)]
  {
    ExampleBuffer2(st);
    assert ExampleMessages()[2].body.Malformed?;
  }

  /** The view is counted. */
  lemma ExampleBuffer4(st: WorkerState)
    requires st.buffer == map[]
    ensures Run(st, ExampleMessages(), 4, false, []).buffer == map["b1" := Bucket({Some("u1"), Some("u2")}, {}, 1)]
  {
    ExampleBuffer3(st);
    var msgs := ExampleMessages();
    var b2 := Bucket({Some("u1"), Some("u2")}, {}, 0);
    var p := Run(st, msgs, 3, false, []);
    var e := InteractionEvent(View, Some("u1"), "b1", 3);
    assert msgs[3] == BatchMessage(13, Parsed(e));
    assert Record(b2, e) == b2.(views := 1);
    UpdateTwice("b1", b2, b2.(views := 1));
  }

  /** The parsed messages are the first, second and fourth. */
  lemma ExampleParsed()
    ensures ParsedOffsets(ExampleMessages(), 4) == [10, 11, 13]
  {
    var msgs := ExampleMessages();
    assert ParsedOffsets(msgs, 1) == [10];
    assert ParsedOffsets(msgs, 2) == [10, 11];
    assert ParsedOffsets(msgs, 3) == [10, 11];
  }

  /**
   * The worked example, in a batch below the flush threshold and without
   * failures: the final flush moves b1's counters by +2 likes and +1 view,
   * credits 2*2 + 1 = 5 in each window, refreshes the TTLs, resolves the
   * three parsed offsets and leaves the buffer empty.
   */
  lemma WorkedExample(blogs: map<string, Counters>)
    requires "b1" in blogs
    ensures var (r, ok) := Batch(WorkerState(map[], blogs, map[], map[], []), ExampleMessages(), 4, 100, [], {});
      ok && r.buffer == map[] && r.resolved == [10, 11, 13]
      && "b1" in r.blogs && r.blogs["b1"] == Counters(blogs["b1"].likeCount + 2, blogs["b1"].viewCount + 1)
      && ScoreOf(SetAt(r.sets, RedisKey("24h")), "b1") == 5
      && ScoreOf(SetAt(r.sets, RedisKey("7d")), "b1") == 5
      && r.ttl == WindowTtls()
  {
    ExampleLoop(blogs);
    var mid := ExampleMid(blogs);
    assert Batch(WorkerState(map[], blogs, map[], map[], []), ExampleMessages(), 4, 100, [], {}) == FlushState(mid, {});
    ExampleFlushState(blogs);
    ExampleFlushScores(blogs);
  }

  /** The state the example loop leaves for the final flush. */
  function ExampleMid(blogs: map<string, Counters>): WorkerState {
    WorkerState(map["b1" := Bucket({Some("u1"), Some("u2")}, {}, 1)], blogs, map[], map[], [10, 11, 13])
  }

  /** The final flush of the example: every write lands, b1's counters move, the TTLs are set. */
  lemma ExampleFlushState(blogs: map<string, Counters>)
    requires "b1" in blogs
    ensures var (r, ok) := FlushState(ExampleMid(blogs), {});
      ok && r.buffer == map[] && r.resolved == [10, 11, 13]
      && "b1" in r.blogs && r.blogs["b1"] == Counters(blogs["b1"].likeCount + 2, blogs["b1"].viewCount + 1)
      && r.ttl == WindowTtls()
  {
    var mid := ExampleMid(blogs);
    assert |mid.buffer["b1"].likes| == 2;
    assert CreditedIds(mid.buffer, {}) == {"b1"};
    FlushIncrementsCountersOnce(mid, {}, "b1");
  }

  /** The final flush of the example credits 2 * 2 + 1 = 5 in each window. */
  lemma ExampleFlushScores(blogs: map<string, Counters>)
    ensures var r := FlushState(ExampleMid(blogs), {}).0;
      ScoreOf(SetAt(r.sets, RedisKey("24h")), "b1") == 5 && ScoreOf(SetAt(r.sets, RedisKey("7d")), "b1") == 5
  {
    var mid := ExampleMid(blogs);
    assert |mid.buffer["b1"].likes| == 2;
    FlushScores(mid, {}, RedisKey("24h"), "b1");
    FlushScores(mid, {}, RedisKey("7d"), "b1");
  }
}

=== FILE: blog_dto.dfy ===
/**
 * The blog request schemas: which inputs the validators accept, the issues
 * they report otherwise, and the search defaults. String lengths count the
 * characters of the `string`; zod counts UTF-16 code units, and the two
 * agree for text inside the Basic Multilingual Plane.
 */
module BlogDto {
  import opened Wrappers
  import opened Constants

  /** What a failed check reports. */
  datatype IssueCode = TooSmall(minimum: int) | TooBig(maximum: int) | InvalidEnum | NotANumber | NotAnInteger | InvalidEmail

  /** One validation issue: the path of the offending field and what failed. */
  datatype Issue = Issue(path: seq<string>, code: IssueCode)

  /** `z.string().min(min)` (and `.max(max)` when given) on field `field`. */
  function LengthIssues(field: string, s: string, min: int, max: Option<int>): (r: seq<Issue>)
    ensures r == [] <==> min <= |s| && (max.None? || |s| <= max.value)
    ensures forall i :: 0 <= i < |r| ==> r[i].path == [field]
  {
    (if |s| < min then [Issue([field], TooSmall(min))] else [])
    + (if max.Some? && |s| > max.value then [Issue([field], TooBig(max.value))] else [])
  }

  datatype CreateBlogInput = CreateBlogInput(title: string, content: string, tags: Option<seq<string>>)

  /** `CreateBlogSchema`: a title of 5 to 200 characters, content of at least 50; tags optional. */
  function ValidateCreateBlog(d: CreateBlogInput): (r: seq<Issue>)
    ensures r == [] <==> 5 <= |d.title| <= 200 && |d.content| >= 50
  {
    LengthIssues("title", d.title, 5, Some(200)) + LengthIssues("content", d.content, 50, None)
  }

  datatype UpdateBlogInput = UpdateBlogInput(title: Option<string>, content: Option<string>, tags: Option<seq<string>>)

  /** `UpdateBlogSchema = CreateBlogSchema.partial()`: every field optional, a present one checked as on create. */
  function ValidateUpdateBlog(d: UpdateBlogInput): (r: seq<Issue>)
    ensures r == [] <==> (d.title.Some? ==> 5 <= |d.title.value| <= 200) && (d.content.Some? ==> |d.content.value| >= 50)
  {
    (if d.title.Some? then LengthIssues("title", d.title.value, 5, Some(200)) else [])
    + (if d.content.Some? then LengthIssues("content", d.content.value, 50, None) else [])
  }

  /** A query-string number as `z.coerce.number()` sees it; `Fractional` holds a finite number that is not whole. */
  datatype NumberInput = Missing | Whole(value: int) | Fractional(x: real) | NotNumeric

  /** The `.min(min)` and `.max(max)` issues of a number, in that order. */
  function BoundIssues(field: string, v: real, min: int, max: Option<int>): (r: seq<Issue>)
    ensures Issue([field], TooSmall(min)) in r <==> v < min as real
    ensures max.Some? ==> (Issue([field], TooBig(max.value)) in r <==> v > max.value as real)
    ensures forall i :: 0 <= i < |r| ==> r[i].code.TooSmall? || r[i].code.TooBig?
    ensures forall i :: 0 <= i < |r| ==> r[i].path == [field]
  {
    (if v < min as real then [Issue([field], TooSmall(min))] else [])
    + (if max.Some? && v > max.value as real then [Issue([field], TooBig(max.value))] else [])
  }

  /** `z.coerce.number().int().min(min)[.max(max)].default(dflt)` on field `field`. */
  function CoerceInt(field: string, x: NumberInput, min: int, max: Option<int>, dflt: int): (r: Result<int, seq<Issue>>)
    ensures x.Missing? ==> r == Ok(dflt)
    ensures x.Whole? ==> (r.Ok? <==> min <= x.value && (max.None? || x.value <= max.value))
    ensures x.Whole? && r.Ok? ==> r.value == x.value
    ensures x.Fractional? || x.NotNumeric? ==> r.Err?
    ensures x.NotNumeric? ==> r == Err([Issue([field], NotANumber)])
    ensures x.Fractional? ==> (
      && r.Err? && |r.error| >= 1 && r.error[0] == Issue([field], NotAnInteger)
      && (Issue([field], TooSmall(min)) in r.error <==> x.x < min as real)
      && (max.Some? ==> (Issue([field], TooBig(max.value)) in r.error <==> x.x > max.value as real)))
    ensures x.Whole? && r.Err? ==> (
      && (Issue([field], TooSmall(min)) in r.error <==> x.value < min)
      && (max.Some? ==> (Issue([field], TooBig(max.value)) in r.error <==> x.value > max.value)))
  {
    match x
    case Missing => Ok(dflt)
    case NotNumeric => Err([Issue([field], NotANumber)])
    case Fractional(v) =>
      // `.int()`, `.min()` and `.max()` do not stop the checks after them
      Err([Issue([field], NotAnInteger)] + BoundIssues(field, v, min, max))
    case Whole(v) =>
      var issues := BoundIssues(field, v as real, min, max);
      if issues == [] then Ok(v) else Err(issues)
  }

  /** A fractional page below 1 reports both the integer and the minimum issue. */
  lemma FractionalPageIssues()
    ensures CoerceInt("page", Fractional(0.5), 1, None, 1) == Err([Issue(["page"], NotAnInteger), Issue(["page"], TooSmall(1))])
    ensures CoerceInt("limit", Fractional(100.5), 1, Some(100), 10) == Err([Issue(["limit"], NotAnInteger), Issue(["limit"], TooBig(100))])
  {
    assert BoundIssues("page", 0.5, 1, None) == [Issue(["page"], TooSmall(1))];
    assert CoerceInt("page", Fractional(0.5), 1, None, 1) == Err([Issue(["page"], NotAnInteger)] + BoundIssues("page", 0.5, 1, None));
    assert [Issue(["page"], NotAnInteger)] + [Issue(["page"], TooSmall(1))] == [Issue(["page"], NotAnInteger), Issue(["page"], TooSmall(1))];
    assert BoundIssues("limit", 100.5, 1, Some(100)) == [Issue(["limit"], TooBig(100))];
    assert CoerceInt("limit", Fractional(100.5), 1, Some(100), 10) == Err([Issue(["limit"], NotAnInteger)] + BoundIssues("limit", 100.5, 1, Some(100)));
    assert [Issue(["limit"], NotAnInteger)] + [Issue(["limit"], TooBig(100))] == [Issue(["limit"], NotAnInteger), Issue(["limit"], TooBig(100))];
  }

  datatype SearchInput = SearchInput(
    q: Option<string>, tags: Option<string>, author: Option<string>,
    status: Option<string>, sort: Option<string>, page: NumberInput, limit: NumberInput)

  datatype SearchBlogDto = SearchBlogDto(
    q: Option<string>, tags: Option<string>, author: Option<string>,
    status: Option<BlogStatus>, sort: Option<string>, page: int, limit: int)

  /** `SearchBlogSchema.parse`: page an integer of at least 1 (default 1), limit an integer in [1, 100] (default 10), status one of the blog statuses. */
  function ParseSearch(d: SearchInput): (r: Result<SearchBlogDto, seq<Issue>>)
    ensures r.Ok? ==> r.value.page >= 1 && 1 <= r.value.limit <= 100
    ensures r.Ok? ==> r.value.q == d.q && r.value.tags == d.tags && r.value.author == d.author && r.value.sort == d.sort
    ensures r.Ok? ==> (d.page.Missing? ==> r.value.page == 1) && (d.limit.Missing? ==> r.value.limit == 10)
    ensures r.Ok? ==> (d.status.None? <==> r.value.status.None?)
    ensures r.Ok? && d.status.Some? ==> StatusName(r.value.status.value) == d.status.value
    ensures d.status.Some? && ParseStatus(d.status.value).None? ==> r.Err?
    ensures d.page.Whole? && d.page.value < 1 ==> r.Err?
    ensures d.limit.Whole? && (d.limit.value < 1 || d.limit.value > 100) ==> r.Err?
    ensures r.Ok? <==>
      && CoerceInt("page", d.page, 1, None, 1).Ok?
      && CoerceInt("limit", d.limit, 1, Some(100), 10).Ok?
      && (d.status.None? || ParseStatus(d.status.value).Some?)
    ensures r.Ok? ==>
      && r.value.page == CoerceInt("page", d.page, 1, None, 1).value
      && r.value.limit == CoerceInt("limit", d.limit, 1, Some(100), 10).value
    ensures r.Ok? && d.page.Whole? ==> r.value.page == d.page.value
    ensures r.Ok? && d.limit.Whole? ==> r.value.limit == d.limit.value
  {
    var page := CoerceInt("page", d.page, 1, None, 1);
    var limit := CoerceInt("limit", d.limit, 1, Some(100), 10);
    var status: Result<Option<BlogStatus>, seq<Issue>> :=
      if d.status.None? then Ok(None)
      else match ParseStatus(d.status.value)
        case Some(s) => Ok(Some(s))
        case None => Err([Issue(["status"], InvalidEnum)]);
    if page.Ok? && limit.Ok? && status.Ok? then
      Ok(SearchBlogDto(d.q, d.tags, d.author, status.value, d.sort, page.value, limit.value))
    else
      Err((if status.Err? then status.error else [])
        + (if page.Err? then page.error else [])
        + (if limit.Err? then limit.error else []))
  }

  /** `CreateCommentSchema`: content of 1 to 1000 characters. */
  function ValidateComment(content: string): (r: seq<Issue>)
    ensures r == [] <==> 1 <= |content| <= 1000
  {
    LengthIssues("content", content, 1, Some(1000))
  }

  /** `RejectBlogSchema`: a rejection reason of 10 to 500 characters. */
  function ValidateReject(rejectionReason: string): (r: seq<Issue>)
    ensures r == [] <==> 10 <= |rejectionReason| <= 500
  {
    LengthIssues("rejectionReason", rejectionReason, 10, Some(500))
  }
}

=== FILE: blog_repository.dfy ===
/**
 * `BlogRepository.search`: the filter, sort and paging a search request
 * becomes, and the pagination meta of its answer.
 */
module BlogRepository {
  import opened Wrappers
  import opened Constants
  import opened Text
  import opened BlogDto

  /** The filter document handed to the database. */
  datatype Query = Query(
    status: BlogStatus,
    textSearch: Option<string>,
    tagsIn: Option<seq<string>>,
    author: Option<string>)

  /** A one-field sort: `dir` is 1 (ascending) or -1 (descending). */
  datatype SortSpec = SortSpec(field: string, dir: int)

  /** What the search asks of the database. */
  datatype SearchPlan = SearchPlan(query: Query, sort: SortSpec, skip: int, limit: int)

  datatype Meta = Meta(page: int, limit: int, total: nat, totalPages: int)

  /** A JavaScript string is truthy when it is present and not empty. */
  predicate Truthy(s: Option<string>) {
    s.Some? && s.value != ""
  }

  /** The status filter: the requested status, or published when none is given. */
  function StatusFilter(status: Option<BlogStatus>): (r: BlogStatus)
    ensures status.Some? ==> r == status.value
    ensures status.None? ==> r == Published
  {
    if status.Some? then status.value else Published
  }

  /** `sort.split(':')`: the part before the first ':' names the field; only an exact "desc" after it sorts descending. */
  function ParseSort(sort: Option<string>): (r: SortSpec)
    ensures !Truthy(sort) ==> r == SortSpec("publishedAt", -1)
    ensures r.dir == 1 || r.dir == -1
    ensures Truthy(sort) ==> ':' !in r.field
  {
    if !Truthy(sort) then SortSpec("publishedAt", -1)
    else
      var parts := Split(sort.value, ':');
      SortSpec(parts[0], if |parts| > 1 && parts[1] == "desc" then -1 else 1)
  }

  /** The sort string `field:dir` is read back as it was written. */
  lemma ParseSortRoundTrip(field: string, desc: bool)
    requires field != "" && ':' !in field
    ensures ParseSort(Some(field + ":" + if desc then "desc" else "asc")) == SortSpec(field, if desc then -1 else 1)
  {
    var dir := if desc then "desc" else "asc";
    SplitAfter(field, dir, ':');
    SplitNoSep(dir, ':');
    assert field + ":" + dir == field + [':'] + dir;
  }

  /** `Math.ceil(total / limit)` for a positive limit. */
  function TotalPages(total: nat, limit: int): (p: int)
    requires limit >= 1
    ensures p >= 0
    ensures p * limit >= total && (p - 1) * limit < total
  {
    (total + limit - 1) / limit
  }

  /** `(page - 1) * limit` */
  function Skip(page: int, limit: int): int {
    (page - 1) * limit
  }

  /** `search(dto)`: the database request. */
  function Search(d: SearchBlogDto): (r: SearchPlan)
    ensures r.query.status == StatusFilter(d.status)
    ensures r.query.textSearch.Some? <==> Truthy(d.q)
    ensures r.query.textSearch.Some? ==> r.query.textSearch == d.q
    ensures r.query.tagsIn.Some? <==> Truthy(d.tags)
    ensures r.query.tagsIn.Some? ==> Join(r.query.tagsIn.value, ',') == d.tags.value
    ensures r.query.tagsIn.Some? ==> forall i :: 0 <= i < |r.query.tagsIn.value| ==> ',' !in r.query.tagsIn.value[i]
    ensures r.query.author.Some? <==> Truthy(d.author)
    ensures r.query.author.Some? ==> r.query.author == d.author
    ensures r.sort == ParseSort(d.sort)
    ensures r.skip == (d.page - 1) * d.limit && r.limit == d.limit
  {
    var tags := if Truthy(d.tags) then Some(Split(d.tags.value, ',')) else None;
    JoinSplit(d.tags.GetOr(""), ',');
    SearchPlan(
      Query(StatusFilter(d.status), if Truthy(d.q) then d.q else None, tags, if Truthy(d.author) then d.author else None),
      ParseSort(d.sort),
      Skip(d.page, d.limit),
      d.limit)
  }

  /** The meta of a search answer: it echoes page and limit, and counts the pages. */
  function SearchMeta(d: SearchBlogDto, total: nat): (m: Meta)
    requires d.limit >= 1
    ensures m.page == d.page && m.limit == d.limit && m.total == total
    ensures m.totalPages * d.limit >= total && (m.totalPages - 1) * d.limit < total
  {
    Meta(d.page, d.limit, total, TotalPages(total, d.limit))
  }

  /** Pages are enough and not too many: the last page starts before the total. */
  lemma LastPageHoldsTheLastResult(d: SearchBlogDto, total: nat)
    requires d.limit >= 1 && total > 0
    ensures var m := SearchMeta(d, total);
      Skip(m.totalPages, d.limit) < total <= Skip(m.totalPages, d.limit) + d.limit
  {
  }
}

=== FILE: blog_service.dfy ===
/**
 * `BlogService`: the blog lifecycle (draft, pending, published or rejected),
 * the visibility rule for reading a blog, likes, views and comments queued
 * through the outbox, the trending read joined with the published blogs, and
 * the published-only search.
 *
 * The blog collection is a map from blog id to document; the outbox is the
 * `OutboxService` object the service was built with.
 */
module Blogs {
  import opened Wrappers
  import opened Constants
  import opened Events
  import opened ApiErrors
  import opened Text
  import opened BlogDto
  import opened BlogRepository
  import OutboxModel
  import Outbox
  import Trending

  /**
   * An ObjectId: its 24-digit hex value, and which in-memory object holds
   * it. Two documents loaded separately hold two different objects even when
   * the value is the same.
   */
  datatype ObjectId = ObjectId(hex: string, instance: nat)

  /** How two ObjectIds are compared: JavaScript `===`/`!==` on objects, or by value. */
  datatype IdComparison = ByReference | ByValue

  predicate SameId(a: ObjectId, b: ObjectId, cmp: IdComparison)
    ensures a == b ==> SameId(a, b, cmp)
    ensures SameId(a, b, cmp) ==> a.hex == b.hex
    ensures cmp == ByReference && a.instance != b.instance ==> !SameId(a, b, cmp)
  {
    match cmp
    case ByReference => a == b
    case ByValue => a.hex == b.hex
  }

  /** The fields of a blog document the service reads or writes. */
  datatype Blog = Blog(
    title: string,
    content: string,
    tags: seq<string>,
    author: ObjectId,
    status: BlogStatus,
    likeCount: int,
    viewCount: int,
    commentCount: int,
    publishedAt: Option<int>,
    rejectionReason: Option<string>)

  /** The blog collection, by id. */
  type BlogStore = map<string, Blog>

  datatype BlogComment = BlogComment(id: string, content: string, author: ObjectId, blog: string)

  /** The authenticated caller, as the auth middleware attaches it. */
  datatype Viewer = Viewer(id: ObjectId, roles: seq<UserRole>)

  /** The fields an update may carry; an absent field is left as it is. */
  datatype BlogUpdate = BlogUpdate(title: Option<string>, content: Option<string>, tags: Option<seq<string>>)

  const BLOG_NOT_FOUND: ApiError := ApiError(NOT_FOUND, "Blog not found")
  const PUBLISHED_NOT_FOUND: ApiError := ApiError(NOT_FOUND, "Published blog not found")
  const NOT_PENDING: ApiError := ApiError(BAD_REQUEST, "Blog is not pending approval")
  /** What any other thrown error becomes at the error middleware. */
  const UNEXPECTED: ApiError := ApiError(INTERNAL_SERVER_ERROR, "An unexpected error occurred")

  /** The store after a lifecycle call: the saved blog on success, nothing changed on an error. */
  function Saved(blogs: BlogStore, blogId: string, r: Result<Blog, ApiError>): (s: BlogStore)
    ensures r.Err? ==> s == blogs
    ensures r.Ok? ==> s.Keys == blogs.Keys + {blogId} && s[blogId] == r.value
    ensures forall k :: k in blogs && k != blogId ==> k in s && s[k] == blogs[k]
  {
    if r.Ok? then blogs[blogId := r.value] else blogs
  }

  // ---------------------------------------------------------------------
  // The lifecycle

  /** The status moves the lifecycle allows: draft to pending, pending to published or rejected. */
  predicate Transition(from: BlogStatus, to: BlogStatus) {
    || (from == Draft && to == Pending)
    || (from == Pending && (to == Published || to == Rejected))
  }

  /**
   * `submitBlog`: the blog must exist, belong to the caller and be a
   * draft, checked in that order; it then becomes pending.
   */
  function Submit(blogs: BlogStore, blogId: string, authorId: ObjectId, cmp: IdComparison): (r: Result<Blog, ApiError>)
    ensures blogId !in blogs ==> r == Err(BLOG_NOT_FOUND)
    ensures blogId in blogs && !SameId(blogs[blogId].author, authorId, cmp) ==>
      r == Err(ApiError(FORBIDDEN, "You are not the author of this blog"))
    ensures r.Ok? <==> blogId in blogs && SameId(blogs[blogId].author, authorId, cmp) && blogs[blogId].status == Draft
    ensures r.Ok? ==> r.value == blogs[blogId].(status := Pending)
  {
    if blogId !in blogs then Err(BLOG_NOT_FOUND)
    else if !SameId(blogs[blogId].author, authorId, cmp) then Err(ApiError(FORBIDDEN, "You are not the author of this blog"))
    else if blogs[blogId].status != Draft then Err(ApiError(BAD_REQUEST, "Only draft blogs can be submitted for approval"))
    else Ok(blogs[blogId].(status := Pending))
  }

  /** Each string trimmed, as an array field declared with `trim: true` stores it. */
  function TrimEach(parts: seq<string>): (r: seq<string>)
    ensures |r| == |parts|
    ensures forall i :: 0 <= i < |r| ==> r[i] == Trim(parts[i])
  {
    if parts == [] then [] else [Trim(parts[0])] + TrimEach(parts[1..])
  }

  /**
   * The document `updateBlog` saves: `Object.assign` of the present fields,
   * with the schema's `trim` setters applied to the title and the tags, and
   * non-empty content rendered through `sanitize`.
   */
  function Edited(b: Blog, upd: BlogUpdate, sanitize: string -> string): Blog {
    var content := if upd.content.Some? && upd.content.value != "" then sanitize(upd.content.value) else upd.content.GetOr(b.content);
    b.(title := if upd.title.Some? then Trim(upd.title.value) else b.title,
       content := content,
       tags := if upd.tags.Some? then TrimEach(upd.tags.value) else b.tags)
  }

  /** The schema's `required` title and content: `save` throws on an empty one. */
  predicate Storable(b: Blog) {
    b.title != "" && b.content != ""
  }

  /**
   * `updateBlog`: only the author may edit, and only a draft or a pending
   * blog. Present fields replace the stored ones, the title and tags
   * trimmed; non-empty content is stored through `sanitize` (markdown
   * rendering and HTML sanitising). A title or content left empty fails
   * the schema's `required` check, and the thrown validation error becomes
   * a 500 at the error middleware.
   */
  function Update(blogs: BlogStore, blogId: string, upd: BlogUpdate, authorId: ObjectId, cmp: IdComparison,
                  sanitize: string -> string): (r: Result<Blog, ApiError>)
    ensures blogId !in blogs ==> r == Err(BLOG_NOT_FOUND)
    ensures blogId in blogs && !SameId(blogs[blogId].author, authorId, cmp) ==>
      r == Err(ApiError(FORBIDDEN, "You are not authorized to update this blog"))
    ensures r.Ok? <==> (blogId in blogs && SameId(blogs[blogId].author, authorId, cmp)
                        && blogs[blogId].status in {Draft, Pending}
                        && Storable(Edited(blogs[blogId], upd, sanitize)))
    ensures (blogId in blogs && SameId(blogs[blogId].author, authorId, cmp) && blogs[blogId].status in {Draft, Pending}
             && upd.title.Some? && Trim(upd.title.value) == "") ==> r == Err(UNEXPECTED)
    ensures r.Ok? ==> var b := blogs[blogId];
      && r.value.title == (if upd.title.Some? then Trim(upd.title.value) else b.title)
      && r.value.tags == (if upd.tags.Some? then TrimEach(upd.tags.value) else b.tags)
      && (upd.content.None? ==> r.value.content == b.content)
      && (upd.content.Some? && upd.content.value != "" ==> r.value.content == sanitize(upd.content.value))
      && r.value.title != "" && r.value.content != ""
      && r.value.(title := b.title, content := b.content, tags := b.tags) == b
  {
    if blogId !in blogs then Err(BLOG_NOT_FOUND)
    else if !SameId(blogs[blogId].author, authorId, cmp) then Err(ApiError(FORBIDDEN, "You are not authorized to update this blog"))
    else if blogs[blogId].status !in {Draft, Pending} then Err(ApiError(BAD_REQUEST, "Only drafts or pending blogs can be edited"))
    else
      var edited := Edited(blogs[blogId], upd, sanitize);
      if Storable(edited) then Ok(edited) else Err(UNEXPECTED)
  }

  /**
   * A title of white space only passes the five-character check of the
   * request schema, but is empty once trimmed: the save throws.
   */
  lemma BlankTitleFailsSave(blogs: BlogStore, blogId: string, title: string, caller: ObjectId, sanitize: string -> string)
    requires blogId in blogs && blogs[blogId].author.hex == caller.hex && blogs[blogId].status in {Draft, Pending}
    requires AllSpace(title)
    ensures Update(blogs, blogId, BlogUpdate(Some(title), None, None), caller, ByValue, sanitize) == Err(UNEXPECTED)
  {
    TrimOfSpace(title);
  }

  /** `approveBlog` at time `now`: a pending blog becomes published and is stamped. */
  function Approve(blogs: BlogStore, blogId: string, now: int): (r: Result<Blog, ApiError>)
    ensures blogId !in blogs ==> r == Err(BLOG_NOT_FOUND)
    ensures blogId in blogs && blogs[blogId].status != Pending ==> r == Err(NOT_PENDING)
    ensures r.Ok? <==> blogId in blogs && blogs[blogId].status == Pending
    ensures r.Ok? ==> r.value == blogs[blogId].(status := Published, publishedAt := Some(now))
  {
    if blogId !in blogs then Err(BLOG_NOT_FOUND)
    else if blogs[blogId].status != Pending then Err(NOT_PENDING)
    else Ok(blogs[blogId].(status := Published, publishedAt := Some(now)))
  }

  /** `rejectBlog`: a pending blog becomes rejected and keeps the reason. */
  function Reject(blogs: BlogStore, blogId: string, reason: string): (r: Result<Blog, ApiError>)
    ensures blogId !in blogs ==> r == Err(BLOG_NOT_FOUND)
    ensures blogId in blogs && blogs[blogId].status != Pending ==> r == Err(NOT_PENDING)
    ensures r.Ok? <==> blogId in blogs && blogs[blogId].status == Pending
    ensures r.Ok? ==> r.value == blogs[blogId].(status := Rejected, rejectionReason := Some(reason))
  {
    if blogId !in blogs then Err(BLOG_NOT_FOUND)
    else if blogs[blogId].status != Pending then Err(NOT_PENDING)
    else Ok(blogs[blogId].(status := Rejected, rejectionReason := Some(reason)))
  }

  /**
   * Every successful lifecycle call either keeps the status (an edit) or
   * makes one allowed move, and only approval publishes.
   */
  lemma LifecycleMovesAlongTransitions(blogs: BlogStore, blogId: string, upd: BlogUpdate, caller: ObjectId,
                                       sanitize: string -> string, now: int, reason: string)
    requires blogId in blogs
    ensures var s := blogs[blogId].status;
      && (Submit(blogs, blogId, caller, ByValue).Ok? ==> Transition(s, Submit(blogs, blogId, caller, ByValue).value.status))
      && (Approve(blogs, blogId, now).Ok? ==> Transition(s, Approve(blogs, blogId, now).value.status))
      && (Reject(blogs, blogId, reason).Ok? ==> Transition(s, Reject(blogs, blogId, reason).value.status))
      && (Update(blogs, blogId, upd, caller, ByValue, sanitize).Ok? ==>
            Update(blogs, blogId, upd, caller, ByValue, sanitize).value.status == s && s != Published)
  {
  }

  /** A published or rejected blog is final: no lifecycle call succeeds on it. */
  lemma PublishedAndRejectedAreFinal(blogs: BlogStore, blogId: string, upd: BlogUpdate, caller: ObjectId,
                                     sanitize: string -> string, now: int, reason: string)
    requires blogId in blogs && blogs[blogId].status in {Published, Rejected}
    ensures Submit(blogs, blogId, caller, ByValue).Err?
    ensures Update(blogs, blogId, upd, caller, ByValue, sanitize).Err?
    ensures Approve(blogs, blogId, now).Err? && Reject(blogs, blogId, reason).Err?
  {
  }

  /** The author takes a draft through submission and approval to published. */
  lemma AuthorDraftReachesPublished(blogs: BlogStore, blogId: string, caller: ObjectId, now: int)
    requires blogId in blogs && blogs[blogId].status == Draft && blogs[blogId].author.hex == caller.hex
    ensures var s := Submit(blogs, blogId, caller, ByValue);
      s.Ok? && Approve(Saved(blogs, blogId, s), blogId, now).Ok?
      && Approve(Saved(blogs, blogId, s), blogId, now).value.status == Published
  {
  }

  /**
   * As written, ownership is checked with `!==` between the ObjectId stored
   * in the blog and the caller's ObjectId: two different objects, so even
   * the author of a draft is refused.
   */
  lemma AuthorLockedOutAsWritten(blogs: BlogStore, blogId: string, caller: ObjectId)
    requires blogId in blogs && blogs[blogId].status == Draft
    requires blogs[blogId].author.hex == caller.hex && blogs[blogId].author.instance != caller.instance
    ensures Submit(blogs, blogId, caller, ByReference) == Err(ApiError(FORBIDDEN, "You are not the author of this blog"))
    ensures Submit(blogs, blogId, caller, ByValue).Ok?
  {
  }

  // ---------------------------------------------------------------------
  // Reading a blog

  /** `getBlogById`'s rule: a published blog is public; otherwise only its author or an admin may read it. */
  predicate MayView(b: Blog, viewer: Option<Viewer>, cmp: IdComparison)
    ensures b.status == Published ==> MayView(b, viewer, cmp)
    ensures viewer.None? ==> (MayView(b, viewer, cmp) <==> b.status == Published)
    ensures viewer.Some? && Admin in viewer.value.roles ==> MayView(b, viewer, cmp)
    ensures viewer.Some? && Admin !in viewer.value.roles && b.status != Published ==>
      (MayView(b, viewer, cmp) <==> SameId(viewer.value.id, b.author, cmp))
  {
    || b.status == Published
    || (viewer.Some? && (SameId(viewer.value.id, b.author, cmp) || Admin in viewer.value.roles))
  }

  /** `getBlogById`'s answer. */
  function ReadBlog(blogs: BlogStore, blogId: string, viewer: Option<Viewer>, cmp: IdComparison): (r: Result<Blog, ApiError>)
    ensures blogId !in blogs ==> r == Err(BLOG_NOT_FOUND)
    ensures blogId in blogs && !MayView(blogs[blogId], viewer, cmp) ==>
      r == Err(ApiError(FORBIDDEN, "You do not have permission to view this blog"))
    ensures r.Ok? <==> blogId in blogs && MayView(blogs[blogId], viewer, cmp)
    ensures r.Ok? ==> r.value == blogs[blogId]
  {
    if blogId !in blogs then Err(BLOG_NOT_FOUND)
    else if !MayView(blogs[blogId], viewer, cmp) then Err(ApiError(FORBIDDEN, "You do not have permission to view this blog"))
    else Ok(blogs[blogId])
  }

  /** Anonymous readers see exactly the published blogs; admins see every blog. */
  lemma VisibilityByRole(blogs: BlogStore, blogId: string, admin: Viewer)
    requires blogId in blogs && Admin in admin.roles
    ensures ReadBlog(blogs, blogId, None, ByValue).Ok? <==> blogs[blogId].status == Published
    ensures ReadBlog(blogs, blogId, Some(admin), ByValue).Ok?
  {
  }

  /** As written (`===` between ObjectIds) the author cannot read their own draft. */
  lemma AuthorCannotReadDraftAsWritten(blogs: BlogStore, blogId: string, author: Viewer)
    requires blogId in blogs && blogs[blogId].status == Draft && User in author.roles && Admin !in author.roles
    requires blogs[blogId].author.hex == author.id.hex && blogs[blogId].author.instance != author.id.instance
    ensures ReadBlog(blogs, blogId, Some(author), ByReference).Err?
    ensures ReadBlog(blogs, blogId, Some(author), ByValue).Ok?
  {
  }

  /** The user id a VIEW event carries: the caller's id, or none for an anonymous reader. */
  function ViewerId(viewer: Option<Viewer>): (u: Option<string>)
    ensures u.Some? <==> viewer.Some?
  {
    if viewer.Some? then Some(viewer.value.id.hex) else None
  }

  /** The outbox record a successful read queues: a VIEW event keyed by the blog id. */
  function ViewRecord(blogId: string, viewer: Option<Viewer>, now: int): (r: OutboxModel.OutboxRecord)
    ensures blogId != "" ==> OutboxModel.NewRecord(INTERACTIONS_TOPIC, blogId, r.payload, now) == Some(r)
    ensures r.key == blogId && r.payload.kind == View && r.payload.blogId == blogId
    ensures r.payload.userId.Some? <==> viewer.Some?
  {
    OutboxModel.OutboxRecord(INTERACTIONS_TOPIC, blogId, InteractionEvent(View, ViewerId(viewer), blogId, now),
      OutboxModel.Pending, 0, now, None)
  }

  // ---------------------------------------------------------------------
  // Likes

  /** `${userId}:${blogId}`: the message key of a LIKE or UNLIKE. */
  function VoteKey(userId: ObjectId, blogId: string): (k: string)
    ensures |k| == |userId.hex| + 1 + |blogId| && k != ""
  {
    userId.hex + ":" + blogId
  }

  /**
   * The key names the (user, blog) pair: for ids without ':' two votes
   * share a key exactly when they are by the same user on the same blog.
   */
  lemma VoteKeyNamesPair(u1: ObjectId, b1: string, u2: ObjectId, b2: string)
    requires ':' !in u1.hex && ':' !in u2.hex
    ensures VoteKey(u1, b1) == VoteKey(u2, b2) <==> u1.hex == u2.hex && b1 == b2
  {
    if VoteKey(u1, b1) == VoteKey(u2, b2) {
      assert VoteKey(u1, b1) == u1.hex + [':'] + b1;
      assert VoteKey(u2, b2) == u2.hex + [':'] + b2;
      SplitAfter(u1.hex, b1, ':');
      SplitAfter(u2.hex, b2, ':');
      var s1, s2 := Split(VoteKey(u1, b1), ':'), Split(VoteKey(u2, b2), ':');
      assert s1[0] == u1.hex && s2[0] == u2.hex;
      assert s1[1..] == Split(b1, ':') && s2[1..] == Split(b2, ':');
      JoinSplit(b1, ':');
      JoinSplit(b2, ':');
    }
  }

  /** The outbox record a vote queues. */
  function VoteRecord(kind: InteractionType, blogId: string, userId: ObjectId, now: int): (r: OutboxModel.OutboxRecord)
    ensures OutboxModel.NewRecord(INTERACTIONS_TOPIC, VoteKey(userId, blogId), r.payload, now) == Some(r)
    ensures r.payload.kind == kind && r.payload.userId == Some(userId.hex) && r.payload.blogId == blogId
  {
    OutboxModel.OutboxRecord(INTERACTIONS_TOPIC, VoteKey(userId, blogId),
      InteractionEvent(kind, Some(userId.hex), blogId, now), OutboxModel.Pending, 0, now, None)
  }

  // ---------------------------------------------------------------------
  // Comments

  /** The writes of `addComment`'s transaction, in order; `Commit` is `commitTransaction`. */
  datatype TxStep = SaveComment | SaveBlog | SaveEvent | Commit

  /**
   * `addComment`'s answer: the blog must be published; a fault at any step
   * (or an event that fails validation) aborts with the thrown error.
   */
  function CommentOutcome(blogs: BlogStore, blogId: string, authorId: ObjectId, content: string, commentId: string,
                          fault: Option<TxStep>): (r: Result<BlogComment, ApiError>)
    ensures (blogId !in blogs || blogs[blogId].status != Published) ==> r == Err(PUBLISHED_NOT_FOUND)
    ensures r.Ok? <==> blogId in blogs && blogs[blogId].status == Published && fault.None? && commentId != ""
                       && Trim(content) != ""
    ensures blogId in blogs && blogs[blogId].status == Published && Trim(content) == "" ==> r == Err(UNEXPECTED)
    ensures r.Ok? ==> r.value == BlogComment(commentId, Trim(content), authorId, blogId) && r.value.content != ""
  {
    if blogId !in blogs || blogs[blogId].status != Published then Err(PUBLISHED_NOT_FOUND)
    else if Trim(content) == "" || fault.Some? || commentId == "" then Err(UNEXPECTED)
    else Ok(BlogComment(commentId, Trim(content), authorId, blogId))
  }

  /**
   * A comment of white space only passes the one-character check of the
   * request schema, but the comment schema trims it to nothing and its
   * `required` check throws: the transaction aborts.
   */
  lemma BlankCommentFailsSave(blogs: BlogStore, blogId: string, authorId: ObjectId, content: string, commentId: string)
    requires blogId in blogs && blogs[blogId].status == Published
    requires AllSpace(content)
    ensures CommentOutcome(blogs, blogId, authorId, content, commentId, None) == Err(UNEXPECTED)
  {
    TrimOfSpace(content);
  }

  /** The outbox record a comment queues: a COMMENT event keyed by the comment id. */
  function CommentRecord(c: BlogComment, now: int): (r: OutboxModel.OutboxRecord)
    ensures c.id != "" ==> OutboxModel.NewRecord(INTERACTIONS_TOPIC, c.id, r.payload, now) == Some(r)
    ensures r.key == c.id && r.payload.kind == Comment && r.payload.userId == Some(c.author.hex) && r.payload.blogId == c.blog
  {
    OutboxModel.OutboxRecord(INTERACTIONS_TOPIC, c.id, InteractionEvent(Comment, Some(c.author.hex), c.blog, now),
      OutboxModel.Pending, 0, now, None)
  }

  // ---------------------------------------------------------------------
  // Trending

  /** The ids that have a published blog, in their original order. */
  function PublishedIds(ids: seq<string>, blogs: BlogStore): (r: seq<string>)
    ensures |r| <= |ids|
    ensures forall x :: x in r <==> x in ids && x in blogs && blogs[x].status == Published
  {
    if ids == [] then []
    else
      var rest := PublishedIds(ids[1..], blogs);
      assert forall x :: x in ids <==> x == ids[0] || x in ids[1..];
      if ids[0] in blogs && blogs[ids[0]].status == Published then [ids[0]] + rest else rest
  }

  /** Filtering keeps the order: the filter of a concatenation is the concatenation of the filters. */
  lemma {:induction false} PublishedIdsAppend(a: seq<string>, b: seq<string>, blogs: BlogStore)
    ensures PublishedIds(a + b, blogs) == PublishedIds(a, blogs) + PublishedIds(b, blogs)
  {
    if a == [] {
      assert a + b == b;
    } else {
      assert (a + b)[0] == a[0] && (a + b)[1..] == a[1..] + b;
      PublishedIdsAppend(a[1..], b, blogs);
    }
  }

  /** `trendingIds.map(id => blogMap.get(id)).filter(Boolean)`: the published blogs, in id order. */
  function JoinPublished(ids: seq<string>, blogs: BlogStore): (r: seq<Blog>)
    ensures |r| == |PublishedIds(ids, blogs)| <= |ids|
    ensures forall i :: 0 <= i < |r| ==> PublishedIds(ids, blogs)[i] in blogs && r[i] == blogs[PublishedIds(ids, blogs)[i]]
    ensures forall i :: 0 <= i < |r| ==> r[i].status == Published
  {
    var kept := PublishedIds(ids, blogs);
    seq(|kept|, i requires 0 <= i < |kept| => blogs[kept[i]])
  }

  const TRENDING_WINDOW_NAMES: seq<string> := ["24h", "7d"]

  /**
   * `getTrendingBlogs(window, limit)`: the window must be "24h" or "7d";
   * the answer is the published blogs among the window's top `limit` ids,
   * in ranking order.
   */
  ghost function TrendingBlogs(sets: map<string, Trending.SortedSet>, blogs: BlogStore, window: string, limit: int)
    : (r: Result<seq<Blog>, ApiError>)
    ensures r.Err? <==> window !in TRENDING_WINDOW_NAMES
    ensures r.Err? ==> r.error == ApiError(BAD_REQUEST, "Invalid trending window specified.")
    ensures r.Ok? ==> |r.value| <= if limit < 0 then 0 else limit
    ensures r.Ok? ==> forall i :: 0 <= i < |r.value| ==> r.value[i].status == Published
    ensures r.Ok? ==> r.value == JoinPublished(Trending.TopN(Trending.SetAt(sets, Trending.RedisKey(window)), limit), blogs)
  {
    if window !in TRENDING_WINDOW_NAMES then Err(ApiError(BAD_REQUEST, "Invalid trending window specified."))
    else Ok(JoinPublished(Trending.TopN(Trending.SetAt(sets, Trending.RedisKey(window)), limit), blogs))
  }

  /** When every ranked id has a published blog, the answer is those blogs in ranking order. */
  lemma {:induction false} AllPublishedKeepsRanking(ids: seq<string>, blogs: BlogStore)
    requires forall i :: 0 <= i < |ids| ==> ids[i] in blogs && blogs[ids[i]].status == Published
    ensures PublishedIds(ids, blogs) == ids
  {
    if ids != [] {
      AllPublishedKeepsRanking(ids[1..], blogs);
    }
  }

  /**
   * When every one of the window's top `limit` ids has a published blog,
   * the answer is exactly those blogs, highest score first.
   */
  lemma TrendingBlogsFollowRanking(sets: map<string, Trending.SortedSet>, blogs: BlogStore, window: string, limit: int)
    requires window in TRENDING_WINDOW_NAMES
    requires var ids := Trending.TopN(Trending.SetAt(sets, Trending.RedisKey(window)), limit);
      forall i :: 0 <= i < |ids| ==> ids[i] in blogs && blogs[ids[i]].status == Published
    ensures var ids := Trending.TopN(Trending.SetAt(sets, Trending.RedisKey(window)), limit);
      var r := TrendingBlogs(sets, blogs, window, limit);
      && r.Ok? && |r.value| == |ids|
      && (forall i :: 0 <= i < |ids| ==> r.value[i] == blogs[ids[i]])
      && (limit >= 0 ==> |r.value| == if limit < |Trending.SetAt(sets, Trending.RedisKey(window))| then limit else |Trending.SetAt(sets, Trending.RedisKey(window))|)
  {
    AllPublishedKeepsRanking(Trending.TopN(Trending.SetAt(sets, Trending.RedisKey(window)), limit), blogs);
  }

  // ---------------------------------------------------------------------
  // Search

  /**
   * `searchBlogs`: the repository's request with the status filter fixed to
   * published, whatever status the query carried.
   */
  function SearchPublished(d: SearchBlogDto): (r: SearchPlan)
    ensures r.query.status == Published
    ensures r == Search(d).(query := Search(d).query.(status := Published))
  {
    Search(d.(status := None))
  }

  // ---------------------------------------------------------------------
  // The service

  class BlogService {
    var blogs: BlogStore
    var comments: seq<BlogComment>
    const outbox: Outbox.OutboxService

    constructor (blogs: BlogStore, outbox: Outbox.OutboxService)
      ensures this.blogs == blogs && comments == [] && this.outbox == outbox
    {
      this.blogs := blogs;
      comments := [];
      this.outbox := outbox;
    }

    method SubmitBlog(blogId: string, authorId: ObjectId) returns (r: Result<Blog, ApiError>)
      modifies this
      ensures r == Submit(old(blogs), blogId, authorId, ByValue)
      ensures blogs == Saved(old(blogs), blogId, r) && comments == old(comments)
    {
      if blogId !in blogs {
        return Err(BLOG_NOT_FOUND);
      }
      var blog := blogs[blogId];
      if !SameId(blog.author, authorId, ByValue) {
        return Err(ApiError(FORBIDDEN, "You are not the author of this blog"));
      }
      if blog.status != Draft {
        return Err(ApiError(BAD_REQUEST, "Only draft blogs can be submitted for approval"));
      }
      blog := blog.(status := Pending);
      blogs := blogs[blogId := blog];
      r := Ok(blog);
    }

    method UpdateBlog(blogId: string, upd: BlogUpdate, authorId: ObjectId, sanitize: string -> string)
      returns (r: Result<Blog, ApiError>)
      modifies this
      ensures r == Update(old(blogs), blogId, upd, authorId, ByValue, sanitize)
      ensures blogs == Saved(old(blogs), blogId, r) && comments == old(comments)
    {
      if blogId !in blogs {
        return Err(BLOG_NOT_FOUND);
      }
      var blog := blogs[blogId];
      if !SameId(blog.author, authorId, ByValue) {
        return Err(ApiError(FORBIDDEN, "You are not authorized to update this blog"));
      }
      if blog.status != Draft && blog.status != Pending {
        return Err(ApiError(BAD_REQUEST, "Only drafts or pending blogs can be edited"));
      }
      var data := upd;
      if data.content.Some? && data.content.value != "" {
        data := data.(content := Some(sanitize(data.content.value)));
      }
      if data.title.Some? {
        blog := blog.(title := Trim(data.title.value));
      }
      if data.content.Some? {
        blog := blog.(content := data.content.value);
      }
      if data.tags.Some? {
        blog := blog.(tags := TrimEach(data.tags.value));
      }
      if blog.title == "" || blog.content == "" {
        return Err(UNEXPECTED);
      }
      blogs := blogs[blogId := blog];
      r := Ok(blog);
    }

    method ApproveBlog(blogId: string, now: int) returns (r: Result<Blog, ApiError>)
      modifies this
      ensures r == Approve(old(blogs), blogId, now)
      ensures blogs == Saved(old(blogs), blogId, r) && comments == old(comments)
    {
      if blogId !in blogs {
        return Err(BLOG_NOT_FOUND);
      }
      var blog := blogs[blogId];
      if blog.status != Pending {
        return Err(NOT_PENDING);
      }
      blog := blog.(status := Published, publishedAt := Some(now));
      blogs := blogs[blogId := blog];
      r := Ok(blog);
    }

    method RejectBlog(blogId: string, reason: string) returns (r: Result<Blog, ApiError>)
      modifies this
      ensures r == Reject(old(blogs), blogId, reason)
      ensures blogs == Saved(old(blogs), blogId, r) && comments == old(comments)
    {
      if blogId !in blogs {
        return Err(BLOG_NOT_FOUND);
      }
      var blog := blogs[blogId];
      if blog.status != Pending {
        return Err(NOT_PENDING);
      }
      blog := blog.(status := Rejected, rejectionReason := Some(reason));
      blogs := blogs[blogId := blog];
      r := Ok(blog);
    }

    /**
     * `getBlogById` at time `now`: a readable blog queues exactly one VIEW
     * event keyed by its id; a refused read queues nothing.
     */
    method GetBlogById(blogId: string, viewer: Option<Viewer>, now: int) returns (r: Result<Blog, ApiError>)
      modifies outbox
      ensures outbox.sent == old(outbox.sent)
      ensures var v := ReadBlog(blogs, blogId, viewer, ByValue);
        if v.Ok? && blogId != "" then
          r == v && outbox.records == old(outbox.records) + [ViewRecord(blogId, viewer, now)]
        else
          r == (if v.Err? then v else Err(UNEXPECTED)) && outbox.records == old(outbox.records)
    {
      if blogId !in blogs {
        return Err(BLOG_NOT_FOUND);
      }
      var blog := blogs[blogId];
      var isAuthor := viewer.Some? && SameId(viewer.value.id, blog.author, ByValue);
      var isAdmin := viewer.Some? && Admin in viewer.value.roles;
      if blog.status != Published && !isAuthor && !isAdmin {
        return Err(ApiError(FORBIDDEN, "You do not have permission to view this blog"));
      }
      var ok := outbox.CreateEvent(INTERACTIONS_TOPIC, blogId, InteractionEvent(View, ViewerId(viewer), blogId, now), now);
      if !ok {
        return Err(UNEXPECTED);
      }
      r := Ok(blog);
    }

    /** `likeBlog`: a published blog queues one LIKE keyed `userId:blogId`. */
    method LikeBlog(blogId: string, userId: ObjectId, now: int) returns (r: Result<(), ApiError>)
      modifies outbox
      ensures outbox.sent == old(outbox.sent)
      ensures r.Ok? <==> blogId in blogs && blogs[blogId].status == Published
      ensures r.Err? ==> r.error == PUBLISHED_NOT_FOUND && outbox.records == old(outbox.records)
      ensures r.Ok? ==> outbox.records == old(outbox.records) + [VoteRecord(Like, blogId, userId, now)]
    {
      r := QueueVote(Like, blogId, userId, now);
    }

    /** `unlikeBlog`: a published blog queues one UNLIKE keyed `userId:blogId`. */
    method UnlikeBlog(blogId: string, userId: ObjectId, now: int) returns (r: Result<(), ApiError>)
      modifies outbox
      ensures outbox.sent == old(outbox.sent)
      ensures r.Ok? <==> blogId in blogs && blogs[blogId].status == Published
      ensures r.Err? ==> r.error == PUBLISHED_NOT_FOUND && outbox.records == old(outbox.records)
      ensures r.Ok? ==> outbox.records == old(outbox.records) + [VoteRecord(Unlike, blogId, userId, now)]
    {
      r := QueueVote(Unlike, blogId, userId, now);
    }

    method QueueVote(kind: InteractionType, blogId: string, userId: ObjectId, now: int) returns (r: Result<(), ApiError>)
      modifies outbox
      ensures outbox.sent == old(outbox.sent)
      ensures r.Ok? <==> blogId in blogs && blogs[blogId].status == Published
      ensures r.Err? ==> r.error == PUBLISHED_NOT_FOUND && outbox.records == old(outbox.records)
      ensures r.Ok? ==> outbox.records == old(outbox.records) + [VoteRecord(kind, blogId, userId, now)]
    {
      if blogId !in blogs || blogs[blogId].status != Published {
        return Err(PUBLISHED_NOT_FOUND);
      }
      var ok := outbox.CreateEvent(INTERACTIONS_TOPIC, VoteKey(userId, blogId),
        InteractionEvent(kind, Some(userId.hex), blogId, now), now);
      r := Ok(());
    }

    /**
     * `addComment` at time `now`, with the new comment's id `commentId`;
     * `fault` names the step of the transaction that throws, if any. Either
     * the comment, the raised `commentCount` and the COMMENT event are all
     * stored, or none of them is.
     */
    method AddComment(blogId: string, authorId: ObjectId, content: string, commentId: string, now: int,
                      fault: Option<TxStep>) returns (r: Result<BlogComment, ApiError>)
      modifies this, outbox
      ensures r == CommentOutcome(old(blogs), blogId, authorId, content, commentId, fault)
      ensures outbox.sent == old(outbox.sent)
      ensures r.Ok? ==>
        && comments == old(comments) + [r.value]
        && blogs == old(blogs)[blogId := old(blogs)[blogId].(commentCount := old(blogs)[blogId].commentCount + 1)]
        && outbox.records == old(outbox.records) + [CommentRecord(r.value, now)]
      ensures r.Err? ==> comments == old(comments) && blogs == old(blogs) && outbox.records == old(outbox.records)
    {
      if blogId !in blogs || blogs[blogId].status != Published {
        return Err(PUBLISHED_NOT_FOUND);
      }
      var blogs0, comments0, records0 := blogs, comments, outbox.records;
      var blog := blogs[blogId];
      var comment := BlogComment(commentId, Trim(content), authorId, blogId);
      if fault == Some(SaveComment) || comment.content == "" {
        return Err(UNEXPECTED);
      }
      comments := comments + [comment];
      if fault == Some(SaveBlog) {
        Rollback(blogs0, comments0, records0);
        return Err(UNEXPECTED);
      }
      blogs := blogs[blogId := blog.(commentCount := blog.commentCount + 1)];
      if fault == Some(SaveEvent) {
        Rollback(blogs0, comments0, records0);
        return Err(UNEXPECTED);
      }
      var ok := outbox.CreateEvent(INTERACTIONS_TOPIC, commentId,
        InteractionEvent(Comment, Some(authorId.hex), blogId, now), now);
      if !ok || fault == Some(Commit) {
        Rollback(blogs0, comments0, records0);
        return Err(UNEXPECTED);
      }
      assert fault.None? by {
        if fault.Some? {
          match fault.value
          case SaveComment =>
          case SaveBlog =>
          case SaveEvent =>
          case Commit =>
        }
      }
      r := Ok(comment);
    }

    /** `abortTransaction`: the session's writes are undone. */
    method Rollback(blogs0: BlogStore, comments0: seq<BlogComment>, records0: seq<OutboxModel.OutboxRecord>)
      modifies this, outbox
      ensures blogs == blogs0 && comments == comments0 && outbox.records == records0
      ensures outbox.sent == old(outbox.sent)
    {
      blogs, comments := blogs0, comments0;
      outbox.records := records0;
    }
  }
}

=== FILE: collections.dfy ===
/**
 * Facts about sequences and maps of any element type. Stated once here,
 * away from the model's own functions, they are cheap to prove and cheap
 * to use.
 */
module Collections {

  lemma AppendAssoc<T>(x: seq<T>, y: seq<T>, z: seq<T>)
    ensures x + (y + z) == (x + y) + z
  {
  }

  lemma AppendTail<T>(a: seq<T>, b: seq<T>)
    requires a != []
    ensures (a + b)[0] == a[0] && (a + b)[1..] == a[1..] + b
  {
  }

  /** The outer parts of `a + x + c` can be sliced back out. */
  lemma SpliceParts<T>(a: seq<T>, x: seq<T>, c: seq<T>)
    ensures (a + x + c)[..|a|] == a && (a + x + c)[|a| + |x|..] == c
  {
  }

  lemma SliceThree<T>(s: seq<T>, i: nat, j: nat)
    requires i <= j <= |s|
    ensures s[..i] + s[i..j] + s[j..] == s
  {
  }

  lemma UpdateTwice<K, V>(k: K, v: V, w: V)
    ensures map[k := v][k := w] == map[k := w]
  {
  }

  /** Writing the same two keys again overrides the first writes. */
  lemma UpdatePairTwice<K, V>(m: map<K, V>, k1: K, k2: K, a: V, b: V, a': V, b': V)
    requires k1 != k2
    ensures m[k1 := a][k2 := b][k1 := a'][k2 := b'] == m[k1 := a'][k2 := b']
  {
  }
}

=== FILE: constants.dfy ===
/**
 * The shared constant records: user roles, blog statuses, stream topics,
 * interaction types and trending windows.
 */
module Constants {
  import opened Wrappers

  /** USER_ROLES */
  datatype UserRole = User | Admin

  function RoleName(r: UserRole): string {
    match r
    case User => "user"
    case Admin => "admin"
  }

  /** BLOG_STATUS: a blog is in exactly one of these four states. */
  datatype BlogStatus = Draft | Pending | Published | Rejected

  function StatusName(s: BlogStatus): string {
    match s
    case Draft => "draft"
    case Pending => "pending"
    case Published => "published"
    case Rejected => "rejected"
  }

  /** Reads a status string; the four names are the only ones accepted. */
  function ParseStatus(s: string): (r: Option<BlogStatus>)
    ensures r.Some? <==> s in {"draft", "pending", "published", "rejected"}
    ensures r.Some? ==> StatusName(r.value) == s
  {
    if s == "draft" then Some(Draft)
    else if s == "pending" then Some(Pending)
    else if s == "published" then Some(Published)
    else if s == "rejected" then Some(Rejected)
    else None
  }

  /** Every status name parses back to its status. */
  lemma StatusNameRoundTrip(st: BlogStatus)
    ensures ParseStatus(StatusName(st)) == Some(st)
  {
    match st
    case Draft =>
    case Pending =>
    case Published =>
    case Rejected =>
  }

  /** KAFKA_TOPICS */
  const INTERACTIONS_TOPIC: string := "interactions.events"
  const NOTIFICATIONS_TOPIC: string := "notifications.events"
  const ANALYTICS_TOPIC: string := "analytics.events"
  const INTERACTIONS_DLQ_TOPIC: string := "interactions.events.dlq"

  /** The interactions topic and its dead-letter topic are different streams. */
  lemma InteractionTopicsDistinct()
    ensures INTERACTIONS_TOPIC != INTERACTIONS_DLQ_TOPIC
    ensures INTERACTIONS_DLQ_TOPIC[..|INTERACTIONS_TOPIC|] == INTERACTIONS_TOPIC
  {
    assert |INTERACTIONS_TOPIC| != |INTERACTIONS_DLQ_TOPIC|;
  }

  /** INTERACTION_TYPES: the type field of an interaction event. */
  datatype InteractionType = Like | Unlike | View | Comment

  function InteractionName(t: InteractionType): string {
    match t
    case Like => "LIKE"
    case Unlike => "UNLIKE"
    case View => "VIEW"
    case Comment => "COMMENT"
  }

  function ParseInteraction(s: string): (r: Option<InteractionType>)
    ensures r.Some? <==> s in {"LIKE", "UNLIKE", "VIEW", "COMMENT"}
    ensures r.Some? ==> InteractionName(r.value) == s
  {
    if s == "LIKE" then Some(Like)
    else if s == "UNLIKE" then Some(Unlike)
    else if s == "VIEW" then Some(View)
    else if s == "COMMENT" then Some(Comment)
    else None
  }

  /** TRENDING_WINDOWS: window name and its length in milliseconds, in declaration order. */
  const DAY_MS: int := 24 * 60 * 60 * 1000
  const TRENDING_WINDOWS: seq<(string, int)> := [("24h", DAY_MS), ("7d", 7 * DAY_MS)]

  /** The window lengths are one day and seven days. */
  lemma TrendingWindowLengths()
    ensures |TRENDING_WINDOWS| == 2
    ensures TRENDING_WINDOWS[0] == ("24h", 86400000)
    ensures TRENDING_WINDOWS[1] == ("7d", 604800000)
    ensures TRENDING_WINDOWS[1].1 == 7 * TRENDING_WINDOWS[0].1
  {
  }
}

=== FILE: error_middleware.dfy ===
/**
 * `errorMiddleware`: how a thrown error becomes the HTTP status and JSON
 * body of the answer.
 */
module ErrorMiddleware {
  import opened Wrappers
  import opened ApiErrors
  import opened Text

  /** One issue of a validation failure: where it is and what it says. */
  datatype ZodIssue = ZodIssue(path: seq<string>, message: string)

  /**
   * The errors the middleware tells apart. `keyPattern` lists the keys of a
   * duplicate-key error's `keyPattern` object in their order; `stack` is
   * the error's stack text, when it has one.
   */
  datatype Thrown =
    | ApiErr(error: ApiError, stack: Option<string>)
    | ZodErr(issues: seq<ZodIssue>, stack: Option<string>)
    | OtherErr(name: string, code: Option<int>, keyPattern: seq<string>, stack: Option<string>)

  /** One entry of `errors`: the issue's path joined with '.', and its message. */
  datatype FieldError = FieldError(path: string, message: string)

  /** The status code and the JSON body sent. */
  datatype ErrorResponse = ErrorResponse(
    statusCode: int,
    success: bool,
    message: string,
    errors: Option<seq<FieldError>>,
    stack: Option<string>)

  /** A duplicate-key error from the database driver. */
  predicate IsDuplicateKey(err: Thrown)
    ensures IsDuplicateKey(err) ==> !err.ApiErr? && !err.ZodErr?
    ensures IsDuplicateKey(err) ==> err.code == Some(11000)
  {
    err.OtherErr? && err.name == "MongoServerError" && err.code == Some(11000)
  }

  const DUPLICATE_PREFIX: string := "Duplicate field error: The "
  const DUPLICATE_SUFFIX: string := " is already taken."

  /**
   * The message of a duplicate-key error; `undefined` when `keyPattern` has
   * no key. The field can be read back from between the fixed text.
   */
  function DuplicateMessage(keyPattern: seq<string>): (m: string)
    ensures var field := if |keyPattern| > 0 then keyPattern[0] else "undefined";
      && |m| == |DUPLICATE_PREFIX| + |field| + |DUPLICATE_SUFFIX|
      && m[..|DUPLICATE_PREFIX|] == DUPLICATE_PREFIX
      && m[|DUPLICATE_PREFIX|..|m| - |DUPLICATE_SUFFIX|] == field
      && m[|m| - |DUPLICATE_SUFFIX|..] == DUPLICATE_SUFFIX
  {
    var field := if |keyPattern| > 0 then keyPattern[0] else "undefined";
    DUPLICATE_PREFIX + field + DUPLICATE_SUFFIX
  }

  /** `err.errors.map(e => ({ path: e.path.join('.'), message: e.message }))`. */
  function FieldErrors(issues: seq<ZodIssue>): (r: seq<FieldError>)
    ensures |r| == |issues|
    ensures forall i :: 0 <= i < |r| ==> r[i] == FieldError(Join(issues[i].path, '.'), issues[i].message)
  {
    seq(|issues|, i requires 0 <= i < |issues| => FieldError(Join(issues[i].path, '.'), issues[i].message))
  }

  function StackOf(err: Thrown): Option<string> {
    match err
    case ApiErr(_, s) => s
    case ZodErr(_, s) => s
    case OtherErr(_, _, _, s) => s
  }

  /** The answer to `err` under the environment `nodeEnv`. */
  function Respond(err: Thrown, nodeEnv: string): (r: ErrorResponse)
    ensures !r.success
    ensures err.ApiErr? ==> r.statusCode == err.error.statusCode && r.message == err.error.message
    ensures err.ZodErr? ==> r.statusCode == BAD_REQUEST && r.message == "Validation failed"
    ensures IsDuplicateKey(err) ==> r.statusCode == CONFLICT && r.message == DuplicateMessage(err.keyPattern)
    ensures err.OtherErr? && !IsDuplicateKey(err) ==>
      r.statusCode == INTERNAL_SERVER_ERROR && r.message == "An unexpected error occurred"
    ensures r.errors.Some? <==> err.ZodErr?
    ensures err.ZodErr? ==> r.errors == Some(FieldErrors(err.issues))
    ensures r.stack == if nodeEnv == "development" then StackOf(err) else None
  {
    var (statusCode, message, errors) :=
      match err
      case ApiErr(e, _) => (e.statusCode, e.message, None)
      case ZodErr(issues, _) => (BAD_REQUEST, "Validation failed", Some(FieldErrors(issues)))
      case OtherErr(_, _, keyPattern, _) =>
        if IsDuplicateKey(err) then (CONFLICT, DuplicateMessage(keyPattern), None)
        else (INTERNAL_SERVER_ERROR, "An unexpected error occurred", None);
    ErrorResponse(statusCode, false, message, errors,
      if nodeEnv == "development" then StackOf(err) else None)
  }

  /**
   * The status is the error's own for an ApiError and otherwise one of 400,
   * 409 or 500; outside development no stack is ever sent.
   */
  lemma StatusClasses(err: Thrown, nodeEnv: string)
    ensures !err.ApiErr? ==> Respond(err, nodeEnv).statusCode in {BAD_REQUEST, CONFLICT, INTERNAL_SERVER_ERROR}
    ensures nodeEnv != "development" ==> Respond(err, nodeEnv).stack.None?
  {
  }

  /** Each issue's path can be read back from its joined form when no key contains '.'. */
  lemma IssuePathsReadBack(issues: seq<ZodIssue>, i: nat)
    requires i < |issues| && |issues[i].path| >= 1
    requires forall k :: 0 <= k < |issues[i].path| ==> '.' !in issues[i].path[k]
    ensures Split(FieldErrors(issues)[i].path, '.') == issues[i].path
  {
    SplitJoin(issues[i].path, '.');
  }

  /** A duplicate `email` is reported as that field. */
  lemma DuplicateEmailMessage(stack: Option<string>, nodeEnv: string)
    ensures Respond(OtherErr("MongoServerError", Some(11000), ["email"], stack), nodeEnv).message
      == "Duplicate field error: The email is already taken."
  {
    assert ["email"][0] == "email";
    assert "Duplicate field error: The " + "email" + " is already taken."
      == "Duplicate field error: The email is already taken.";
  }
}

=== FILE: events.dfy ===
/** The interaction event payload carried on the interactions topic. */
module Events {
  import opened Wrappers
  import opened Constants

  /**
   * `InteractionEventPayload`. The user id is absent on anonymous VIEW
   * events (the API puts `currentUser?._id`, which may be undefined).
   */
  datatype InteractionEvent = InteractionEvent(
    kind: InteractionType,
    userId: Option<string>,
    blogId: string,
    timestamp: int)
}

=== FILE: idempotency.dfy ===
/**
 * `idempotencyMiddleware`: a POST, PATCH or PUT carrying an
 * `Idempotency-Key` header is answered at most once by its handler; later
 * requests with the same key get the stored answer back.
 */
module Idempotency {
  import opened Wrappers
  import opened ApiErrors

  /** A response as stored: its status and its JSON body (as text). */
  datatype Response = Response(status: int, body: string)

  /**
   * How a request ends: the handler ran and answered, the stored answer was
   * replayed, or the cache read failed and the error went to `next`.
   */
  datatype Outcome = Handled(response: Response) | Replayed(response: Response) | Failed(error: ApiError)

  const TTL_SECONDS: int := 24 * 60 * 60
  const CHECK_FAILED: ApiError := ApiError(INTERNAL_SERVER_ERROR, "Idempotency check failed")

  /** The cache key of an idempotency key. */
  function CacheKey(key: string): (k: string)
    ensures |k| == |"idempotency:"| + |key| && k[..|"idempotency:"|] == "idempotency:"
  {
    "idempotency:" + key
  }

  /** Different idempotency keys never share a cache entry. */
  lemma CacheKeyInjective(a: string, b: string)
    requires CacheKey(a) == CacheKey(b)
    ensures a == b
  {
    var n := |"idempotency:"|;
    assert a == CacheKey(a)[n..];
    assert b == CacheKey(b)[n..];
  }

  /** Only these methods are guarded. */
  predicate Guarded(httpMethod: string)
    ensures httpMethod in {"POST", "PATCH", "PUT"} ==> Guarded(httpMethod)
    ensures httpMethod in {"GET", "HEAD", "DELETE", "OPTIONS"} ==> !Guarded(httpMethod)
  {
    httpMethod == "POST" || httpMethod == "PATCH" || httpMethod == "PUT"
  }

  /** The header value, when it is present and not empty. */
  predicate HasKey(key: Option<string>)
    ensures HasKey(key) ==> key.Some? && |key.value| > 0
    ensures key.None? || key == Some("") ==> !HasKey(key)
  {
    key.Some? && key.value != ""
  }

  /** The Redis keys the middleware reads and writes, with their TTLs. */
  class IdempotencyCache {
    var entries: map<string, Response>
    var ttl: map<string, int>

    constructor ()
      ensures entries == map[] && ttl == map[]
    {
      entries := map[];
      ttl := map[];
    }

    /**
     * One request. `handler` is the answer the route (or the error
     * middleware) would send through `res.json`; `readFails` says whether
     * the cache read throws.
     */
    method Handle(httpMethod: string, key: Option<string>, readFails: bool, handler: Response) returns (out: Outcome)
      modifies this
      ensures out == Decide(old(entries), httpMethod, key, readFails, handler)
      ensures entries == EntriesAfter(old(entries), httpMethod, key, readFails, handler)
      ensures !Guarded(httpMethod) || !HasKey(key) ==>
        out == Handled(handler) && entries == old(entries) && ttl == old(ttl)
      ensures Guarded(httpMethod) && HasKey(key) && readFails ==>
        out == Failed(CHECK_FAILED) && entries == old(entries) && ttl == old(ttl)
      ensures Guarded(httpMethod) && HasKey(key) && !readFails && CacheKey(key.value) in old(entries) ==>
        out == Replayed(old(entries)[CacheKey(key.value)]) && entries == old(entries) && ttl == old(ttl)
      ensures Guarded(httpMethod) && HasKey(key) && !readFails && CacheKey(key.value) !in old(entries) ==>
        && out == Handled(handler)
        && entries == old(entries)[CacheKey(key.value) := handler]
        && ttl == old(ttl)[CacheKey(key.value) := TTL_SECONDS]
    {
      if !Guarded(httpMethod) {
        return Handled(handler);
      }
      if key.None? || key.value == "" {
        return Handled(handler);
      }
      var redisKey := CacheKey(key.value);
      if readFails {
        return Failed(CHECK_FAILED);
      }
      if redisKey in entries {
        return Replayed(entries[redisKey]);
      }
      // the replaced `res.json` stores the first answer before sending it
      entries := entries[redisKey := handler];
      ttl := ttl[redisKey := TTL_SECONDS];
      out := Handled(handler);
    }
  }

  /** The outcome `Handle` gives, as a function of the cache contents. */
  function Decide(entries: map<string, Response>, httpMethod: string, key: Option<string>, readFails: bool,
                  handler: Response): (out: Outcome)
    ensures out.Replayed? ==> Guarded(httpMethod) && HasKey(key) && CacheKey(key.value) in entries
    ensures out.Failed? <==> Guarded(httpMethod) && HasKey(key) && readFails
    ensures out.Handled? ==> out.response == handler
  {
    if !Guarded(httpMethod) || !HasKey(key) then Handled(handler)
    else if readFails then Failed(CHECK_FAILED)
    else if CacheKey(key.value) in entries then Replayed(entries[CacheKey(key.value)])
    else Handled(handler)
  }

  /** The cache after `Handle`. */
  function EntriesAfter(entries: map<string, Response>, httpMethod: string, key: Option<string>, readFails: bool,
                        handler: Response): (e: map<string, Response>)
    ensures entries.Keys <= e.Keys
    ensures forall k :: k in entries ==> e[k] == entries[k]
  {
    if Guarded(httpMethod) && HasKey(key) && !readFails && CacheKey(key.value) !in entries
    then entries[CacheKey(key.value) := handler]
    else entries
  }

  /**
   * Two guarded requests with the same key: whatever the second handler
   * would answer, the second request gets the first one's answer, and its
   * handler does not run.
   */
  lemma SecondRequestReplaysFirst(entries: map<string, Response>, m1: string, m2: string, key: string,
                                  first: Response, second: Response)
    requires Guarded(m1) && Guarded(m2) && key != ""
    ensures var o1 := Decide(entries, m1, Some(key), false, first);
      var e1 := EntriesAfter(entries, m1, Some(key), false, first);
      var o2 := Decide(e1, m2, Some(key), false, second);
      o2 == Replayed(o1.response)
  {
  }

  /** Requests that are not guarded neither read nor change the cache. */
  lemma UnguardedPassThrough(entries: map<string, Response>, httpMethod: string, key: Option<string>,
                             readFails: bool, handler: Response)
    requires !Guarded(httpMethod)
    ensures Decide(entries, httpMethod, key, readFails, handler) == Handled(handler)
    ensures EntriesAfter(entries, httpMethod, key, readFails, handler) == entries
  {
  }
}

=== FILE: markdown_editor.dfy ===
/**
 * The markdown editor's text transforms, as pure functions of the current
 * content and selection (`start`, `end`) to the next content, and of the
 * tag list to the next tag list.
 */
module MarkdownEditor {
  import opened Collections
  import opened Wrappers
  import opened Text

  // ---------------------------------------------------------------- ranges

  /** `replaceRange`: `prev.slice(0, start) + replacement + prev.slice(end)`. */
  function ReplaceRange(content: string, start: nat, end: nat, replacement: string): (r: string)
    ensures start <= end <= |content| ==>
      && r == content[..start] + replacement + content[end..]
      && |r| == |content| - (end - start) + |replacement|
  {
    Slice(content, 0, start) + replacement + Slice(content, end, |content|)
  }

  /** Replacing the inserted text by what it replaced gives the old content back. */
  lemma ReplaceRangeUndo(content: string, start: nat, end: nat, replacement: string)
    requires start <= end <= |content|
    ensures var r := ReplaceRange(content, start, end, replacement);
      ReplaceRange(r, start, start + |replacement|, content[start..end]) == content
  {
    SpliceParts(content[..start], replacement, content[end..]);
    SliceThree(content, start, end);
  }

  /**
   * `applyWrap(prefix, suffix)`: the selection is wrapped in `prefix` and
   * `suffix` (the prefix again when no suffix is given); an empty selection
   * becomes the placeholder "text" wrapped the same way.
   */
  function ApplyWrap(content: string, start: nat, end: nat, prefix: string, suffix: Option<string>): (r: string)
    ensures start <= end <= |content| ==>
      var inner := if start != end then content[start..end] else "text";
      r == content[..start] + (prefix + inner + suffix.GetOr(prefix)) + content[end..]
  {
    var sfx := suffix.GetOr(prefix);
    var selected := Slice(content, start, end);
    var inner := if start != end then selected else "text";
    ReplaceRange(content, start, end, prefix + inner + sfx)
  }

  /** Taking the wrapped text back to the selected text undoes a wrap of a non-empty selection. */
  lemma UnwrapRestores(content: string, start: nat, end: nat, prefix: string, suffix: Option<string>)
    requires start < end <= |content|
    ensures var w := ApplyWrap(content, start, end, prefix, suffix);
      var n := |prefix| + (end - start) + |suffix.GetOr(prefix)|;
      start + n <= |w| && w[start..start + n] == prefix + content[start..end] + suffix.GetOr(prefix)
      && ReplaceRange(w, start, start + n, content[start..end]) == content
  {
    var wrapped := prefix + content[start..end] + suffix.GetOr(prefix);
    ReplaceRangeUndo(content, start, end, wrapped);
  }

  /** `window.prompt(...) || "https://"`: a cancelled or empty answer gives "https://". */
  function UrlOrDefault(answer: Option<string>): (u: string)
    ensures u != ""
    ensures answer.Some? && answer.value != "" ==> u == answer.value
  {
    if answer.Some? && answer.value != "" then answer.value else "https://"
  }

  /** `insertLink`: the selection (or "link text") becomes `[text](url)`. */
  function InsertLink(content: string, start: nat, end: nat, answer: Option<string>): (r: string)
    ensures start <= end <= |content| ==>
      var linkText := if start < end then content[start..end] else "link text";
      r == content[..start] + ("[" + linkText + "](" + UrlOrDefault(answer) + ")") + content[end..]
  {
    var selected := Slice(content, start, end);
    var linkText := if selected != "" then selected else "link text";
    ReplaceRange(content, start, end, "[" + linkText + "](" + UrlOrDefault(answer) + ")")
  }

  /** `insertImage`: the selection (or "alt text") becomes `![alt](url)`. */
  function InsertImage(content: string, start: nat, end: nat, answer: Option<string>): (r: string)
    ensures start <= end <= |content| ==>
      var altText := if start < end then content[start..end] else "alt text";
      r == content[..start] + ("![" + altText + "](" + UrlOrDefault(answer) + ")") + content[end..]
  {
    var selected := Slice(content, start, end);
    var altText := if selected != "" then selected else "alt text";
    ReplaceRange(content, start, end, "![" + altText + "](" + UrlOrDefault(answer) + ")")
  }

  // ---------------------------------------------------------------- line prefixes

  predicate AllPrefixed(lines: seq<string>, prefix: string) {
    forall i :: 0 <= i < |lines| ==> StartsWith(lines[i], prefix)
  }

  /**
   * The per-line transform: when every line starts with `prefix` one copy
   * is removed from each, otherwise `prefix` is put in front of each. The
   * editor's prefixes ("# ", "## ", "> ", "- ", "1. ") match themselves as
   * patterns, so removing the `^prefix` match drops the first `|prefix|`
   * characters.
   */
  function ToggleLines(lines: seq<string>, prefix: string): (r: seq<string>)
    ensures |r| == |lines|
    ensures AllPrefixed(lines, prefix) ==> forall i :: 0 <= i < |r| ==> prefix + r[i] == lines[i]
    ensures !AllPrefixed(lines, prefix) ==> forall i :: 0 <= i < |r| ==> r[i] == prefix + lines[i]
  {
    if AllPrefixed(lines, prefix) then
      seq(|lines|, i requires 0 <= i < |lines| => lines[i][|prefix|..])
    else
      seq(|lines|, i requires 0 <= i < |lines| => prefix + lines[i])
  }

  /**
   * Toggling twice gives the lines back, unless removing the prefix still
   * leaves every line prefixed (lines such as "- - a" under "- ").
   */
  lemma ToggleTwice(lines: seq<string>, prefix: string)
    requires !AllPrefixed(lines, prefix) || !AllPrefixed(ToggleLines(lines, prefix), prefix)
    ensures ToggleLines(ToggleLines(lines, prefix), prefix) == lines
  {
    var once := ToggleLines(lines, prefix);
    if !AllPrefixed(lines, prefix) {
      assert AllPrefixed(once, prefix) by {
        forall i | 0 <= i < |once| ensures StartsWith(once[i], prefix) {
          assert once[i][..|prefix|] == prefix;
        }
      }
      var twice := ToggleLines(once, prefix);
      forall i | 0 <= i < |lines| ensures twice[i] == lines[i] {
        assert prefix + twice[i] == once[i] == prefix + lines[i];
        assert twice[i] == (prefix + twice[i])[|prefix|..];
      }
    }
  }

  /** The bounds of the block of lines a toggle rewrites. */
  datatype Block = Block(lineStart: nat, lineEnd: nat)

  /**
   * `toggleLinePrefix`'s block as written: it starts after the last '\n'
   * before the selection; it ends at the first '\n' after the selection
   * when the selection has none, and otherwise at the LAST '\n' inside the
   * selection.
   */
  function BlockAsWritten(content: string, start: nat, end: nat): (b: Block)
    ensures b.lineStart <= start || b.lineStart == 0
    ensures start <= end <= |content| ==> b.lineStart <= start <= b.lineEnd <= |content|
    ensures start <= end <= |content| && '\n' in content[start..end] ==>
      b.lineEnd < end && content[b.lineEnd] == '\n' && '\n' !in content[b.lineEnd + 1..end]
  {
    var before := Slice(content, 0, start);
    var selection := Slice(content, start, end);
    var after := Slice(content, end, |content|);
    var leftNL := LastIndexOf(before, '\n');
    var rightNLRel := if IndexOf(selection, '\n') == -1 then IndexOf(after, '\n') else LastIndexOf(selection, '\n');
    var lineStart := if leftNL == -1 then 0 else leftNL + 1;
    var lineEnd :=
      if rightNLRel == -1 then |content|
      else if IndexOf(selection, '\n') == -1 then end + rightNLRel
      else start + rightNLRel;
    Block(lineStart, lineEnd)
  }

  /**
   * Where the last selected line's selected part ends: a selection that
   * stops just after a '\n' does not reach into the line that follows it.
   */
  function LastSelectedEnd(content: string, start: nat, end: nat): (e: nat)
    requires start <= end <= |content|
    ensures start <= e <= end
    ensures e == end || (e == end - 1 && content[e] == '\n')
  {
    if start < end && content[end - 1] == '\n' then end - 1 else end
  }

  /**
   * The block every selected line belongs to: it ends at the first '\n' at
   * or after the last selected line's selected part.
   */
  function BlockOfSelection(content: string, start: nat, end: nat): (b: Block)
    requires start <= end <= |content|
    ensures b.lineStart <= start <= LastSelectedEnd(content, start, end) <= b.lineEnd <= |content|
    ensures b.lineStart == 0 || content[b.lineStart - 1] == '\n'
    ensures '\n' !in content[b.lineStart..start] && '\n' !in content[LastSelectedEnd(content, start, end)..b.lineEnd]
    ensures b.lineEnd == |content| || content[b.lineEnd] == '\n'
    ensures start < end && content[end - 1] == '\n' ==> b.lineEnd == end - 1
  {
    var e := LastSelectedEnd(content, start, end);
    var before := content[..start];
    var after := content[e..];
    var leftNL := LastIndexOf(before, '\n');
    var rightNL := IndexOf(after, '\n');
    var lineStart := if leftNL == -1 then 0 else leftNL + 1;
    var lineEnd := if rightNL == -1 then |content| else e + rightNL;
    assert content[lineStart..start] == before[lineStart..];
    assert rightNL != -1 ==> content[e..lineEnd] == after[..rightNL];
    Block(lineStart, lineEnd)
  }

  /** The content after a toggle of the lines of block `b`. */
  function ToggleBlock(content: string, b: Block, prefix: string): (r: string)
    ensures b.lineStart <= b.lineEnd <= |content| ==>
      var lines := Split(content[b.lineStart..b.lineEnd], '\n');
      r == content[..b.lineStart] + Join(ToggleLines(lines, prefix), '\n') + content[b.lineEnd..]
  {
    var block := Slice(content, b.lineStart, b.lineEnd);
    var lines := Split(block, '\n');
    Slice(content, 0, b.lineStart) + Join(ToggleLines(lines, prefix), '\n') + Slice(content, b.lineEnd, |content|)
  }

  /** `toggleLinePrefix(prefix)` as written. */
  function ToggleLinePrefixAsWritten(content: string, start: nat, end: nat, prefix: string): (r: string)
    ensures start <= end <= |content| ==>
      var b := BlockAsWritten(content, start, end);
      && |r| >= b.lineStart + (|content| - b.lineEnd)
      && r[..b.lineStart] == content[..b.lineStart]
      && r[|r| - (|content| - b.lineEnd)..] == content[b.lineEnd..]
    ensures start <= end <= |content| ==> r == ToggleBlock(content, BlockAsWritten(content, start, end), prefix)
  {
    var b := BlockAsWritten(content, start, end);
    if start <= end <= |content| then
      var lines := Split(content[b.lineStart..b.lineEnd], '\n');
      Spliced(content[..b.lineStart], Join(ToggleLines(lines, prefix), '\n'), content[b.lineEnd..]);
      ToggleBlock(content, b, prefix)
    else
      ToggleBlock(content, b, prefix)
  }

  /**
   * As written, a selection over two lines only prefixes the first: with
   * "a\nb" all selected, "- " gives "- a\nb".
   */
  lemma LastSelectedLineMissedAsWritten()
    ensures ToggleLinePrefixAsWritten("a\nb", 0, 3, "- ") == "- a\nb"
  {
    WholeSelectionBlockAsWritten();
    PrefixOneLine();
    assert Slice("a\nb", 0, 0) == "" && Slice("a\nb", 0, 1) == "a" && Slice("a\nb", 1, 3) == "\nb";
  }

  lemma WholeSelectionBlockAsWritten()
    ensures BlockAsWritten("a\nb", 0, 3) == Block(0, 1)
  {
    var c := "a\nb";
    assert Slice(c, 0, 0) == "" && Slice(c, 0, 3) == c && Slice(c, 3, 3) == "";
    assert IndexOf(c, '\n') == 1 && LastIndexOf(c, '\n') == 1;
    assert LastIndexOf("", '\n') == -1;
  }

  lemma PrefixOneLine()
    ensures Join(ToggleLines(Split("a", '\n'), "- "), '\n') == "- a"
  {
    SplitNoSep("a", '\n');
    assert !StartsWith(["a"][0], "- ");
    assert ToggleLines(["a"], "- ")[0] == "- a";
    assert ToggleLines(["a"], "- ") == ["- a"];
  }

  /** Over the block of every selected line, the same selection prefixes both lines. */
  lemma SelectedLinesAllToggled()
    ensures ToggleLinePrefix("a\nb", 0, 3, "- ") == "- a\n- b"
  {
    WholeSelectionBlock();
    SplitTwoLines();
    PrefixTwoLines();
    JoinTwoLines();
  }

  lemma SplitTwoLines()
    ensures Split("a\nb", '\n') == ["a", "b"]
  {
    SplitNoSep("b", '\n');
    SplitAfter("a", "b", '\n');
    assert "a\nb" == "a" + ['\n'] + "b";
  }

  lemma PrefixTwoLines()
    ensures ToggleLines(["a", "b"], "- ") == ["- a", "- b"]
  {
    assert !StartsWith(["a", "b"][0], "- ");
    assert ToggleLines(["a", "b"], "- ")[0] == "- a" && ToggleLines(["a", "b"], "- ")[1] == "- b";
  }

  lemma WholeSelectionBlock()
    ensures ToggleLinePrefix("a\nb", 0, 3, "- ") == Join(ToggleLines(Split("a\nb", '\n'), "- "), '\n')
  {
    var c := "a\nb";
    assert c[..0] == "" && c[3..] == "";
    assert IndexOf("", '\n') == -1 && LastIndexOf("", '\n') == -1;
    assert c[2] == 'b' && LastSelectedEnd(c, 0, 3) == 3;
    assert BlockOfSelection(c, 0, 3) == Block(0, 3);
    assert Slice(c, 0, 0) == "" && Slice(c, 0, 3) == c && Slice(c, 3, 3) == "";
  }

  /**
   * A selection that ends just after a '\n' toggles only the lines it
   * reaches, as the code does: selecting "a\n" in "a\nb" prefixes "a" alone.
   */
  lemma SelectionEndingAtNewline()
    ensures ToggleLinePrefix("a\nb", 0, 2, "- ") == "- a\nb"
    ensures ToggleLinePrefixAsWritten("a\nb", 0, 2, "- ") == "- a\nb"
  {
    NewlineEndToggled();
    NewlineEndToggledAsWritten();
  }

  lemma NewlineEndToggled()
    ensures ToggleLinePrefix("a\nb", 0, 2, "- ") == "- a\nb"
  {
    PrefixOneLine();
    NewlineEndBlock();
    assert "a\nb"[0..1] == "a" && Slice("a\nb", 0, 0) == "" && Slice("a\nb", 0, 1) == "a" && Slice("a\nb", 1, 3) == "\nb";
  }

  lemma NewlineEndToggledAsWritten()
    ensures ToggleLinePrefixAsWritten("a\nb", 0, 2, "- ") == "- a\nb"
  {
    PrefixOneLine();
    NewlineEndBlockAsWritten();
    assert Slice("a\nb", 0, 0) == "" && Slice("a\nb", 0, 1) == "a" && Slice("a\nb", 1, 3) == "\nb";
  }

  lemma NewlineEndBlock()
    ensures BlockOfSelection("a\nb", 0, 2) == Block(0, 1)
  {
    var c := "a\nb";
    assert c[..0] == "" && c[1] == '\n' && c[1..] == "\nb";
    assert LastIndexOf("", '\n') == -1;
  }

  lemma NewlineEndBlockAsWritten()
    ensures BlockAsWritten("a\nb", 0, 2) == Block(0, 1)
  {
    var c := "a\nb";
    assert Slice(c, 0, 0) == "" && Slice(c, 0, 2) == "a\n" && Slice(c, 2, 3) == "b";
    assert IndexOf("a\n", '\n') == 1 && LastIndexOf("a\n", '\n') == 1;
    assert LastIndexOf("", '\n') == -1;
  }

  lemma JoinTwoLines()
    ensures Join(["- a", "- b"], '\n') == "- a\n- b"
  {
    assert ["- a", "- b"][1..] == ["- b"];
    assert Join(["- b"], '\n') == "- b";
  }

  /** A selection clamped to the content, its end never before its start. */
  function Clamp(content: string, start: nat, end: nat): (sel: (nat, nat))
    ensures sel.0 <= sel.1 <= |content|
    ensures start <= end <= |content| ==> sel == (start, end)
  {
    var s := if start < |content| then start else |content|;
    var e := if end < s then s else if end < |content| then end else |content|;
    (s, e)
  }

  /** `toggleLinePrefix(prefix)` over the block holding every selected line. */
  function ToggleLinePrefix(content: string, start: nat, end: nat, prefix: string): (r: string)
    ensures start <= end <= |content| ==>
      var b := BlockOfSelection(content, start, end);
      && |r| >= b.lineStart + (|content| - b.lineEnd)
      && r[..b.lineStart] == content[..b.lineStart]
      && r[|r| - (|content| - b.lineEnd)..] == content[b.lineEnd..]
    ensures start <= end <= |content| ==> r == ToggleBlock(content, BlockOfSelection(content, start, end), prefix)
  {
    var (s, e) := Clamp(content, start, end);
    var b := BlockOfSelection(content, s, e);
    var lines := Split(content[b.lineStart..b.lineEnd], '\n');
    Spliced(content[..b.lineStart], Join(ToggleLines(lines, prefix), '\n'), content[b.lineEnd..]);
    ToggleBlock(content, b, prefix)
  }

  /** The three parts of a concatenation can be sliced back out of it. */
  lemma Spliced(pre: string, mid: string, post: string)
    ensures var r := pre + mid + post;
      && r[..|pre|] == pre
      && r[|pre|..|pre| + |mid|] == mid
      && r[|pre| + |mid|..] == post
  {
  }

  /**
   * Every line of the block is toggled: between the unchanged text before
   * and after the block stand exactly the toggled lines, and nothing else.
   */
  lemma ToggleLinePrefixLines(content: string, start: nat, end: nat, prefix: string)
    requires start <= end <= |content|
    ensures var b := BlockOfSelection(content, start, end);
      var r := ToggleLinePrefix(content, start, end, prefix);
      var lines := Split(content[b.lineStart..b.lineEnd], '\n');
      var toggled := Join(ToggleLines(lines, prefix), '\n');
      && |r| == b.lineStart + |toggled| + (|content| - b.lineEnd)
      && r[b.lineStart..b.lineStart + |toggled|] == toggled
  {
    var b := BlockOfSelection(content, start, end);
    var lines := Split(content[b.lineStart..b.lineEnd], '\n');
    Spliced(content[..b.lineStart], Join(ToggleLines(lines, prefix), '\n'), content[b.lineEnd..]);
  }

  // ---------------------------------------------------------------- tags

  /** A tag list the editor keeps: no empty tag and no tag twice. */
  predicate TagListOk(tags: seq<string>) {
    && (forall i :: 0 <= i < |tags| ==> tags[i] != "")
    && (forall i, j :: 0 <= i < j < |tags| ==> tags[i] != tags[j])
  }

  /** `tag.trim().replace(/^#/, "")`: trimmed, then one leading '#' dropped. */
  function CleanTag(tag: string): (v: string)
    ensures |v| <= |tag|
  {
    var t := Trim(tag);
    if |t| > 0 && t[0] == '#' then t[1..] else t
  }

  /** `addTag`: the cleaned tag is appended unless it is empty or already listed. */
  function AddTag(tags: seq<string>, tag: string): (r: seq<string>)
    ensures var v := CleanTag(tag);
      if v == "" || v in tags then r == tags else r == tags + [v]
    ensures TagListOk(tags) ==> TagListOk(r)
  {
    var v := CleanTag(tag);
    if v == "" then tags
    else if v in tags then tags
    else tags + [v]
  }

  /** `removeTag`: every entry equal to `t` is dropped, the others keep their order. */
  function RemoveTag(tags: seq<string>, t: string): (r: seq<string>)
    ensures t !in r
    ensures forall x :: x in r <==> x in tags && x != t
    ensures |r| <= |tags|
  {
    if tags == [] then []
    else (if tags[0] != t then [tags[0]] else []) + RemoveTag(tags[1..], t)
  }

  /** Removing keeps a tag list duplicate-free and without empties. */
  lemma {:induction false} RemoveTagKeepsListOk(tags: seq<string>, t: string)
    requires TagListOk(tags)
    ensures TagListOk(RemoveTag(tags, t))
  {
    if tags != [] {
      RemoveTagKeepsListOk(tags[1..], t);
      var rest := RemoveTag(tags[1..], t);
      assert tags[0] !in tags[1..];
      assert tags[0] !in rest;
    }
  }

  /** Removing a tag from a list that does not hold it changes nothing. */
  lemma {:induction false} RemoveAbsentTag(tags: seq<string>, t: string)
    requires t !in tags
    ensures RemoveTag(tags, t) == tags
  {
    if tags != [] {
      RemoveAbsentTag(tags[1..], t);
    }
  }

  /** Adding a new tag and then removing it gives the list back. */
  lemma AddThenRemove(tags: seq<string>, tag: string)
    requires CleanTag(tag) != "" && CleanTag(tag) !in tags
    ensures RemoveTag(AddTag(tags, tag), CleanTag(tag)) == tags
  {
    var v := CleanTag(tag);
    RemoveAppend(tags, [v], v);
    assert RemoveTag([v], v) == [] + RemoveTag([], v);
    RemoveAbsentTag(tags, v);
  }

  /** Removal distributes over concatenation. */
  lemma {:induction false} RemoveAppend(a: seq<string>, b: seq<string>, t: string)
    ensures RemoveTag(a + b, t) == RemoveTag(a, t) + RemoveTag(b, t)
  {
    if a == [] {
      assert a + b == b;
    } else {
      AppendTail(a, b);
      RemoveAppend(a[1..], b, t);
      AppendAssoc(if a[0] != t then [a[0]] else [], RemoveTag(a[1..], t), RemoveTag(b, t));
    }
  }
}

=== FILE: outbox_model.dfy ===
/**
 * The outbox collection: record shape, status values and defaults, the
 * 30-day expiry, and the relay's claim query (PENDING records, oldest
 * first, at most 100).
 */
module OutboxModel {
  import opened Wrappers
  import Constants
  import opened Events

  datatype OutboxStatus = Pending | Processed | Failed

  function OutboxStatusName(s: OutboxStatus): string {
    match s
    case Pending => "PENDING"
    case Processed => "PROCESSED"
    case Failed => "FAILED"
  }

  /** The schema's enum check: a stored status is one of the three names. */
  function ParseOutboxStatus(s: string): (r: Option<OutboxStatus>)
    ensures r.Some? <==> s == "PENDING" || s == "PROCESSED" || s == "FAILED"
    ensures r.Some? ==> OutboxStatusName(r.value) == s
  {
    if s == "PENDING" then Some(Pending)
    else if s == "PROCESSED" then Some(Processed)
    else if s == "FAILED" then Some(Failed)
    else None
  }

  lemma OutboxStatusRoundTrip(st: OutboxStatus)
    ensures ParseOutboxStatus(OutboxStatusName(st)) == Some(st)
  {
    match st
    case Pending =>
    case Processed =>
    case Failed =>
  }

  /** `IOutbox`; the payload is always an interaction event in this system. */
  datatype OutboxRecord = OutboxRecord(
    topic: string,
    key: string,
    payload: InteractionEvent,
    status: OutboxStatus,
    retries: nat,
    createdAt: int,
    processedAt: Option<int>)

  /**
   * `new Outbox(event)` saved at time `now`: the schema defaults apply. A
   * required string field rejects the empty string, so such an event is not
   * stored.
   */
  function NewRecord(topic: string, key: string, payload: InteractionEvent, now: int): (r: Option<OutboxRecord>)
    ensures r.Some? <==> topic != "" && key != ""
    ensures r.Some? ==> r.value.topic == topic && r.value.key == key && r.value.payload == payload
    ensures r.Some? ==> r.value.status == Pending && r.value.retries == 0
    ensures r.Some? ==> r.value.createdAt == now && r.value.processedAt.None?
  {
    if topic == "" || key == "" then None
    else Some(OutboxRecord(topic, key, payload, Pending, 0, now, None))
  }

  /** `expires: '30d'` on `createdAt`, in milliseconds. */
  const OUTBOX_TTL_MS: int := 30 * Constants.DAY_MS

  predicate Expired(r: OutboxRecord, now: int)
    ensures Expired(r, now) <==> now - r.createdAt >= 2592000000
    ensures now < r.createdAt ==> !Expired(r, now)
  {
    now >= r.createdAt + OUTBOX_TTL_MS
  }

  /** The TTL index's cleanup at time `now`: every expired record goes, whatever its status. */
  function Purge(records: seq<OutboxRecord>, now: int): (r: seq<OutboxRecord>)
    ensures |r| <= |records|
    ensures forall x :: x in r <==> x in records && !Expired(x, now)
  {
    if records == [] then []
    else (if Expired(records[0], now) then [] else [records[0]]) + Purge(records[1..], now)
  }

  // ------------------------------------------------------------------ the claim query

  /** Every index names a record. */
  predicate InRange(records: seq<OutboxRecord>, s: seq<nat>) {
    forall k :: 0 <= k < |s| ==> s[k] < |records|
  }

  predicate Distinct(s: seq<nat>) {
    forall a, b :: 0 <= a < b < |s| ==> s[a] != s[b]
  }

  /** The indices are in ascending `createdAt` order. */
  predicate ByAge(records: seq<OutboxRecord>, s: seq<nat>)
    requires InRange(records, s)
  {
    forall a, b :: 0 <= a < b < |s| ==> records[s[a]].createdAt <= records[s[b]].createdAt
  }

  /** Indices of the PENDING records among the first `n`, ascending. */
  function PendingIndices(records: seq<OutboxRecord>, n: nat): (s: seq<nat>)
    requires n <= |records|
    ensures InRange(records, s) && Distinct(s)
    ensures forall i: nat :: i in s <==> i < n && records[i].status == Pending
    ensures forall k :: 0 <= k < |s| ==> s[k] < n
  {
    if n == 0 then []
    else PendingIndices(records, n - 1) + if records[n - 1].status == Pending then [n - 1] else []
  }

  /** Inserts `i` after every index that is not younger, so equal ages keep their order. */
  function InsertByAge(records: seq<OutboxRecord>, s: seq<nat>, i: nat): (r: seq<nat>)
    requires InRange(records, s) && i < |records|
    ensures |r| == |s| + 1 && InRange(records, r)
    ensures forall x :: x in r <==> x in s || x == i
  {
    if s == [] then [i]
    else if records[i].createdAt < records[s[0]].createdAt then [i] + s
    else [s[0]] + InsertByAge(records, s[1..], i)
  }

  lemma {:induction false} InsertByAgeSorted(records: seq<OutboxRecord>, s: seq<nat>, i: nat)
    requires InRange(records, s) && i < |records| && ByAge(records, s)
    ensures ByAge(records, InsertByAge(records, s, i))
  {
    if s != [] {
      if records[i].createdAt < records[s[0]].createdAt {
        forall x | x in s ensures records[i].createdAt <= records[x].createdAt {
          var k :| 0 <= k < |s| && s[k] == x;
          if k > 0 { assert records[s[0]].createdAt <= records[s[k]].createdAt; }
        }
        ByAgeCons(records, i, s);
      } else {
        var t := InsertByAge(records, s[1..], i);
        InsertByAgeSorted(records, s[1..], i);
        forall x | x in t ensures records[s[0]].createdAt <= records[x].createdAt {
          if x != i {
            var k :| 0 <= k < |s[1..]| && s[1..][k] == x;
            assert s[k + 1] == x;
          }
        }
        ByAgeCons(records, s[0], t);
      }
    }
  }

  /** An index no younger than every index of a sorted list may go in front of it. */
  lemma ByAgeCons(records: seq<OutboxRecord>, h: nat, t: seq<nat>)
    requires h < |records| && InRange(records, t) && ByAge(records, t)
    requires forall x :: x in t ==> records[h].createdAt <= records[x].createdAt
    ensures InRange(records, [h] + t) && ByAge(records, [h] + t)
  {
    var r := [h] + t;
    forall a, b | 0 <= a < b < |r| ensures records[r[a]].createdAt <= records[r[b]].createdAt {
      if a == 0 {
        assert r[b] in t;
      } else {
        assert r[a] == t[a - 1] && r[b] == t[b - 1];
      }
    }
  }

  lemma {:induction false} InsertByAgeDistinct(records: seq<OutboxRecord>, s: seq<nat>, i: nat)
    requires InRange(records, s) && i < |records| && Distinct(s) && i !in s
    ensures Distinct(InsertByAge(records, s, i))
  {
    if s != [] && records[i].createdAt >= records[s[0]].createdAt {
      var t := InsertByAge(records, s[1..], i);
      InsertByAgeDistinct(records, s[1..], i);
      var r := [s[0]] + t;
      assert s[0] !in t by {
        assert s[0] !in s[1..];
      }
      forall a, b | 0 <= a < b < |r| ensures r[a] != r[b] {
        if a == 0 {
          assert r[b] in t;
        } else {
          assert r[a] == t[a - 1] && r[b] == t[b - 1];
        }
      }
    }
  }

  /** `sort({ createdAt: 1 })`: a stable insertion sort by age. */
  function SortByAge(records: seq<OutboxRecord>, s: seq<nat>): (r: seq<nat>)
    requires InRange(records, s)
    ensures |r| == |s| && InRange(records, r)
    ensures forall x :: x in r <==> x in s
  {
    if s == [] then []
    else
      var init := s[..|s| - 1];
      assert forall x :: x in s <==> x in init || x == s[|s| - 1] by {
        assert s == init + [s[|s| - 1]];
      }
      InsertByAge(records, SortByAge(records, init), s[|s| - 1])
  }

  /** The sort orders by age and keeps distinct indices distinct. */
  lemma {:induction false} SortByAgeSorted(records: seq<OutboxRecord>, s: seq<nat>)
    requires InRange(records, s)
    ensures ByAge(records, SortByAge(records, s))
    ensures Distinct(s) ==> Distinct(SortByAge(records, s))
  {
    if s != [] {
      var init := s[..|s| - 1];
      SortByAgeSorted(records, init);
      InsertByAgeSorted(records, SortByAge(records, init), s[|s| - 1]);
      if Distinct(s) {
        assert s[|s| - 1] !in init;
        InsertByAgeDistinct(records, SortByAge(records, init), s[|s| - 1]);
      }
    }
  }

  /** The claim size of the relay. */
  const RELAY_BATCH: nat := 100

  /**
   * `Outbox.find({ status: 'PENDING' }).limit(100).sort({ createdAt: 1 })`:
   * the query sorts before it limits, so these are the (up to) 100 oldest
   * PENDING records; among equal ages, the order the records were stored in.
   */
  function Claim(records: seq<OutboxRecord>): (c: seq<nat>)
    ensures |c| <= RELAY_BATCH && InRange(records, c) && Distinct(c) && ByAge(records, c)
    ensures forall i :: i in c ==> records[i].status == Pending
    ensures |c| < RELAY_BATCH ==> forall i :: 0 <= i < |records| && records[i].status == Pending ==> i in c
    ensures |c| == RELAY_BATCH ==> forall i :: 0 <= i < |records| && records[i].status == Pending && i !in c ==>
      records[c[RELAY_BATCH - 1]].createdAt <= records[i].createdAt
  {
    var all := SortByAge(records, PendingIndices(records, |records|));
    SortByAgeSorted(records, PendingIndices(records, |records|));
    var c := if |all| <= RELAY_BATCH then all else all[..RELAY_BATCH];
    assert |all| > RELAY_BATCH ==> forall i :: 0 <= i < |records| && records[i].status == Pending && i !in c ==>
      records[c[RELAY_BATCH - 1]].createdAt <= records[i].createdAt by {
      if |all| > RELAY_BATCH {
        forall i | 0 <= i < |records| && records[i].status == Pending && i !in c
          ensures records[c[RELAY_BATCH - 1]].createdAt <= records[i].createdAt
        {
          forall j | 0 <= j < RELAY_BATCH ensures all[j] != i {
            assert c[j] == all[j];
          }
          var k :| 0 <= k < |all| && all[k] == i;
        }
      }
    }
    c
  }

  lemma {:induction false} NoPendingIndices(records: seq<OutboxRecord>, n: nat)
    requires n <= |records|
    requires forall i :: 0 <= i < |records| ==> records[i].status != Pending
    ensures PendingIndices(records, n) == []
  {
    if n > 0 {
      NoPendingIndices(records, n - 1);
    }
  }

  /** Nothing PENDING: the claim is empty. */
  lemma NoPendingNoClaim(records: seq<OutboxRecord>)
    requires forall i :: 0 <= i < |records| ==> records[i].status != Pending
    ensures Claim(records) == []
  {
    NoPendingIndices(records, |records|);
  }
}

=== FILE: outbox_service.dfy ===
/**
 * `OutboxService.createEvent` and the relay `processOutboxMessages`, over
 * the outbox collection held as a sequence of records.
 */
module Outbox {
  import opened Wrappers
  import opened Events
  import opened OutboxModel

  /** A message handed to the producer: topic, key and payload. */
  datatype Sent = Sent(topic: string, key: string, payload: InteractionEvent)

  /**
   * The relay's write to one claimed record: PROCESSED with `processedAt`
   * when its publish returned, FAILED with one more retry when it threw.
   */
  function Settle(r: OutboxRecord, published: bool, now: int): (s: OutboxRecord)
    ensures s.topic == r.topic && s.key == r.key && s.payload == r.payload && s.createdAt == r.createdAt
    ensures published ==> s.status == Processed && s.processedAt == Some(now) && s.retries == r.retries
    ensures !published ==> s.status == Failed && s.retries == r.retries + 1 && s.processedAt == r.processedAt
  {
    if published then r.(status := Processed, processedAt := Some(now))
    else r.(status := Failed, retries := r.retries + 1)
  }

  /** The publish of the `j`-th claimed record returned; a missing outcome counts as a throw. */
  function PublishOk(oks: seq<bool>, j: nat): bool {
    j < |oks| && oks[j]
  }

  /** The records once the first `n` claimed records were settled, in claim order. */
  function Relayed(records: seq<OutboxRecord>, claimed: seq<nat>, oks: seq<bool>, now: int, n: nat): (r: seq<OutboxRecord>)
    requires InRange(records, claimed) && n <= |claimed|
    ensures |r| == |records|
  {
    if n == 0 then records
    else
      var p := Relayed(records, claimed, oks, now, n - 1);
      p[claimed[n - 1] := Settle(p[claimed[n - 1]], PublishOk(oks, n - 1), now)]
  }

  /** The producer log of the first `n` claimed records: those whose publish returned. */
  function SentBy(records: seq<OutboxRecord>, claimed: seq<nat>, oks: seq<bool>, n: nat): seq<Sent>
    requires InRange(records, claimed) && n <= |claimed|
  {
    if n == 0 then []
    else
      var r := records[claimed[n - 1]];
      SentBy(records, claimed, oks, n - 1) + if PublishOk(oks, n - 1) then [Sent(r.topic, r.key, r.payload)] else []
  }

  /**
   * Each claimed record is settled by its own publish outcome alone, so a
   * failure does not stop the later records; records outside the claim are
   * unchanged.
   */
  lemma RelaySettlesEach(records: seq<OutboxRecord>, claimed: seq<nat>, oks: seq<bool>, now: int, n: nat)
    requires InRange(records, claimed) && Distinct(claimed) && n <= |claimed|
    ensures var r := Relayed(records, claimed, oks, now, n);
      (forall j :: 0 <= j < n ==> r[claimed[j]] == Settle(records[claimed[j]], PublishOk(oks, j), now))
      && (forall k :: 0 <= k < |records| && k !in claimed[..n] ==> r[k] == records[k])
  {
    RelaySettlesClaimed(records, claimed, oks, now, n);
    RelayLeavesOthers(records, claimed, oks, now, n);
  }

  /** A record outside the first `n` claimed ones is not written. */
  lemma {:induction false} RelayLeavesOthers(records: seq<OutboxRecord>, claimed: seq<nat>, oks: seq<bool>, now: int, n: nat)
    requires InRange(records, claimed) && n <= |claimed|
    ensures forall k :: 0 <= k < |records| && k !in claimed[..n] ==> Relayed(records, claimed, oks, now, n)[k] == records[k]
  {
    if n > 0 {
      RelayLeavesOthers(records, claimed, oks, now, n - 1);
      assert claimed[..n] == claimed[..n - 1] + [claimed[n - 1]];
    }
  }

  /** The `j`-th claimed record ends up settled by the `j`-th outcome. */
  lemma {:induction false} RelaySettlesClaimed(records: seq<OutboxRecord>, claimed: seq<nat>, oks: seq<bool>, now: int, n: nat)
    requires InRange(records, claimed) && Distinct(claimed) && n <= |claimed|
    ensures forall j :: 0 <= j < n ==>
      Relayed(records, claimed, oks, now, n)[claimed[j]] == Settle(records[claimed[j]], PublishOk(oks, j), now)
  {
    if n > 0 {
      RelaySettlesClaimed(records, claimed, oks, now, n - 1);
      RelayLeavesOthers(records, claimed, oks, now, n - 1);
      assert claimed[n - 1] !in claimed[..n - 1];
      forall j | 0 <= j < n - 1
        ensures Relayed(records, claimed, oks, now, n)[claimed[j]] == Relayed(records, claimed, oks, now, n - 1)[claimed[j]]
      {
        RelayStepElsewhere(records, claimed, oks, now, n, claimed[j]);
      }
    }
  }

  /** The `n`-th settle writes one record only. */
  lemma RelayStepElsewhere(records: seq<OutboxRecord>, claimed: seq<nat>, oks: seq<bool>, now: int, n: nat, i: nat)
    requires InRange(records, claimed) && 0 < n <= |claimed| && i < |records| && i != claimed[n - 1]
    ensures Relayed(records, claimed, oks, now, n)[i] == Relayed(records, claimed, oks, now, n - 1)[i]
  {
  }

  /** Settled records are no longer PENDING, so the next relay run never claims them again. */
  lemma RelayedNotReclaimed(records: seq<OutboxRecord>, oks: seq<bool>, now: int)
    ensures var c := Claim(records);
      var after := Relayed(records, c, oks, now, |c|);
      forall i :: i in c ==> i !in Claim(after)
  {
    var c := Claim(records);
    RelaySettlesEach(records, c, oks, now, |c|);
    var after := Relayed(records, c, oks, now, |c|);
    forall i | i in c ensures i !in Claim(after) {
      var j :| 0 <= j < |c| && c[j] == i;
      assert after[i] == Settle(records[i], PublishOk(oks, j), now);
    }
  }

  /** With no PENDING records the relay changes nothing and publishes nothing. */
  lemma RelayWithoutPendingIsNoOp(records: seq<OutboxRecord>, oks: seq<bool>, now: int)
    requires forall i :: 0 <= i < |records| ==> records[i].status != Pending
    ensures var c := Claim(records);
      Relayed(records, c, oks, now, |c|) == records && SentBy(records, c, oks, |c|) == []
  {
    NoPendingNoClaim(records);
  }

  class OutboxService {
    /** The outbox collection, in insertion order. */
    var records: seq<OutboxRecord>
    /** The messages the relay handed to the producer, in order. */
    var sent: seq<Sent>

    constructor ()
      ensures records == [] && sent == []
    {
      records := [];
      sent := [];
    }

    /**
     * `createEvent(event)` at time `now`: appends one PENDING record carrying
     * the event and leaves the others alone; a record with an empty topic or
     * key fails validation and nothing is stored.
     */
    method CreateEvent(topic: string, key: string, payload: InteractionEvent, now: int) returns (ok: bool)
      modifies this
      ensures ok <==> topic != "" && key != ""
      ensures ok ==> records == old(records) + [OutboxRecord(topic, key, payload, Pending, 0, now, None)]
      ensures !ok ==> records == old(records)
      ensures sent == old(sent)
    {
      var rec := NewRecord(topic, key, payload, now);
      if rec.None? {
        return false;
      }
      records := records + [rec.value];
      ok := true;
    }

    /**
     * `processOutboxMessages()` at time `now`: claims the oldest PENDING
     * records and publishes each; `publishOk[j]` says whether the publish of
     * the `j`-th claimed record returned.
     */
    method ProcessOutboxMessages(publishOk: seq<bool>, now: int)
      modifies this
      ensures var c := Claim(old(records));
        records == Relayed(old(records), c, publishOk, now, |c|)
        && sent == old(sent) + SentBy(old(records), c, publishOk, |c|)
    {
      var messages := Claim(records);
      if |messages| == 0 {
        return;
      }
      PublishClaimed(messages, publishOk, now);
    }

    /** The relay's `for` loop over the claimed records, in claim order. */
    method PublishClaimed(messages: seq<nat>, publishOk: seq<bool>, now: int)
      requires InRange(records, messages)
      modifies this
      ensures records == Relayed(old(records), messages, publishOk, now, |messages|)
      ensures sent == old(sent) + SentBy(old(records), messages, publishOk, |messages|)
    {
      ghost var records0, sent0 := records, sent;
      for j := 0 to |messages|
        invariant |records| == |records0|
        invariant records == Relayed(records0, messages, publishOk, now, j)
        invariant sent == sent0 + SentBy(records0, messages, publishOk, j)
      {
        var msg := records[messages[j]];
        assert msg.topic == records0[messages[j]].topic && msg.key == records0[messages[j]].key
          && msg.payload == records0[messages[j]].payload by {
          RelayTouchesOnlyStatus(records0, messages, publishOk, now, j, messages[j]);
        }
        var published := PublishOk(publishOk, j);
        if published {
          sent := sent + [Sent(msg.topic, msg.key, msg.payload)];
        }
        records := records[messages[j] := Settle(msg, published, now)];
      }
    }
  }

  /** Settling changes a record's status, retries and `processedAt`, never what it carries. */
  lemma {:induction false} RelayTouchesOnlyStatus(records: seq<OutboxRecord>, claimed: seq<nat>, oks: seq<bool>, now: int, n: nat, k: nat)
    requires InRange(records, claimed) && n <= |claimed| && k < |records|
    ensures var r := Relayed(records, claimed, oks, now, n)[k];
      r.topic == records[k].topic && r.key == records[k].key && r.payload == records[k].payload
      && r.createdAt == records[k].createdAt
  {
    if n > 0 {
      RelayTouchesOnlyStatus(records, claimed, oks, now, n - 1, k);
    }
  }
}

=== FILE: post_card.dfy ===
/**
 * `stripHtml(html, max)`: the plain-text preview of a post. Tags are
 * removed, white-space runs become one space, the ends are trimmed, and a
 * text longer than `max` is cut to `max` characters followed by "...".
 */
module PostCard {
  import opened Collections
  import opened Text

  /**
   * No tag is left: a '<' is either followed directly by '>' (the pattern
   * `<[^>]+>` needs at least one character between them) or has no '>'
   * anywhere after it.
   */
  predicate NoTags(s: string) {
    forall i :: 0 <= i < |s| && s[i] == '<' ==> (i + 1 < |s| && s[i + 1] == '>') || '>' !in s[i + 1..]
  }

  /**
   * `.replace(/<[^>]+>/g, "")`: scanning left to right, a '<' starts a match
   * that runs to the first '>' after it, provided at least one character
   * lies between them; every match is removed.
   */
  function StripTags(s: string): (r: string)
    ensures |r| <= |s|
    ensures forall c :: c in r ==> c in s
    ensures s != [] && s[0] != '<' ==> r != [] && r[0] == s[0]
    ensures NoTags(r)
    decreases |s|
  {
    if s == [] then []
    else if s[0] == '<' && IndexOf(s[1..], '>') >= 1 then
      StripTags(s[IndexOf(s[1..], '>') + 2..])
    else
      var rest := StripTags(s[1..]);
      var r := [s[0]] + rest;
      assert NoTags(r) by {
        forall i | 0 <= i < |r| && r[i] == '<'
          ensures (i + 1 < |r| && r[i + 1] == '>') || '>' !in r[i + 1..]
        {
          if i == 0 {
            var k := IndexOf(s[1..], '>');
            if k == 0 {
              assert rest[0] == s[1] == '>';
            } else {
              assert '>' !in s[1..];
              assert r[1..] == rest;
            }
          } else {
            assert r[i] == rest[i - 1];
            assert r[i + 1..] == rest[i..];
          }
        }
      }
      r
  }

  /** Text without '<' holds no tag and is kept as it is. */
  lemma {:induction false} StripTagsKeepsPlainText(s: string)
    requires '<' !in s
    ensures StripTags(s) == s
  {
    if s != [] {
      StripTagsKeepsPlainText(s[1..]);
      assert [s[0]] + s[1..] == s;
    }
  }

  /**
   * Text outside a tag is kept: in front of the first '<' nothing is
   * removed, a tag `<t>` with `t` not empty and free of '>' is removed
   * whole, and the rest is stripped on its own.
   */
  lemma StripTagsKeepsText(p: string, t: string, q: string)
    requires '<' !in p && t != [] && '>' !in t
    ensures StripTags(p + "<" + t + ">" + q) == p + StripTags(q)
  {
    var u := "<" + t + ">" + q;
    assert p + "<" + t + ">" + q == p + u;
    StripTagsKeepsPrefix(p, u);
    TagRemoved(t, q);
  }

  /** Text without '<' in front of anything is kept in front of what the rest strips to. */
  lemma {:induction false} StripTagsKeepsPrefix(p: string, u: string)
    requires '<' !in p
    ensures StripTags(p + u) == p + StripTags(u)
  {
    if p == [] {
      assert p + u == u;
    } else {
      var s := p + u;
      assert s[0] == p[0] && s[1..] == p[1..] + u;
      StripTagsKeepsFirst(s);
      StripTagsKeepsPrefix(p[1..], u);
      assert [p[0]] + (p[1..] + StripTags(u)) == p + StripTags(u);
    }
  }

  /** A tag at the front is removed whole. */
  lemma TagRemoved(t: string, q: string)
    requires t != [] && '>' !in t
    ensures StripTags("<" + t + ">" + q) == StripTags(q)
  {
    var s := "<" + t + ">" + q;
    assert s[1..] == t + ">" + q;
    TagCloseFound(t, q);
    assert s[|t| + 2..] == q;
  }

  /** A first character other than '<' is kept. */
  lemma StripTagsKeepsFirst(s: string)
    requires s != [] && s[0] != '<'
    ensures StripTags(s) == [s[0]] + StripTags(s[1..])
  {
  }

  /** The first '>' after a tag's opening '<' is the one that closes it. */
  lemma TagCloseFound(t: string, q: string)
    requires '>' !in t
    ensures IndexOf(t + ">" + q, '>') == |t|
  {
    var u := t + ">" + q;
    assert u[..|t|] == t;
    assert u[|t|] == '>';
  }

  /** The non-white-space characters of `s`, in their order. */
  function NonSpaces(s: string): (r: string)
    ensures |r| <= |s|
  {
    if s == [] then []
    else (if IsSpace(s[0]) then [] else [s[0]]) + NonSpaces(s[1..])
  }

  lemma {:induction false} NonSpacesAppend(a: string, b: string)
    ensures NonSpaces(a + b) == NonSpaces(a) + NonSpaces(b)
  {
    if a == [] {
      assert a + b == b;
    } else {
      NonSpacesAppend(a[1..], b);
      var x := if IsSpace(a[0]) then [] else [a[0]];
      assert (a + b)[0] == a[0] && (a + b)[1..] == a[1..] + b;
      assert NonSpaces(a + b) == x + NonSpaces(a[1..] + b);
      AppendAssoc(x, NonSpaces(a[1..]), NonSpaces(b));
    }
  }

  lemma {:induction false} NonSpacesOfSpace(a: string)
    requires AllSpace(a)
    ensures NonSpaces(a) == []
  {
    if a != [] {
      NonSpacesOfSpace(a[1..]);
    }
  }

  /** No two white-space characters stand next to each other. */
  predicate NoDoubleSpace(s: string) {
    forall i :: 0 <= i < |s| - 1 ==> !(IsSpace(s[i]) && IsSpace(s[i + 1]))
  }

  /** `.replace(/\s+/g, " ")`: every run of white space becomes one ' '. */
  function CollapseSpaces(s: string): (r: string)
    ensures |r| <= |s| && (r == [] <==> s == [])
    ensures s != [] && !IsSpace(s[0]) ==> r[0] == s[0]
    ensures forall i :: 0 <= i < |r| && IsSpace(r[i]) ==> r[i] == ' '
    ensures NoDoubleSpace(r)
    decreases |s|
  {
    if s == [] then []
    else if IsSpace(s[0]) then
      var n := LeadingSpaces(s);
      var rest := CollapseSpaces(s[n..]);
      assert n == |s| || !IsSpace(s[n..][0]);
      [' '] + rest
    else
      [s[0]] + CollapseSpaces(s[1..])
  }

  /** Collapsing white space keeps every other character, in its order. */
  lemma {:induction false} CollapseKeepsNonSpaces(s: string)
    ensures NonSpaces(CollapseSpaces(s)) == NonSpaces(s)
    decreases |s|
  {
    if s != [] {
      if IsSpace(s[0]) {
        var n := LeadingSpaces(s);
        CollapseKeepsNonSpaces(s[n..]);
        assert s == s[..n] + s[n..];
        NonSpacesAppend(s[..n], s[n..]);
        NonSpacesOfSpace(s[..n]);
        NonSpacesAppend([' '], CollapseSpaces(s[n..]));
      } else {
        CollapseKeepsNonSpaces(s[1..]);
        NonSpacesAppend([s[0]], CollapseSpaces(s[1..]));
      }
    }
  }

  /** Trimming drops white space only. */
  lemma TrimKeepsNonSpaces(c: string)
    ensures NonSpaces(Trim(c)) == NonSpaces(c)
  {
    TrimSlice(c);
    var i, j :| 0 <= i <= j <= |c| && Trim(c) == c[i..j] && AllSpace(c[..i]) && AllSpace(c[j..]);
    NonSpacesBetweenSpace(c, i, j);
  }

  /** Cutting white space off both ends keeps the non-space characters. */
  lemma NonSpacesBetweenSpace(c: string, i: nat, j: nat)
    requires i <= j <= |c| && AllSpace(c[..i]) && AllSpace(c[j..])
    ensures NonSpaces(c[i..j]) == NonSpaces(c)
  {
    SliceThree(c, i, j);
    NonSpacesAppend(c[..i] + c[i..j], c[j..]);
    NonSpacesAppend(c[..i], c[i..j]);
    NonSpacesOfSpace(c[..i]);
    NonSpacesOfSpace(c[j..]);
  }

  /**
   * The cleaned text before truncation: tags gone, spaces collapsed, ends
   * trimmed; every character that survives the tag removal and is not white
   * space is still there, in its order.
   */
  function CleanText(html: string): (t: string)
    ensures t == [] || (!IsSpace(t[0]) && !IsSpace(t[|t| - 1]))
    ensures NoDoubleSpace(t)
    ensures forall i :: 0 <= i < |t| && IsSpace(t[i]) ==> t[i] == ' '
    ensures NonSpaces(t) == NonSpaces(StripTags(html))
    ensures '<' !in html ==> NonSpaces(t) == NonSpaces(html)
  {
    var c := CollapseSpaces(StripTags(html));
    var t := Trim(c);
    TrimKeepsShape(c);
    TrimKeepsNonSpaces(c);
    CollapseKeepsNonSpaces(StripTags(html));
    if '<' !in html then StripTagsKeepsPlainText(html); t else t
  }

  /** The text around a tag survives the cleaning: "<b>" between two words leaves both. */
  lemma CleanTextKeepsWordsAroundTag(p: string, t: string, q: string)
    requires '<' !in p && '<' !in q && t != [] && '>' !in t
    ensures NonSpaces(CleanText(p + "<" + t + ">" + q)) == NonSpaces(p + q)
  {
    StripTagsKeepsText(p, t, q);
    StripTagsKeepsPlainText(q);
  }

  /** Trimming a collapsed text keeps it collapsed. */
  lemma TrimKeepsShape(c: string)
    requires NoDoubleSpace(c)
    requires forall i :: 0 <= i < |c| && IsSpace(c[i]) ==> c[i] == ' '
    ensures NoDoubleSpace(Trim(c))
    ensures forall i :: 0 <= i < |Trim(c)| && IsSpace(Trim(c)[i]) ==> Trim(c)[i] == ' '
  {
    TrimSlice(c);
    var i, j :| 0 <= i <= j <= |c| && Trim(c) == c[i..j] && AllSpace(c[..i]) && AllSpace(c[j..]);
    var t := Trim(c);
    forall k | 0 <= k < |t| ensures t[k] == c[i + k] {
    }
  }

  const DEFAULT_MAX: nat := 220

  /** `stripHtml(html, max)`. */
  function StripHtml(html: string, max: nat := DEFAULT_MAX): (r: string)
    ensures |r| <= max + 3
    ensures |CleanText(html)| <= max ==> r == CleanText(html)
    ensures |CleanText(html)| > max ==> |r| == max + 3 && r[..max] == CleanText(html)[..max] && r[max..] == "..."
  {
    var txt := CleanText(html);
    if |txt| > max then txt[..max] + "..." else txt
  }

  /** Both tags of "<b>x</b>" are removed, leaving "x". */
  lemma StripHtmlExample()
    ensures StripTags("<b>x</b>") == "x"
  {
    OpeningTagRemoved();
    TextKept();
    ClosingTagRemoved();
  }

  lemma OpeningTagRemoved()
    ensures StripTags("<b>x</b>") == StripTags("x</b>")
  {
    var s := "<b>x</b>";
    assert s[1..] == "b>x</b>";
    assert IndexOf(s[1..], '>') == 1;
    assert s[3..] == "x</b>";
  }

  lemma TextKept()
    ensures StripTags("x</b>") == "x" + StripTags("</b>")
  {
    assert "x</b>"[0] == 'x' && "x</b>"[1..] == "</b>";
  }

  lemma ClosingTagRemoved()
    ensures StripTags("</b>") == ""
  {
    assert "</b>"[1..] == "/b>";
    assert IndexOf("/b>", '>') == 2;
    assert "</b>"[4..] == "";
  }
}

=== FILE: rbac.dfy ===
/**
 * `rbacMiddleware(requiredRoles)`: the access decision for a route that
 * needs one of `requiredRoles`.
 */
module Rbac {
  import opened Wrappers
  import opened Constants
  import opened ApiErrors

  /** What the middleware hands to `next`: nothing (go on) or an error. */
  datatype Decision = Proceed | Refuse(error: ApiError)

  const AUTH_REQUIRED: ApiError := ApiError(UNAUTHORIZED, "Authentication required")
  const NO_PERMISSION: ApiError := ApiError(FORBIDDEN, "Forbidden: You do not have permission to perform this action")

  /** `requiredRoles.some(role => userRoles.includes(role))`. */
  function HasRequiredRole(requiredRoles: seq<UserRole>, userRoles: seq<UserRole>): (b: bool)
    ensures b <==> exists i :: 0 <= i < |requiredRoles| && requiredRoles[i] in userRoles
  {
    if requiredRoles == [] then false
    else if requiredRoles[0] in userRoles then true
    else
      var b := HasRequiredRole(requiredRoles[1..], userRoles);
      assert b <==> exists i :: 1 <= i < |requiredRoles| && requiredRoles[i] in userRoles by {
        if b {
          var j :| 0 <= j < |requiredRoles[1..]| && requiredRoles[1..][j] in userRoles;
          assert requiredRoles[j + 1] in userRoles;
        }
        if exists i :: 1 <= i < |requiredRoles| && requiredRoles[i] in userRoles {
          var i :| 1 <= i < |requiredRoles| && requiredRoles[i] in userRoles;
          assert requiredRoles[1..][i - 1] in userRoles;
        }
      }
      b
  }

  /**
   * The decision for a request whose authenticated user has `userRoles`
   * (none when the request is anonymous).
   */
  function Authorize(requiredRoles: seq<UserRole>, userRoles: Option<seq<UserRole>>): (d: Decision)
    ensures userRoles.None? ==> d == Refuse(AUTH_REQUIRED)
    ensures userRoles.Some? ==>
      (d == Proceed <==> exists role :: role in requiredRoles && role in userRoles.value)
    ensures userRoles.Some? && d != Proceed ==> d == Refuse(NO_PERMISSION)
  {
    if userRoles.None? then Refuse(AUTH_REQUIRED)
    else if !HasRequiredRole(requiredRoles, userRoles.value) then Refuse(NO_PERMISSION)
    else Proceed
  }

  /** A route that requires no role admits nobody, and an admin route admits exactly admins. */
  lemma RoleDecisions(userRoles: seq<UserRole>)
    ensures Authorize([], Some(userRoles)) == Refuse(NO_PERMISSION)
    ensures Authorize([Admin], Some(userRoles)) == Proceed <==> Admin in userRoles
  {
    if Admin in userRoles {
      assert [Admin][0] in userRoles;
    }
  }

  /** Adding required roles never turns an admitted user away. */
  lemma MoreRolesAdmitMore(required: seq<UserRole>, extra: seq<UserRole>, userRoles: seq<UserRole>)
    requires Authorize(required, Some(userRoles)) == Proceed
    ensures Authorize(required + extra, Some(userRoles)) == Proceed
  {
    var role :| role in required && role in userRoles;
    assert role in required + extra;
  }
}

=== FILE: text.dfy ===
/**
 * The JavaScript string operations the core relies on, over `string`:
 * `split` on a one-character separator, `join`, `trim`, `slice`, `indexOf`,
 * `lastIndexOf` and `startsWith`. A `char` is one Unicode character, where
 * JavaScript counts UTF-16 code units; the two agree for text inside the
 * Basic Multilingual Plane.
 */
module Text {

  /**
   * The characters JavaScript's `trim` and the regex class `\s` treat as
   * white space: tab, line feed, vertical tab, form feed, carriage return,
   * space, no-break space, the Unicode space separators, the line and
   * paragraph separators, and the byte order mark.
   */
  predicate IsSpace(c: char) {
    var n := c as int;
    || 0x09 <= n <= 0x0D
    || n == 0x20
    || n == 0xA0
    || n == 0x1680
    || 0x2000 <= n <= 0x200A
    || n == 0x2028 || n == 0x2029
    || n == 0x202F
    || n == 0x205F
    || n == 0x3000
    || n == 0xFEFF
  }

  predicate AllSpace(s: string) {
    forall i :: 0 <= i < |s| ==> IsSpace(s[i])
  }

  // ---------------------------------------------------------------- split / join

  /** `s.split(sep)` for a one-character separator. */
  function Split(s: string, sep: char): (r: seq<string>)
    ensures |r| >= 1
    ensures forall i :: 0 <= i < |r| ==> sep !in r[i]
  {
    if s == [] then [""]
    else
      var rest := Split(s[1..], sep);
      if s[0] == sep then [""] + rest
      else [[s[0]] + rest[0]] + rest[1..]
  }

  /** `parts.join(sep)`. */
  function Join(parts: seq<string>, sep: char): string {
    if parts == [] then ""
    else if |parts| == 1 then parts[0]
    else parts[0] + [sep] + Join(parts[1..], sep)
  }

  /** Joining the pieces of a split gives back the original string. */
  lemma {:induction false} JoinSplit(s: string, sep: char)
    ensures Join(Split(s, sep), sep) == s
  {
    if s != [] {
      var rest := Split(s[1..], sep);
      JoinSplit(s[1..], sep);
      if s[0] == sep {
        assert Split(s, sep) == [""] + rest;
        assert ([""] + rest)[1..] == rest;
      } else {
        var parts := [[s[0]] + rest[0]] + rest[1..];
        assert Split(s, sep) == parts;
        if |rest| == 1 {
          assert parts == [[s[0]] + rest[0]];
        } else {
          assert parts[1..] == rest[1..];
          assert Join(rest, sep) == rest[0] + [sep] + Join(rest[1..], sep);
        }
      }
    }
  }

  /** Splitting a join of separator-free pieces gives back the pieces. */
  lemma {:induction false} SplitJoin(parts: seq<string>, sep: char)
    requires |parts| >= 1
    requires forall i :: 0 <= i < |parts| ==> sep !in parts[i]
    ensures Split(Join(parts, sep), sep) == parts
  {
    if |parts| == 1 {
      SplitNoSep(parts[0], sep);
    } else {
      SplitJoin(parts[1..], sep);
      SplitAfter(parts[0], Join(parts[1..], sep), sep);
      assert [parts[0]] + parts[1..] == parts;
    }
  }

  /** A string without the separator splits into itself. */
  lemma {:induction false} SplitNoSep(s: string, sep: char)
    requires sep !in s
    ensures Split(s, sep) == [s]
  {
    if s != [] {
      SplitNoSep(s[1..], sep);
      assert s[0] != sep;
      assert [s[0]] + s[1..] == s;
    }
  }

  /** Splitting `a + [sep] + b`, where `a` has no separator, puts `a` in front of the split of `b`. */
  lemma {:induction false} SplitAfter(a: string, b: string, sep: char)
    requires sep !in a
    ensures Split(a + [sep] + b, sep) == [a] + Split(b, sep)
  {
    if a == [] {
      assert a + [sep] + b == [sep] + b;
      assert ([sep] + b)[1..] == b;
    } else {
      SplitAfter(a[1..], b, sep);
      assert (a + [sep] + b)[1..] == a[1..] + [sep] + b;
      assert [a[0]] + a[1..] == a;
    }
  }

  // ---------------------------------------------------------------- trim

  /** Number of white-space characters at the start of `s`. */
  function LeadingSpaces(s: string): (n: nat)
    ensures n <= |s|
    ensures AllSpace(s[..n])
    ensures n == |s| || !IsSpace(s[n])
  {
    if s == [] || !IsSpace(s[0]) then 0
    else
      var n := 1 + LeadingSpaces(s[1..]);
      assert s[..n] == [s[0]] + s[1..][..n - 1];
      n
  }

  /** Number of white-space characters at the end of `s`. */
  function TrailingSpaces(s: string): (n: nat)
    ensures n <= |s|
    ensures AllSpace(s[|s| - n..])
    ensures n == |s| || !IsSpace(s[|s| - n - 1])
  {
    if s == [] || !IsSpace(s[|s| - 1]) then 0
    else
      var n := 1 + TrailingSpaces(s[..|s| - 1]);
      assert s[|s| - n..] == s[..|s| - 1][|s| - n..] + [s[|s| - 1]];
      n
  }

  /** `s.trim()`: the part of `s` between its leading and its trailing white space. */
  function Trim(s: string): (r: string)
    ensures |r| <= |s|
    ensures r == [] || (!IsSpace(r[0]) && !IsSpace(r[|r| - 1]))
  {
    var i := LeadingSpaces(s);
    if i == |s| then []
    else
      var k := TrailingSpaces(s);
      s[i..|s| - k]
  }

  /** White space alone trims to nothing. */
  lemma TrimOfSpace(s: string)
    requires AllSpace(s)
    ensures Trim(s) == ""
  {
  }

  /** What `Trim` keeps is a slice of `s` with only white space cut off either side. */
  lemma TrimSlice(s: string)
    ensures exists i, j :: 0 <= i <= j <= |s| && Trim(s) == s[i..j] && AllSpace(s[..i]) && AllSpace(s[j..])
  {
    var i := LeadingSpaces(s);
    if i == |s| {
      assert Trim(s) == s[|s|..|s|] && AllSpace(s[..|s|]) && AllSpace(s[|s|..]);
    } else {
      var j := |s| - TrailingSpaces(s);
      assert 0 <= i <= j <= |s| && Trim(s) == s[i..j] && AllSpace(s[..i]) && AllSpace(s[j..]);
    }
  }

  // ---------------------------------------------------------------- slice / search

  /** `s.slice(a, b)` for non-negative positions: both are clamped to the length. */
  function Slice(s: string, a: nat, b: nat): (r: string)
    ensures a <= b <= |s| ==> r == s[a..b]
    ensures |r| <= |s|
  {
    var a' := if a < |s| then a else |s|;
    var b' := if b < |s| then b else |s|;
    if b' <= a' then "" else s[a'..b']
  }

  /** `s.indexOf(c)`: the first position of `c`, or -1. */
  function IndexOf(s: string, c: char): (r: int)
    ensures -1 <= r < |s|
    ensures r == -1 <==> c !in s
    ensures r >= 0 ==> s[r] == c && c !in s[..r]
  {
    if s == [] then -1
    else if s[0] == c then 0
    else
      var k := IndexOf(s[1..], c);
      if k == -1 then -1
      else
        assert s[..k + 1] == [s[0]] + s[1..][..k];
        k + 1
  }

  /** `s.lastIndexOf(c)`: the last position of `c`, or -1. */
  function LastIndexOf(s: string, c: char): (r: int)
    ensures -1 <= r < |s|
    ensures r == -1 <==> c !in s
    ensures r >= 0 ==> s[r] == c && c !in s[r + 1..]
  {
    if s == [] then -1
    else if s[|s| - 1] == c then |s| - 1
    else
      var k := LastIndexOf(s[..|s| - 1], c);
      if k == -1 then
        assert s == s[..|s| - 1] + [s[|s| - 1]];
        -1
      else
        assert s[k + 1..] == s[..|s| - 1][k + 1..] + [s[|s| - 1]];
        k
  }

  /** `s.startsWith(p)`. */
  predicate StartsWith(s: string, p: string) {
    |p| <= |s| && s[..|p|] == p
  }
}

=== FILE: transform_tags.dfy ===
/**
 * `transformTags`: a request whose `tags` field is a string gets it replaced
 * by the comma-separated pieces, trimmed, without the empty ones; any other
 * `tags` value (an array, a number, no field at all) is left as it is.
 */
module TransformTags {
  import opened Collections
  import opened Text

  /** The `tags` field of a request body. */
  datatype TagsField = Missing | Joined(s: string) | Listed(items: seq<string>)

  /** A tag as the middleware leaves it: not empty and with no white space at either end. */
  predicate Clean(t: string) {
    t != [] && !IsSpace(t[0]) && !IsSpace(t[|t| - 1])
  }

  /** `.map(tag => tag.trim()).filter(tag => tag.length > 0)` over the pieces. */
  function TrimmedNonEmpty(parts: seq<string>): (r: seq<string>)
    ensures |r| <= |parts|
  {
    if parts == [] then []
    else
      var t := Trim(parts[0]);
      (if t != "" then [t] else []) + TrimmedNonEmpty(parts[1..])
  }

  /** No resulting tag is empty or has white space at either end. */
  lemma {:induction false} TrimmedNonEmptyClean(parts: seq<string>)
    ensures forall i :: 0 <= i < |TrimmedNonEmpty(parts)| ==> Clean(TrimmedNonEmpty(parts)[i])
  {
    if parts != [] {
      TrimmedNonEmptyClean(parts[1..]);
    }
  }

  /** The tags a comma-separated string becomes. */
  function NormalizeTags(s: string): (r: seq<string>)
    ensures forall i :: 0 <= i < |r| ==> Clean(r[i]) && ',' !in r[i]
  {
    var parts := Split(s, ',');
    CommaFreeAfterTrim(parts);
    TrimmedNonEmptyClean(parts);
    TrimmedNonEmpty(parts)
  }

  /** Trimming keeps a piece free of commas. */
  lemma {:induction false} CommaFreeAfterTrim(parts: seq<string>)
    requires forall i :: 0 <= i < |parts| ==> ',' !in parts[i]
    ensures forall i :: 0 <= i < |TrimmedNonEmpty(parts)| ==> ',' !in TrimmedNonEmpty(parts)[i]
  {
    if parts != [] {
      CommaFreeAfterTrim(parts[1..]);
      var t := Trim(parts[0]);
      TrimSlice(parts[0]);
      assert forall c :: c in t ==> c in parts[0];
    }
  }

  /** A clean tag is its own trim. */
  lemma TrimClean(t: string)
    requires Clean(t)
    ensures Trim(t) == t
  {
    assert LeadingSpaces(t) == 0;
    assert TrailingSpaces(t) == 0;
  }

  /** Clean pieces pass the trim-and-filter unchanged, in their order. */
  lemma {:induction false} TrimmedNonEmptyKeepsClean(parts: seq<string>)
    requires forall i :: 0 <= i < |parts| ==> Clean(parts[i])
    ensures TrimmedNonEmpty(parts) == parts
  {
    if parts != [] {
      TrimClean(parts[0]);
      TrimmedNonEmptyKeepsClean(parts[1..]);
    }
  }

  /**
   * The tags are the comma-separated pieces in their order: a list of clean,
   * comma-free tags joined with ',' comes back as the same list.
   */
  lemma NormalizeJoinedTags(tags: seq<string>)
    requires forall i :: 0 <= i < |tags| ==> Clean(tags[i]) && ',' !in tags[i]
    ensures NormalizeTags(Join(tags, ',')) == tags
  {
    if tags == [] {
      // "" splits into [""], whose one piece is dropped as empty
      assert Split("", ',') == [""];
      assert Trim("") == "";
    } else {
      SplitJoin(tags, ',');
      TrimmedNonEmptyKeepsClean(tags);
    }
  }

  /** Trimming and dropping empties distribute over the pieces: the order of the input is kept. */
  lemma {:induction false} TrimmedNonEmptyAppend(a: seq<string>, b: seq<string>)
    ensures TrimmedNonEmpty(a + b) == TrimmedNonEmpty(a) + TrimmedNonEmpty(b)
  {
    if a == [] {
      assert a + b == b;
    } else {
      AppendTail(a, b);
      TrimmedNonEmptyAppend(a[1..], b);
      TrimmedNonEmptyCons(a);
      TrimmedNonEmptyCons(a + b);
      AppendAssoc(TrimmedNonEmpty([a[0]]), TrimmedNonEmpty(a[1..]), TrimmedNonEmpty(b));
    }
  }

  /** The first piece contributes what it alone would. */
  lemma TrimmedNonEmptyCons(parts: seq<string>)
    requires parts != []
    ensures TrimmedNonEmpty(parts) == TrimmedNonEmpty([parts[0]]) + TrimmedNonEmpty(parts[1..])
  {
    assert [parts[0]][1..] == [];
  }

  /** The request body a request carries, and how many times the middleware handed it on. */
  class TagsRequest {
    var tags: TagsField
    var nextCalls: nat

    constructor (tags: TagsField)
      ensures this.tags == tags && nextCalls == 0
    {
      this.tags := tags;
      nextCalls := 0;
    }

    /**
     * The middleware: a string field becomes the normalised list; anything
     * else is untouched; `next()` is called exactly once either way.
     */
    method TransformTags()
      modifies this
      ensures old(tags).Joined? ==> tags == Listed(NormalizeTags(old(tags).s))
      ensures !old(tags).Joined? ==> tags == old(tags)
      ensures nextCalls == old(nextCalls) + 1
    {
      if tags.Joined? {
        tags := Listed(NormalizeTags(tags.s));
      }
      nextCalls := nextCalls + 1;
    }
  }
}

=== FILE: trending.dfy ===
/**
 * The trending score engine: one Redis sorted set per trending window,
 * keyed `trending:<window>`, each mapping a blog id to its score.
 */
module Trending {
  import opened Collections
  import opened Wrappers
  import opened Constants

  /** The keys of INTERACTION_SCORES. */
  datatype ScoreKind = LikeScore | ViewScore | CommentScore

  /** INTERACTION_SCORES: like 2, view 1, comment 5. */
  function Weight(k: ScoreKind): int {
    match k
    case LikeScore => 2
    case ViewScore => 1
    case CommentScore => 5
  }

  /** Every interaction weighs at least 1, so no interaction lowers a score. */
  lemma WeightsPositive(k: ScoreKind)
    ensures Weight(k) >= 1
  {
  }

  /** A sorted set: member to score. */
  type SortedSet = map<string, int>

  /** ZSCORE, with an absent member read as 0 (what ZINCRBY starts from). */
  function ScoreOf(z: SortedSet, m: string): int {
    if m in z then z[m] else 0
  }

  /** ZINCRBY: adds `d` to the member's score, creating it if absent. */
  function IncrBy(z: SortedSet, m: string, d: int): (r: SortedSet)
    ensures r.Keys == z.Keys + {m}
    ensures r[m] == ScoreOf(z, m) + d
    ensures forall x :: x in z && x != m ==> r[x] == z[x]
  {
    z[m := ScoreOf(z, m) + d]
  }

  /** The sorted set stored under `key`; a missing key reads as the empty set. */
  function SetAt(sets: map<string, SortedSet>, key: string): SortedSet {
    if key in sets then sets[key] else map[]
  }

  /** `trending:${window}` */
  function RedisKey(window: string): string {
    "trending:" + window
  }

  /** The Redis key of the `i`-th trending window. */
  function WindowKey(i: nat): string
    requires i < |TRENDING_WINDOWS|
  {
    RedisKey(TRENDING_WINDOWS[i].0)
  }

  /** The keys of all trending windows: `trending:24h` and `trending:7d`, two different keys. */
  function WindowKeys(): (ks: set<string>)
    ensures ks == {RedisKey("24h"), RedisKey("7d")}
    ensures RedisKey("24h") != RedisKey("7d")
  {
    assert WindowKey(0) == RedisKey("24h") && WindowKey(1) == RedisKey("7d");
    assert |RedisKey("24h")| != |RedisKey("7d")|;
    var ks := set i | 0 <= i < |TRENDING_WINDOWS| :: WindowKey(i);
    assert ks == {WindowKey(0), WindowKey(1)} by {
      forall k | k in ks ensures k in {WindowKey(0), WindowKey(1)} {
        var i :| 0 <= i < 2 && k == WindowKey(i);
      }
    }
    ks
  }

  /** `Math.ceil(ms / 1000)`, for any integer `ms`. */
  function CeilSeconds(ms: int): (s: int)
    ensures s * 1000 >= ms
    ensures (s - 1) * 1000 < ms
  {
    -((-ms) / 1000)
  }

  /** The TTL (seconds) an EXPIRE gives each window's key: 86400 and 604800. */
  function WindowTtls(): (t: map<string, int>)
    ensures t.Keys == WindowKeys()
    ensures t == map[RedisKey("24h") := 86400, RedisKey("7d") := 604800]
  {
    map[RedisKey("24h") := CeilSeconds(DAY_MS), RedisKey("7d") := CeilSeconds(7 * DAY_MS)]
  }

  /** The TTLs after the EXPIREs of the first `n` iterations of the window loop. */
  function TtlsBefore(ttl: map<string, int>, n: nat): map<string, int>
    requires n <= |TRENDING_WINDOWS|
  {
    if n == 0 then ttl
    else TtlsBefore(ttl, n - 1)[WindowKey(n - 1) := CeilSeconds(TRENDING_WINDOWS[n - 1].1)]
  }

  /** The sorted sets after the ZINCRBYs of the first `n` iterations of the window loop. */
  function BumpedBefore(sets: map<string, SortedSet>, blogId: string, d: int, n: nat): map<string, SortedSet>
    requires n <= |TRENDING_WINDOWS|
  {
    if n == 0 then sets
    else
      var s := BumpedBefore(sets, blogId, d, n - 1);
      s[WindowKey(n - 1) := IncrBy(SetAt(s, WindowKey(n - 1)), blogId, d)]
  }

  /** The sorted sets after one `incrementScore(blogId, _, _)` whose score is `d`. */
  function Bumped(sets: map<string, SortedSet>, blogId: string, d: int): (r: map<string, SortedSet>)
    ensures r.Keys == sets.Keys + WindowKeys()
    ensures forall w :: w in WindowKeys() ==> r[w] == IncrBy(SetAt(sets, w), blogId, d)
    ensures forall w :: w in sets && w !in WindowKeys() ==> r[w] == sets[w]
  {
    var k24, k7 := RedisKey("24h"), RedisKey("7d");
    sets[k24 := IncrBy(SetAt(sets, k24), blogId, d)][k7 := IncrBy(SetAt(sets, k7), blogId, d)]
  }

  /** The window loop, run to the end, performs exactly the increment `Bumped` describes. */
  lemma BumpedByLoop(sets: map<string, SortedSet>, blogId: string, d: int)
    ensures BumpedBefore(sets, blogId, d, |TRENDING_WINDOWS|) == Bumped(sets, blogId, d)
  {
    var k0, k1 := WindowKey(0), WindowKey(1);
    assert WindowKeys() == {k0, k1} && k0 != k1;
    var s1 := sets[k0 := IncrBy(SetAt(sets, k0), blogId, d)];
    assert SetAt(s1, k1) == SetAt(sets, k1);
    assert BumpedBefore(sets, blogId, d, 1) == s1;
    var r := s1[k1 := IncrBy(SetAt(s1, k1), blogId, d)];
    assert BumpedBefore(sets, blogId, d, 2) == r;
    var t := Bumped(sets, blogId, d);
    assert r.Keys == t.Keys;
  }

  /** The window loop, run to the end, resets exactly the TTLs `WindowTtls` describes. */
  lemma TtlsByLoop(ttl: map<string, int>)
    ensures TtlsBefore(ttl, |TRENDING_WINDOWS|) == ttl + WindowTtls()
  {
    var k0, k1 := WindowKey(0), WindowKey(1);
    assert CeilSeconds(TRENDING_WINDOWS[0].1) == 86400 && CeilSeconds(TRENDING_WINDOWS[1].1) == 604800;
    assert TtlsBefore(ttl, 1) == ttl[k0 := 86400];
    assert TtlsBefore(ttl, 2) == ttl[k0 := 86400][k1 := 604800];
    assert k0 == RedisKey("24h") && k1 == RedisKey("7d");
  }

  /** Two increments of one member add up. */
  lemma IncrByTwice(z: SortedSet, m: string, d: int, e: int)
    ensures IncrBy(IncrBy(z, m, d), m, e) == IncrBy(z, m, d + e)
  {
    var r, t := IncrBy(IncrBy(z, m, d), m, e), IncrBy(z, m, d + e);
    assert r.Keys == t.Keys;
  }

  /** Two `incrementScore` calls for one blog add up. */
  lemma BumpedTwice(sets: map<string, SortedSet>, blogId: string, d: int, e: int)
    ensures Bumped(Bumped(sets, blogId, d), blogId, e) == Bumped(sets, blogId, d + e)
  {
    var k24, k7 := RedisKey("24h"), RedisKey("7d");
    var z24, z7 := SetAt(sets, k24), SetAt(sets, k7);
    var once := Bumped(sets, blogId, d);
    assert k24 != k7;
    assert SetAt(once, k24) == IncrBy(z24, blogId, d) && SetAt(once, k7) == IncrBy(z7, blogId, d);
    IncrByTwice(z24, blogId, d, e);
    IncrByTwice(z7, blogId, d, e);
    UpdatePairTwice(sets, k24, k7, IncrBy(z24, blogId, d), IncrBy(z7, blogId, d),
      IncrBy(z24, blogId, d + e), IncrBy(z7, blogId, d + e));
  }

  /** With a non-negative score, no member of any set loses score. */
  lemma BumpedNeverDecreases(sets: map<string, SortedSet>, blogId: string, d: int, w: string, m: string)
    requires d >= 0
    ensures ScoreOf(SetAt(Bumped(sets, blogId, d), w), m) >= ScoreOf(SetAt(sets, w), m)
  {
  }

  /** Every score of every set is non-negative. */
  ghost predicate NonNegative(sets: map<string, SortedSet>) {
    forall w, m :: w in sets && m in sets[w] ==> sets[w][m] >= 0
  }

  /** Non-negative increments keep every score non-negative. */
  lemma BumpedKeepsNonNegative(sets: map<string, SortedSet>, blogId: string, d: int)
    requires NonNegative(sets) && d >= 0
    ensures NonNegative(Bumped(sets, blogId, d))
  {
    var r := Bumped(sets, blogId, d);
    forall w, m | w in r && m in r[w] ensures r[w][m] >= 0 {
      if w in WindowKeys() {
        IncrByKeepsNonNegative(SetAt(sets, w), blogId, d, m);
      } else {
        assert r[w] == sets[w];
      }
    }
  }

  lemma IncrByKeepsNonNegative(z: SortedSet, blogId: string, d: int, m: string)
    requires forall x :: x in z ==> z[x] >= 0
    requires d >= 0 && m in IncrBy(z, blogId, d)
    ensures IncrBy(z, blogId, d)[m] >= 0
  {
  }

  // ---------------------------------------------------------------- reading a window

  /** A non-empty sorted set has a member with the highest score. */
  lemma HasTop(z: SortedSet)
    requires |z| > 0
    ensures exists k :: k in z && forall j :: j in z ==> z[j] <= z[k]
  {
    var x :| x in z;
    TopAmong(z, z.Keys);
  }

  /** Among any non-empty set of members, one has the highest score. */
  lemma {:induction false} TopAmong(z: SortedSet, ks: set<string>)
    requires ks != {} && ks <= z.Keys
    ensures exists k :: k in ks && forall j :: j in ks ==> z[j] <= z[k]
    decreases |ks|
  {
    var x :| x in ks;
    var rest := ks - {x};
    if rest == {} {
      assert ks == {x};
    } else {
      TopAmong(z, rest);
      var k :| k in rest && forall j :: j in rest ==> z[j] <= z[k];
      if z[x] > z[k] {
        forall j | j in ks ensures z[j] <= z[x] {
          if j != x { assert j in rest; }
        }
      } else {
        forall j | j in ks ensures z[j] <= z[k] {
          if j != x { assert j in rest; }
        }
      }
    }
  }

  /** No id occurs twice. */
  ghost predicate Distinct(r: seq<string>) {
    forall i, j :: 0 <= i < j < |r| ==> r[i] != r[j]
  }

  /** `r` lists members of `z` with non-increasing scores. */
  ghost predicate RanksDown(z: SortedSet, r: seq<string>) {
    && (forall i :: 0 <= i < |r| ==> r[i] in z)
    && (forall i, j :: 0 <= i < j < |r| ==> z[r[i]] >= z[r[j]])
  }

  /** Putting a top member in front of a ranking of the other members ranks the whole set. */
  lemma RankCons(z: SortedSet, k: string, tail: seq<string>)
    requires k in z && forall j :: j in z ==> z[j] <= z[k]
    requires Distinct(tail) && RanksDown(z - {k}, tail)
    ensures Distinct([k] + tail) && RanksDown(z, [k] + tail)
  {
    var r := [k] + tail;
    forall i | 0 <= i < |r| ensures r[i] in z && (i > 0 ==> r[i] != k) {
      if i > 0 { assert r[i] == tail[i - 1] && tail[i - 1] in z - {k}; }
    }
    forall i, j | 0 <= i < j < |r| ensures r[i] != r[j] && z[r[i]] >= z[r[j]] {
      if i > 0 {
        assert r[i] == tail[i - 1] && r[j] == tail[j - 1];
        assert (z - {k})[tail[i - 1]] >= (z - {k})[tail[j - 1]];
      }
    }
  }

  /**
   * All members of a sorted set from the highest score down (ZRANGE ... REV
   * over the whole set). Among equal scores the order is left open.
   */
  ghost function Ranked(z: SortedSet): (r: seq<string>)
    ensures |r| == |z|
    ensures forall k :: k in z ==> k in r
    ensures Distinct(r) && RanksDown(z, r)
    decreases |z|
  {
    if |z| == 0 then []
    else
      HasTop(z);
      var k :| k in z && forall j :: j in z ==> z[j] <= z[k];
      var rest := z - {k};
      assert |rest| == |z| - 1;
      var tail := Ranked(rest);
      RankCons(z, k, tail);
      assert forall m :: m in z && m != k ==> m in rest;
      [k] + tail
  }

  /**
   * How many members ZRANGE key 0 (limit - 1) REV returns from a set of `n`:
   * a negative stop index counts from the end, a stop past the end is clamped.
   */
  function RangeCount(n: nat, limit: int): (c: nat)
    ensures c <= n
  {
    var stop := if limit - 1 < 0 then n + (limit - 1) else limit - 1;
    var stop' := if stop >= n then n - 1 else stop;
    if n == 0 || stop' < 0 then 0 else stop' + 1
  }

  /** A prefix of a ranking is a ranking whose omitted members score no higher than its last. */
  lemma RankPrefix(z: SortedSet, all: seq<string>, c: nat)
    requires c <= |all| && Distinct(all) && RanksDown(z, all)
    requires forall k :: k in z ==> k in all
    ensures Distinct(all[..c]) && RanksDown(z, all[..c])
    ensures forall m :: m in z && m !in all[..c] && c > 0 ==> z[m] <= z[all[c - 1]]
  {
    var r := all[..c];
    forall m | m in z && m !in r && c > 0 ensures z[m] <= z[r[c - 1]] {
      var i :| 0 <= i < |all| && all[i] == m;
      assert i >= c;
    }
  }

  /** `getTrending` as written: the ids ZRANGE key 0 (limit - 1) REV returns. */
  ghost function RangeRev(z: SortedSet, limit: int): (r: seq<string>)
    ensures limit >= 1 ==> |r| == if limit < |z| then limit else |z|
    ensures limit <= 0 ==> |r| == if |z| + limit > 0 then |z| + limit else 0
    ensures Distinct(r) && RanksDown(z, r)
    ensures forall m :: m in z && m !in r && |r| > 0 ==> z[m] <= z[r[|r| - 1]]
  {
    var all := Ranked(z);
    var c := RangeCount(|all|, limit);
    RankPrefix(z, all, c);
    all[..c]
  }

  /** With `limit` 0 the read returns every member of the window, not none. */
  lemma ZeroLimitReturnsWholeSet(z: SortedSet)
    ensures |RangeRev(z, 0)| == |z|
  {
  }

  /** A concrete instance: a one-member window read with limit 0 returns that member. */
  lemma ZeroLimitExample()
    ensures RangeRev(map["b1" := 3], 0) == ["b1"]
  {
    var r := RangeRev(map["b1" := 3], 0);
    assert |r| == 1 && RanksDown(map["b1" := 3], r);
    assert r[0] in map["b1" := 3];
  }

  /** The top `limit` ids, read with the range clamped so that it never exceeds `limit`. */
  ghost function TopN(z: SortedSet, limit: int): (r: seq<string>)
    ensures |r| <= if limit < 0 then 0 else limit
    ensures limit >= 0 ==> |r| == if limit < |z| then limit else |z|
    ensures Distinct(r) && RanksDown(z, r)
    ensures forall m :: m in z && m !in r && |r| > 0 ==> z[m] <= z[r[|r| - 1]]
  {
    if limit <= 0 then [] else RangeRev(z, limit)
  }

  /** The score engine's state: the Redis sorted sets and the TTLs set on their keys. */
  class TrendingService {
    /** The sorted sets, by Redis key. */
    var sets: map<string, SortedSet>
    /** The TTL in seconds given by the last EXPIRE on each key. */
    var ttl: map<string, int>

    constructor (sets: map<string, SortedSet>, ttl: map<string, int>)
      ensures this.sets == sets && this.ttl == ttl
    {
      this.sets := sets;
      this.ttl := ttl;
    }

    /**
     * `incrementScore`: adds `Weight(kind) * amount` to the blog in every
     * window's set and resets each window key's TTL.
     */
    method IncrementScore(blogId: string, kind: ScoreKind, amount: int := 1)
      modifies this
      ensures sets == Bumped(old(sets), blogId, Weight(kind) * amount)
      ensures ttl == old(ttl) + WindowTtls()
    {
      var score := Weight(kind) * amount;
      ghost var s0, t0 := sets, ttl;
      for i := 0 to |TRENDING_WINDOWS|
        invariant sets == BumpedBefore(s0, blogId, score, i)
        invariant ttl == TtlsBefore(t0, i)
      {
        var (windowKey, windowMs) := TRENDING_WINDOWS[i];
        var redisKey := RedisKey(windowKey);
        sets := sets[redisKey := IncrBy(SetAt(sets, redisKey), blogId, score)];
        ttl := ttl[redisKey := CeilSeconds(windowMs)];
      }
      BumpedByLoop(s0, blogId, score);
      TtlsByLoop(t0);
    }

    /**
     * `getTrending(window, limit)`: the ids of the window's top `limit`
     * members, highest score first (the range clamped as in `TopN`).
     */
    ghost function GetTrending(window: string := "24h", limit: int := 10): (r: seq<string>)
      reads this
      ensures |r| <= if limit < 0 then 0 else limit
      ensures limit >= 0 ==> |r| == if limit < |SetAt(sets, RedisKey(window))| then limit else |SetAt(sets, RedisKey(window))|
      ensures Distinct(r)
      ensures forall i :: 0 <= i < |r| ==> r[i] in SetAt(sets, RedisKey(window))
      ensures RanksDown(SetAt(sets, RedisKey(window)), r)
      ensures forall m :: m in SetAt(sets, RedisKey(window)) && m !in r && |r| > 0 ==>
        SetAt(sets, RedisKey(window))[m] <= SetAt(sets, RedisKey(window))[r[|r| - 1]]
    {
      TopN(SetAt(sets, RedisKey(window)), limit)
    }
  }

}

=== FILE: user_service.dfy ===
/**
 * `UserService`: reading a profile, and the whitelisted profile update.
 * A user document is modelled as its string fields by name.
 */
module Users {
  import opened Wrappers
  import opened ApiErrors

  type UserDoc = map<string, string>

  /** The fields a profile update may change. */
  const ALLOWED_UPDATES: seq<string> := ["name"]

  const USER_NOT_FOUND: ApiError := ApiError(NOT_FOUND, "User not found")
  const NO_VALID_FIELDS: ApiError := ApiError(BAD_REQUEST, "No valid fields to update")

  /** The supplied fields that are whitelisted and truthy (a non-empty string). */
  function Whitelisted(updateData: map<string, string>): (u: map<string, string>)
    ensures u.Keys <= set k | k in ALLOWED_UPDATES
    ensures forall k :: k in u <==> k in ALLOWED_UPDATES && k in updateData && updateData[k] != ""
    ensures forall k :: k in u ==> u[k] == updateData[k]
  {
    map k | k in updateData && k in ALLOWED_UPDATES && updateData[k] != "" :: updateData[k]
  }

  /** The whitelist after its first `n` entries have been looked at. */
  function WhitelistedBefore(updateData: map<string, string>, n: nat): map<string, string>
    requires n <= |ALLOWED_UPDATES|
  {
    if n == 0 then map[]
    else
      var key := ALLOWED_UPDATES[n - 1];
      var u := WhitelistedBefore(updateData, n - 1);
      if key in updateData && updateData[key] != "" then u[key := updateData[key]] else u
  }

  /** Only `name` can change, and only to a non-empty value. */
  lemma OnlyNameChanges(updateData: map<string, string>)
    ensures Whitelisted(updateData).Keys <= {"name"}
    ensures "name" in Whitelisted(updateData) <==> "name" in updateData && updateData["name"] != ""
  {
  }

  class UserService {
    var users: map<string, UserDoc>

    constructor (users: map<string, UserDoc>)
      ensures this.users == users
    {
      this.users := users;
    }

    /** `getUserById`: the document, or NOT_FOUND. */
    method GetUserById(id: string) returns (r: Result<UserDoc, ApiError>)
      ensures id in users ==> r == Ok(users[id])
      ensures id !in users ==> r == Err(USER_NOT_FOUND)
    {
      if id !in users {
        return Err(USER_NOT_FOUND);
      }
      r := Ok(users[id]);
    }

    /** The loop that copies the whitelisted, truthy fields. */
    method CollectUpdates(updateData: map<string, string>) returns (updates: map<string, string>)
      ensures updates == Whitelisted(updateData)
    {
      updates := map[];
      for i := 0 to |ALLOWED_UPDATES|
        invariant updates == WhitelistedBefore(updateData, i)
      {
        var key := ALLOWED_UPDATES[i];
        if key in updateData && updateData[key] != "" {
          updates := updates[key := updateData[key]];
        }
      }
      assert updates == Whitelisted(updateData) by {
        assert |ALLOWED_UPDATES| == 1;
      }
    }

    /**
     * `updateUser`: nothing to update is a BAD_REQUEST before any write; a
     * missing user is NOT_FOUND; otherwise exactly the whitelisted fields
     * are `$set` on the document.
     */
    method UpdateUser(id: string, updateData: map<string, string>) returns (r: Result<UserDoc, ApiError>)
      modifies this
      ensures Whitelisted(updateData) == map[] ==> r == Err(NO_VALID_FIELDS) && users == old(users)
      ensures Whitelisted(updateData) != map[] && id !in old(users) ==> r == Err(USER_NOT_FOUND) && users == old(users)
      ensures Whitelisted(updateData) != map[] && id in old(users) ==>
        && r == Ok(old(users)[id] + Whitelisted(updateData))
        && users == old(users)[id := r.value]
    {
      var updates := CollectUpdates(updateData);
      if |updates| == 0 {
        return Err(NO_VALID_FIELDS);
      }
      if id !in users {
        return Err(USER_NOT_FOUND);
      }
      var user := users[id] + updates;
      users := users[id := user];
      r := Ok(user);
    }
  }
}

=== FILE: wrappers.dfy ===
/** Option and Result, shared by every module of the model. */
module Wrappers {

  datatype Option<+T> = None | Some(value: T) {
    function GetOr(default: T): T {
      match this
      case Some(v) => v
      case None => default
    }
  }

  datatype Result<+T, +E> = Ok(value: T) | Err(error: E)
}
